=== FILE: README.md ===
# Virtual classroom session logic in Dafny

This project models a real-time virtual classroom: teachers and students meet in a
room, see each other over WebRTC video, draw on a shared whiteboard, chat and share
documents. Two server coordinators keep track of who is in which room:

- the full coordinator, `server/services/socket.js`, which also keeps a
  participation tracker (speaking time, messages, whiteboard strokes, documents,
  hand raises, reactions) and writes an engagement summary when a member leaves;
- the simpler relay, `server/index.js`, which has an explicit leave, a
  disconnect-from-every-room and a per-room file list.

The client side is covered by its state machines:

- the bounded undo/redo history of the whiteboard (`useWhiteboard.js`);
- the connection and room guard (`useSocket.js`);
- camera and microphone status and toggles (`useVideoStream.js`);
- the peer roster of the video conference (`VideoConference.jsx`);
- the upload panel with its size and icon helpers (`DocumentSharing.jsx`);
- the column count of the video grid (`VideoGrid.jsx`).

## How the system is modelled

Every handler is a pure function. It takes the state and one inbound event, and
returns the next state together with the events it emits.

- **Emitted events.** An emitted event is an `Emit(target, event)` value. The
  target is one socket or "everyone in the room but the sender".
- **JavaScript `Map`.** A `Map` is a sequence of key/value pairs with distinct keys
  (`OrderedMap`). Setting an existing key keeps its position and deleting keeps the
  order of the rest. Snapshots and the relay's host rule depend on that order.
- **Time.** `Date.now()` is an integer `now` in milliseconds, and durations in
  seconds are `real`.
- **Outside answers.** The answer of every database call, every disk write and
  every browser media prompt is a parameter. This covers success or failure, and
  the stored record where the caller uses one.
- **Falsy strings.** JavaScript truthiness of strings is written out: the empty
  string counts as missing.

Modules, one per file:

- `Wrappers`, `Strings`, `OrderedMap`, `Transport`: support modules.
- `Participation` and `SessionServer`: `server/services/socket.js`.
- `RelayServer`: `server/index.js`.
- `WhiteboardHistory`, `SessionGuard`, `MediaStream`, `PeerRoster`,
  `DocumentSharing`, `VideoGrid`: the client files named above.

## Model

| member | source | states |
|---|---|---|
| OrderedMap.Set | server/index.js:37 | Re-setting a key keeps its place in insertion order and replaces its value. A new key goes last. Every other key keeps its value. |
| OrderedMap.Delete | server/index.js:128 | Deleting removes exactly that key and keeps the remaining keys in order. Deleting an absent key changes nothing. |
| OrderedMap.SetValid | server/index.js:32-37 | Setting a key never creates a duplicate key. |
| OrderedMap.DeleteValid | server/index.js:126-129 | Deleting keeps keys distinct and, when the key was present, shrinks the map by exactly one entry. |
| OrderedMap.DeleteSetFresh | server/services/socket.js:220-224 | Adding a fresh key and then deleting it gives back the original map. |
| Strings.OrElse | server/services/socket.js:352 | `x \|\| fallback` on strings: the result is the value when it is a non-empty string, otherwise the fallback. |
| Strings.Includes | client/src/components/Communication/DocumentSharing.jsx:93-97 | `includes` holds exactly when the substring occurs at some index. |
| Strings.LastSegmentSpec | server/services/socket.js:393-395 | `split(sep).pop()` is a suffix of the input that contains no separator. It is preceded by a separator when one occurs, and it is the whole input when none does. |
| Strings.IntToString | client/src/components/Communication/DocumentSharing.jsx:82 | Decimal text of an integer: digits only and no leading zero, with a '-' prefix for negatives. |
| Strings.NatToStringInjective | client/src/components/Communication/DocumentSharing.jsx:51 | Different numbers render to different texts. The partner `ParseNatToString` parses the text back to the number. |
| Participation.FreshRecord | server/services/socket.js:84-99 | A new record starts with join time and last activity equal to `now`, no speaking and every counter zero. |
| Participation.Initialize | server/services/socket.js:80-102 | Afterwards the (room, user) key is present and the record returned is the stored one. An existing record is returned untouched, and a missing one is created fresh. |
| Participation.InitializeIdempotent | server/services/socket.js:83-84 | Initializing a second time, even under another name or a later time, changes nothing and returns the first record. |
| Participation.Update | server/services/socket.js:105-139 | A missing record leaves the tracker unchanged. Otherwise only that record changes and no key is added or removed. |
| Participation.Apply | server/services/socket.js:108-136 | Every metric sets last activity to `now` and leaves identity and join time alone. |
| Participation.ApplyFrame | server/services/socket.js:123-136 | Each counter metric adds its amount to its own counter and to nothing else. An unknown metric changes only last activity. |
| Participation.SpeakingMachine | server/services/socket.js:112-121 | Speaking on while silent opens an interval at `now`. Off while speaking adds (now - start)/1000 seconds and closes it. A repeated value only touches last activity. |
| Participation.ApplyPreserves | server/services/socket.js:105-139 | A metric keeps the record well formed: an open interval always has a start, and all counters stay non-negative for non-negative amounts. |
| Participation.SpeakingTimeMonotone | server/services/socket.js:112-121 | Over any run of metrics with non-decreasing timestamps, accumulated speaking time never decreases. |
| Participation.EngagementScore | server/services/socket.js:156-163 | The score is the minimum of 100 and the weighted sum. It lies in [0, 100] for non-negative counters. |
| Participation.EngagementScoreExamples | server/services/socket.js:156-163 | Ten messages and nothing else score 50. A busier record is capped at 100. |
| Participation.FoldOpenInterval | server/services/socket.js:149-151 | An open interval with a non-zero start is added to speaking time and nothing else changes. Otherwise the record is unchanged. |
| Participation.Summarize | server/services/socket.js:153-181 | The summary carries presence (now - join)/1000, the folded speaking time, every counter, and a score in [0, 100]. |
| Participation.Flush | server/services/socket.js:142-189 | An absent record is a no-op. A successful write removes the record and yields its summary. A failed write keeps the record with the open interval already folded in. |
| Participation.FlushTwice | server/services/socket.js:145-146 | A second flush after a successful one is a no-op. |
| Participation.FailedFlushRefolds | server/services/socket.js:149-151 | After a failed write the speaking flag stays set, so the next flush counts the same interval a second time. |
| Participation.RejoinStartsFresh | server/services/socket.js:184 | After a successful flush, joining again starts a fresh record at the new time. |
| Participation.RecordKeyInjective | server/services/socket.js:81 | Keys `room:user` identify the pair whenever room ids contain no ':'. |
| Participation.RecordKeyCollision | server/services/socket.js:81 | With a ':' inside a room id, two different pairs share one key. |
| SessionServer.Participants | server/services/socket.js:254-264 | One participant entry per member, in insertion order, carrying the member's socket id, user id, name and role. |
| SessionServer.Admit | server/services/socket.js:204-227 | The room exists afterwards. The joiner's entry is set and the order follows the JS `Map` rule. Other members and other rooms are unchanged, and a participation record exists. |
| SessionServer.Join | server/services/socket.js:195-277 | The socket's room is always recorded. If the room record cannot be created the joiner gets an error, the room is left active with no members, and the participation records are unchanged. Otherwise the room is told and the joiner receives the participant list, or an error when the participant update failed. |
| SessionServer.JoinKeepsValid | server/services/socket.js:195-277 | Joining keeps every room's member keys distinct. |
| SessionServer.JoinedShape | server/services/socket.js:220-264 | After a join on a ready room the directory has exactly the joiner's entry added, the socket points at the room, and a fresh participation record exists. |
| SessionServer.Others | server/services/socket.js:284-294 | The peer list has every member except the requester, in insertion order. In a member map without duplicate sockets, each entry carries the user id and name filed for its socket. |
| SessionServer.PeerSnapshot | server/services/socket.js:280-301 | Only the requester gets `all-users`. It never lists the requester and is empty for an unknown room. Otherwise it lists the other members in insertion order, each with its filed user id and name. |
| SessionServer.PeerSnapshotExample | server/services/socket.js:280-301 | After two joins, each of the two sees exactly the other. |
| SessionServer.SendingSignal | server/services/socket.js:304-310 | Signal, caller id and name reach exactly the addressed socket, verbatim. |
| SessionServer.ReturningSignal | server/services/socket.js:312-317 | The answer reaches exactly the caller, tagged with the responder's own socket id. |
| SessionServer.CheckTeacher | server/services/socket.js:320-332 | Only the requester gets the answer of the host rule. |
| SessionServer.UserIdOf | server/services/socket.js:198 | Participation is tracked under the authenticated user's id. A guest without one is tracked under its socket id. |
| SessionServer.IsHost | server/services/socket.js:322-325 | A teacher is always host. Anyone else is host exactly when the room is active and has a single member. A room that is not active gives no one but a teacher the host role. |
| SessionServer.HostRuleBySize | server/services/socket.js:322-325 | In a room with one member anybody asking is host. With two or more members, only a teacher is. |
| SessionServer.WhiteboardDraw | server/services/socket.js:335-345 | The unchanged drawing goes as one event to the rest of the room, and nothing goes to a single socket. The sender's record, if any, gains one whiteboard interaction and its activity time becomes now. Nothing else changes, and without a record nothing changes at all. |
| SessionServer.SendMessage | server/services/socket.js:348-383 | If the store fails, only the sender hears of it: no broadcast and nothing counted. Otherwise the stored message goes as one event to the rest of the room. It carries the store's id and time, the room, the text, the kind (default "text"), the sender's id, and the authenticated name before the client-supplied one. The sender's record gains one message and nothing else changes. |
| SessionServer.UploadPayload | server/services/socket.js:393 | The stored payload is the part after the last `;base64,` marker, or the whole data when there is no marker. |
| SessionServer.Extension | server/services/socket.js:395 | The extension is the text after the last '.', which contains no '.', or the whole name when it has no '.'. |
| SessionServer.StoredFileName | server/services/socket.js:396 | The stored name is `<id>.<extension>`, and `<id>.<name>` for a name without a dot. |
| SessionServer.StoredPath | server/services/socket.js:410 | The public path is `/uploads/<id>.<extension>`. |
| SessionServer.ShareFile | server/services/socket.js:386-449 | If any of the three writes fails, only the sender hears of it and the in-memory state does not change. Otherwise the document goes as one event to the rest of the room. It carries the store's id and time, the name, room, type and size of the upload, the sender's id, the authenticated name before the client-supplied one, and the path `/uploads/<id>.<extension>`. The sender's record gains one share and nothing else changes. |
| SessionServer.ShareCountsInSummary | server/services/socket.js:444 | When the sender's record is later flushed, its summary counts one more shared document after a share whose writes all succeeded, and none more after a failed one. |
| SessionServer.GetFiles | server/services/socket.js:452-462 | Only the requester gets the room's documents, or an error when the query fails. |
| SessionServer.SpeakingStatus | server/services/socket.js:465-468 | Nothing is emitted, and only the sender's record can change. Starting to speak opens an interval at now, and stopping closes it and adds its length. A repeated status only updates the activity time. A missing `isSpeaking` counts as speaking, through the tracker's default value. |
| SessionServer.HandRaise | server/services/socket.js:471-490 | The room always gets one event with the hand's state, and no single socket is addressed. A raised hand adds one to the record's count and updates its activity time. A lowered hand changes nothing. |
| SessionServer.SendReaction | server/services/socket.js:493-510 | The reaction goes as one event to the rest of the room. The sender's record, if any, gains one reaction and its activity time becomes now. Nothing else changes. |
| SessionServer.Insights | server/services/socket.js:513-548 | Anyone but a teacher or admin gets the permission error. For a teacher or admin, any live record of the room makes the handler fail with the generic error, because it reads a `metrics` field that records do not have. Only a room with no live record gives the (empty) insight list. Only the requester hears, and nothing changes. |
| SessionServer.SpeakThenSilence | server/services/socket.js:465-468 | Starting then stopping to speak adds exactly the time between the two statuses and closes the interval. Nothing else changes. |
| SessionServer.HandUpThenDown | server/services/socket.js:471-490 | Raising then lowering a hand tells the room twice but counts once. |
| SessionServer.InsightsFailAfterJoin | server/services/socket.js:513-548 | After any admitted join, a teacher's or admin's insights request for that room fails. |
| SessionServer.InsightsBeforeAnyJoin | server/services/socket.js:513-548 | Before anyone joins, a teacher or admin gets the empty insight list. |
| SessionServer.Disconnect | server/services/socket.js:551-579 | The socket's `userRooms` entry always goes. If it was in a room, the socket leaves that room and the room goes once it is empty. The room is told, and the record is flushed. |
| SessionServer.DisconnectKeepsValid | server/services/socket.js:551-579 | Disconnecting keeps the directory well formed. |
| SessionServer.DisconnectedRooms | server/services/socket.js:555-562 | The left room keeps its other members in order and is deleted exactly when none remain. |
| SessionServer.AddRemoveMember | server/services/socket.js:204-224 | Adding a fresh member to a room and removing it again restores the room directory, including whether the room existed. |
| SessionServer.JoinThenDisconnect | server/services/socket.js:195-579 | A fresh socket that joins and then disconnects with a successful write leaves the whole state as it found it. |
| SessionServer.JoinThenDisconnectRecords | server/services/socket.js:227-571 | The same round trip leaves the participation tracker as it was: the fresh record is flushed and removed. |
| SessionServer.JoinThenDisconnectRooms | server/services/socket.js:195-579 | The same round trip restores the room directory. |
| SessionServer.JoinThenDisconnectUsers | server/services/socket.js:195-579 | The same round trip removes the socket's room entry again. |
| SessionServer.SwitchingRoomsLeavesStaleMember | server/services/socket.js:201-224 | Joining a second room without leaving the first keeps the socket listed in the first room after it disconnects. |
| RelayServer.Join | server/index.js:28-46 | The room is created on first use and the member is set, so joining twice leaves one entry. Other rooms and files are unchanged. The room is told. |
| RelayServer.RemoveMember | server/index.js:126-130 | The member goes. The room is deleted exactly when it empties, and other rooms are unchanged. |
| RelayServer.Leave | server/index.js:124-133 | Leaving an unknown room changes nothing. Otherwise the member is removed, and files never change. |
| RelayServer.DropEverywhereGet | server/index.js:139-149 | After a disconnect each room is what it was minus the socket, or gone when only the socket was left. |
| RelayServer.RoomsWithSpec | server/index.js:139-144 | The rooms notified are exactly the rooms that held the socket. |
| RelayServer.Disconnect | server/index.js:136-152 | The socket is in no room afterwards. Rooms without it are unchanged and emptied rooms are deleted. With distinct room ids, the rooms told are exactly those that held it, each told once. Files never change. |
| RelayServer.RoomsWithDistinct | server/index.js:136-152 | With distinct room ids, the disconnect walk finds each room at most once. |
| RelayServer.PeerSnapshot | server/index.js:49-65 | Only the requester gets every other member, in insertion order and never itself. An unknown room gives an empty list. |
| RelayServer.CheckTeacher | server/index.js:85-93 | Only the requester gets the answer of the relay's host rule. |
| RelayServer.FirstJoinerIsHost | server/index.js:85-93 | Anyone asking about an unknown room is host, and so is the member of a room just created. |
| RelayServer.LaterJoinerIsNotHost | server/index.js:85-93 | A newcomer to an occupied room is not host. |
| RelayServer.IsHost | server/index.js:85-93 | Anyone asking about a room that does not exist yet is host. In an existing room, the asker is host when the room has one member or the asker is its earliest member. |
| RelayServer.HostPassesOn | server/index.js:85-93 | In a room with two or more members, exactly the earliest member is host among its members. After it leaves, the members are the rest in order, and exactly the earliest of them is host. |
| RelayServer.OutsiderToldHost | server/index.js:85-93 | A socket outside a one-member room is told it is host, alongside the real member. |
| RelayServer.SendingSignal | server/index.js:68-74 | The signal reaches exactly the addressed socket, verbatim. |
| RelayServer.ReturningSignal | server/index.js:77-82 | The answer reaches exactly the caller, tagged with the responder's id. |
| RelayServer.RelayDrawing | server/index.js:96-98 | One broadcast of the drawing to the rest of the room. |
| RelayServer.RelayMessage | server/index.js:101-103 | One broadcast of the message to the rest of the room. |
| RelayServer.ShareFile | server/index.js:106-115 | The file is appended to its room's list only. Rooms are unchanged and the room is told. |
| RelayServer.GetFiles | server/index.js:118-121 | Only the requester gets the room's uploads in order, or an empty list for an unknown room. |
| RelayServer.RunKeepsInv | server/index.js:32-37 | After any run of joins, leaves, disconnects and shares, every room has at least one member and no key repeats. |
| RelayServer.FilesOutliveRooms | server/index.js:106-152 | Joins, leaves and disconnects never touch any room's file list. |
| WhiteboardHistory.KeepLast | client/src/hooks/useWhiteboard.js:77 | `slice(-limit)` keeps the last `min(limit, length)` entries, and keeps everything when the limit is 0. |
| WhiteboardHistory.Save | client/src/hooks/useWhiteboard.js:68-80 | The kept prefix plus the image is cut to its last `limit` entries, with the image at the end and the index on it. From a consistent board the length is `min(limit, index + 2)` (or `index + 2` with no limit), and every earlier entry is the matching entry before the index. |
| WhiteboardHistory.SaveExample | client/src/hooks/useWhiteboard.js:68-80 | Saving "b" over a board holding "a" gives `["a", "b"]`. With a limit of 2 the oldest entry is dropped. |
| WhiteboardHistory.Undo | client/src/hooks/useWhiteboard.js:98-109 | A no-op at index 0 or below or on an empty history. Otherwise the index drops by one and the history is untouched. The move is sent when online, and the previous image is painted only once the canvas is ready. |
| WhiteboardHistory.Redo | client/src/hooks/useWhiteboard.js:112-123 | A no-op at the last entry. Otherwise the index rises by one and the move is sent when online. The next image is painted only once the canvas is ready. |
| WhiteboardHistory.UndoEnabledIffCanUndo | client/src/hooks/useWhiteboard.js:408-411 | Undo changes the board exactly when `canUndo` (index > 0). |
| WhiteboardHistory.RedoEnabledIffCanRedo | client/src/hooks/useWhiteboard.js:408-411 | Redo changes the board exactly when `canRedo` (index < length - 1). |
| WhiteboardHistory.UndoRedoRoundTrip | client/src/hooks/useWhiteboard.js:98-123 | Undo then redo, or redo then undo, gives the board back. |
| WhiteboardHistory.SaveThenUndo | client/src/hooks/useWhiteboard.js:68-109 | After a save nothing can be redone, and undo shows the image that was current before the save. |
| WhiteboardHistory.Clear | client/src/hooks/useWhiteboard.js:126-141 | Clearing saves a blank image and announces it exactly when online. |
| WhiteboardHistory.Initialize | client/src/hooks/useWhiteboard.js:39-65 | The board becomes ready with the initial image as its current entry. |
| WhiteboardHistory.StartDrawing | client/src/hooks/useWhiteboard.js:144-175 | Drawing starts only on a ready board and is announced when online. |
| WhiteboardHistory.EndDrawing | client/src/hooks/useWhiteboard.js:214-228 | Ending a stroke saves the canvas and announces it when online. Without a stroke it does nothing. |
| WhiteboardHistory.RemoteIndex | client/src/hooks/useWhiteboard.js:289-301 | A remote undo or redo index is taken only when it lies in the history. That image is then painted once the canvas is ready. |
| WhiteboardHistory.RemoteState | client/src/hooks/useWhiteboard.js:281-287 | A non-empty remote image resets the history to that image alone, at index 0. It is painted once the canvas is ready. |
| WhiteboardHistory.RemoteClear | client/src/hooks/useWhiteboard.js:277-279 | A remote clear runs the local clear, which announces the clear again. |
| WhiteboardHistory.RunKeepsInv | client/src/hooks/useWhiteboard.js:16-17 | From the initial board, -1 <= index < length holds after every sequence of operations. |
| WhiteboardHistory.InitialInv | client/src/hooks/useWhiteboard.js:16-17 | The initial board satisfies the invariant, and neither undo nor redo is possible. |
| SessionGuard.OnConnect | client/src/hooks/useSocket.js:33-37 | Connecting sets the connected flag and clears the error. The room is untouched. |
| SessionGuard.OnDisconnect | client/src/hooks/useSocket.js:39-42 | Disconnecting clears the connected flag and keeps the room. |
| SessionGuard.OnError | client/src/hooks/useSocket.js:44-47 | Only the error changes. It is the given message, or a default when the message is empty. |
| SessionGuard.OnRoomUpdate | client/src/hooks/useSocket.js:49-51 | Only the participant list changes, to an empty list when none is given. |
| SessionGuard.JoinRoom | client/src/hooks/useSocket.js:72-76 | Offline, it sets an error and emits nothing. Online, it emits one join request. |
| SessionGuard.JoinAck | client/src/hooks/useSocket.js:78-85 | A successful ack sets the room and participants. A failed one sets an error and keeps the room. |
| SessionGuard.LeaveRoom | client/src/hooks/useSocket.js:89-90 | A no-op when offline or not in a room. Otherwise it emits one leave request. |
| SessionGuard.LeaveAck | client/src/hooks/useSocket.js:92-99 | A successful ack clears the room and participants. A failed one changes only the error: the server's message, or "Failed to leave room" when it is missing or empty. |
| SessionGuard.SendMessage | client/src/hooks/useSocket.js:103-116 | It returns true exactly when connected and in a room, and then emits one message. Otherwise it sets an error and emits nothing. |
| SessionGuard.Emit | client/src/hooks/useSocket.js:127-134 | It emits only when connected. Otherwise it sets an error. |
| SessionGuard.JoinLeaveRoundTrip | client/src/hooks/useSocket.js:72-100 | A successful join and leave gives back the original connection state with participants reset. |
| SessionGuard.DisconnectBlocksUntilReconnect | client/src/hooks/useSocket.js:33-42 | After a disconnect sending fails, and after reconnecting it succeeds again in the same room. |
| SessionGuard.EmptyRoomIdIsNoRoom | client/src/hooks/useSocket.js:81-90 | A successful join to the empty room id leaves the guard treating the client as in no room. |
| MediaStream.StopTracks | client/src/hooks/useVideoStream.js:42-44 | Stopping ends every track and changes nothing else about it. |
| MediaStream.Initialize | client/src/hooks/useVideoStream.js:39-81 | On success each kind is available exactly when it has a track, both flags are on and the error is cleared. NotAllowedError marks requested kinds denied. NotFoundError marks them unavailable. The other kinds become pending, and any other failure sets only the error. |
| MediaStream.ToggleVideo | client/src/hooks/useVideoStream.js:84-93 | Every video track is flipped and the flag follows the first track, or is off with no tracks. Nothing else changes: not the audio, the statuses, the error or the screen share. Without a stream nothing changes at all. |
| MediaStream.ToggleAudio | client/src/hooks/useVideoStream.js:96-105 | Every audio track is flipped and the flag follows the first track, or is off with no tracks. Nothing else changes: not the video, the statuses, the error or the screen share. Without a stream nothing changes at all. |
| MediaStream.ToggleVideoTwice | client/src/hooks/useVideoStream.js:84-93 | Toggling twice restores the tracks. |
| MediaStream.ToggleAudioTwice | client/src/hooks/useVideoStream.js:96-105 | Toggling twice restores the tracks. |
| MediaStream.ToggleAfterGrant | client/src/hooks/useVideoStream.js:48-56 | Right after a grant, the first video toggle turns video off. |
| MediaStream.FailedRetryKeepsEndedStream | client/src/hooks/useVideoStream.js:42-44 | A failed retry keeps the old stream object with its tracks ended, and the video flag stays on. |
| MediaStream.StartScreenShare | client/src/hooks/useVideoStream.js:108-133 | A no-op while sharing. A granted screen with a video track starts sharing. Without a video track, or on refusal, it records an error and does not share. |
| MediaStream.StartIsIdempotentWhileSharing | client/src/hooks/useVideoStream.js:110 | Starting a second time changes nothing. |
| MediaStream.StopScreenShare | client/src/hooks/useVideoStream.js:136-142 | Stopping always ends sharing and forgets the screen stream. |
| PeerRoster.AllUsers | client/src/components/VideoConferencing/VideoConference.jsx:30-46 | The shown roster is exactly one new entry per listed user, in order and keyed by socket id. The same entries are appended to the known list. |
| PeerRoster.UserJoined | client/src/components/VideoConferencing/VideoConference.jsx:49-57 | One new peer keyed by the caller is added to the lookup list. The rendered roster gains it once, except right after a disconnect: the two lists are then one array, so the push already grew the rendered roster, and the caller is shown twice with one peer object. |
| PeerRoster.DisconnectThenJoinShowsCallerTwice | client/src/components/VideoConferencing/VideoConference.jsx:49-76 | After `all-users`, `user-disconnected` and `user-joined`, the caller is rendered twice but looked up once. |
| PeerRoster.ReturnedSignal | client/src/components/VideoConferencing/VideoConference.jsx:60-65 | The signal goes only to the first known entry with the sender's id. With no such entry nothing happens. |
| PeerRoster.Drop | client/src/components/VideoConferencing/VideoConference.jsx:72-74 | Every entry with the id goes and the rest stay in order. |
| PeerRoster.DropInOrder | client/src/components/VideoConferencing/VideoConference.jsx:72-74 | Filtering works entry by entry: a single entry is kept exactly when its id differs, and a concatenation is filtered part by part. |
| PeerRoster.UserDisconnected | client/src/components/VideoConferencing/VideoConference.jsx:68-76 | Every entry with the id is removed and the shown roster becomes the same array as the known list. The first such peer is destroyed, and with no such entry nothing is destroyed. |
| PeerRoster.RunKeepsInv | client/src/components/VideoConferencing/VideoConference.jsx:30-76 | Through any sequence of roster events, every shown entry is also known, known peer handles stay distinct, and each handle is below the creation counter. |
| PeerRoster.RepeatedAllUsersSignalsStalePeer | client/src/components/VideoConferencing/VideoConference.jsx:30-65 | After a second `all-users` naming the same user, a returned signal goes to the first, stale peer. |
| PeerRoster.ToggleAudio | client/src/components/VideoConferencing/VideoConference.jsx:130-137 | With a stream the flag is negated and every audio track takes the new value, with nothing else about it changed. The video tracks are untouched. Without a stream nothing changes. |
| PeerRoster.ToggleVideo | client/src/components/VideoConferencing/VideoConference.jsx:140-147 | With a stream the flag is negated and every video track takes the new value, with nothing else about it changed. The audio tracks are untouched. Without a stream nothing changes. |
| PeerRoster.ToggleAudioTwice | client/src/components/VideoConferencing/VideoConference.jsx:130-137 | Toggling twice restores the flag, and every track ends up matching it. |
| DocumentSharing.FormatSize | client/src/components/Communication/DocumentSharing.jsx:81-85 | The unit is bytes below 1024, KB below 1048576 and MB beyond. The byte text is exactly `<n> bytes`, and each amount times its unit is the size. |
| DocumentSharing.SizeLabelRoundTrip | client/src/components/Communication/DocumentSharing.jsx:81-85 | The size can be recovered from its label. |
| DocumentSharing.UnitMonotone | client/src/components/Communication/DocumentSharing.jsx:81-85 | A larger file never gets a smaller unit. |
| DocumentSharing.FormatSizeExamples | client/src/components/Communication/DocumentSharing.jsx:81-85 | 0 and 42 bytes, 1.5 KB for 1536 and 3.0 MB for 3145728. |
| DocumentSharing.FileIcon | client/src/components/Communication/DocumentSharing.jsx:92-99 | Image, pdf, word/document, spreadsheet/excel and presentation/powerpoint are tested in that order, the first match wins, and the folder icon is the default. |
| DocumentSharing.FileIconExamples | client/src/components/Communication/DocumentSharing.jsx:92-99 | A PNG image gets the picture icon. |
| DocumentSharing.DocumentShadowsLaterIcons | client/src/components/Communication/DocumentSharing.jsx:94-97 | Any type containing "document", and no earlier keyword, gets the text icon, even an office spreadsheet type. |
| DocumentSharing.Mount | client/src/components/Communication/DocumentSharing.jsx:11-29 | With a socket, mounting asks the server for the room's files. |
| DocumentSharing.FileShared | client/src/components/Communication/DocumentSharing.jsx:15-17 | One entry is appended. |
| DocumentSharing.AllFiles | client/src/components/Communication/DocumentSharing.jsx:21-23 | The whole list is replaced. |
| DocumentSharing.StartUpload | client/src/components/Communication/DocumentSharing.jsx:31-37 | Nothing happens without a file or a socket. Otherwise uploading starts. |
| DocumentSharing.Describe | client/src/components/Communication/DocumentSharing.jsx:50-59 | The record carries the picked file's name, type and size, the encoded data, the room, and an id taken from `now`. |
| DocumentSharing.FinishUpload | client/src/components/Communication/DocumentSharing.jsx:44-66 | Encoded data over 5,000,000 characters emits nothing and leaves the list. Otherwise `share-file` is emitted once and exactly that file is appended. Uploading always ends. |
| DocumentSharing.SameMillisecondSameId | client/src/components/Communication/DocumentSharing.jsx:51 | Two uploads in the same millisecond get the same id. |
| DocumentSharing.DistinctMillisecondsDistinctIds | client/src/components/Communication/DocumentSharing.jsx:51 | Uploads in different milliseconds get different ids. |
| DocumentSharing.UploadReachesRoom | client/src/components/Communication/DocumentSharing.jsx:62-66 | An accepted upload, handed to the relay's `share-file`, shows up at the end of that room's `get-files` answer. |
| VideoGrid.Columns | client/src/components/VideoConferencing/VideoGrid.jsx:20-27 | With count = peers + 1, the column count is 1 for one tile, 2 for 2-4, 3 for 5-9 and 4 from 10, so always in 1..4. |
| VideoGrid.GridColsClass | client/src/components/VideoConferencing/VideoGrid.jsx:20-27 | The class is `grid-cols-` followed by the column count. |
| VideoGrid.ColumnsMonotone | client/src/components/VideoConferencing/VideoGrid.jsx:20-27 | More peers never means fewer columns. |
| VideoGrid.ColumnsFit | client/src/components/VideoConferencing/VideoGrid.jsx:20-27 | Up to 16 tiles, the grid is the smallest square that holds every tile. |

## Left out

- Transport: the socket.io server, its room adapter and CORS are left out. Emitted events are values, and the adapter's own membership of socket.io rooms is not modelled.
- Authentication: the JWT middleware of `server/services/socket.js` is out. Its result is the `Identity` parameter.
- Storage: MongoDB reads and writes are parameters that give success or failure, or the stored record. Collections are not modelled.
- Disk: creating the uploads directory and writing the file are out. Only the file name and path are modelled.
- Awaits inside handlers: every `SessionServer` handler runs as one atomic step, although several await the store or the disk part-way. These are join, send-message, share-file (three writes), get-files and disconnect (`saveParticipationData`). Events handled during such a wait are not modelled.
  - Example: during disconnect's flush the record is still live and the socket's room entry is still in place. If the same user rejoins or reports a metric then, `initializeParticipation` hands back the old record, and the deletion after the write removes it, leaving the rejoined member without a record.
  - So `Participation.RejoinStartsFresh` and `SessionServer.JoinThenDisconnect` hold only when handlers do not interleave.
  - A failure of the room store after the room was created in memory leaves an empty room behind, so `SessionServer` claims no "every room has members" invariant.
- SessionServer.HandRaise: `isRaised` is a boolean. The source forwards whatever value the client sent and counts a raise when that value is truthy; a missing or non-boolean value is not modelled.
- SessionServer.ShareFile: the three writes are not atomic. A share that fails after the file reached the disk, or after the document record was saved, leaves them stored. A retry then stores a second document record, which later file listings return. The model keeps only the in-memory state, which such a failure leaves unchanged.
- SessionServer.SpeakingStatus: `isSpeaking` is a boolean or missing. Other JSON values (numbers, strings, `null`) and their truthiness are not modelled.
- The chat history sent to a joiner depends on the database's double sort. It is an opaque parameter.
- SessionServer.Insights: the insight entries a corrected handler would list are not modelled. As written, the handler can only send the empty list or fail.
- The `user-with-media` handler of `server/services/socket.js` only re-sends the peer snapshot, which is what `SessionServer.PeerSnapshot` models. The same holds for `server/index.js`.
- Whiteboard canvas work is out. Drawing, line smoothing, the throttle timer, resizing, and image encode and decode are not modelled. Images are opaque tokens.
- The whiteboard functions that only move images around are out: `applyCanvasState`, `handleRemoteDrawing`, `exportImage`, `importImage`, `requestWhiteboardState` and `shareWhiteboardState`.
- useSocket's `subscribe` and its cleanup only register callbacks and are left out.
- Device enumeration and switching in `useVideoStream.js` are left out (`getAvailableDevices`, `switchCamera`, `switchMicrophone`).
- The screen share's `onended` callback is out. It calls the version of `stopScreenSharing` captured when sharing started.
- The WebRTC peers of `VideoConference.jsx` are opaque handles: `createPeer` and `addPeer` build them, and their signalling emits are not modelled. The component uses `Peer` without importing simple-peer.
- Client event names do not match the servers: `useSocket` and `useWhiteboard` emit `join_room`, `whiteboard_*` and similar, while both servers listen for `join-room`, `whiteboard-draw` and so on. Each side is modelled as written, and only `DocumentSharing.UploadReachesRoom` joins a client to a server, on names that agree.
- Number formatting: `toFixed(1)` and `formatTime` text are left out. `DocumentSharing.FormatSize` gives the exact KB and MB amount, not its one-decimal text.
- Reading the picked file with FileReader and downloading a file are out. The encoded data is a parameter.
- MediaStream.StartScreenShare: the text of the `TypeError` raised for a screen stream without a video track is a fixed constant, since it comes from the JavaScript engine.
- LandingPage, ClassroomPage, Chat, Whiteboard.jsx, WhiteboardControls, VideoControls, App, main, ClassroomLayout and the database config are presentation or wiring only. The mongoose schemas are used only as record shapes.

=== FILE: document_sharing.dfy ===
/** The document panel (client/src/components/Communication/DocumentSharing.jsx):
    the room's file list, the upload guard, and the pure helpers that label a
    file's size and pick its icon. Reading the file and the clock are inputs. */
module DocumentSharing {

  import opened Wrappers
  import opened Strings
  import opened Transport
  import Relay = RelayServer

  // ---------------------------------------------------------------------------
  // formatSize

  const KiB := 1024
  const MiB := 1048576

  /** How a size is shown: an exact count of bytes, or an amount of KB or MB
      (rendered with one decimal by `toFixed(1)`, which is not modelled). */
  datatype SizeLabel = Bytes(text: string) | Kilobytes(amount: real) | Megabytes(amount: real)

  /** `formatSize`: bytes below 1024, KB below 1048576, MB from there on. */
  function FormatSize(bytes: int): (l: SizeLabel)
    ensures l.Bytes? <==> bytes < KiB
    ensures l.Kilobytes? <==> KiB <= bytes < MiB
    ensures l.Megabytes? <==> MiB <= bytes
    ensures l.Bytes? ==> l.text == IntToString(bytes) + " bytes"
    ensures l.Kilobytes? ==> 1.0 <= l.amount < 1024.0 && l.amount * 1024.0 == bytes as real
    ensures l.Megabytes? ==> 1.0 <= l.amount && l.amount * 1048576.0 == bytes as real
  {
    if bytes < KiB then Bytes(IntToString(bytes) + " bytes")
    else if bytes < MiB then Kilobytes(bytes as real / 1024.0)
    else Megabytes(bytes as real / 1048576.0)
  }

  /** The size a label stands for; the partner of `FormatSize`. */
  function SizeOf(l: SizeLabel): int
  {
    match l
    case Bytes(text) =>
      var digits := if |text| >= 6 then text[..|text| - 6] else "";
      if forall i :: 0 <= i < |digits| ==> '0' <= digits[i] <= '9' then ParseDigits(digits) else -1
    case Kilobytes(amount) => (amount * 1024.0).Floor
    case Megabytes(amount) => (amount * 1048576.0).Floor
  }

  /** Every label of a file size reads back as that size. */
  lemma SizeLabelRoundTrip(n: nat)
    ensures SizeOf(FormatSize(n)) == n
  {
    if n < KiB {
      var text := IntToString(n) + " bytes";
      assert text[..|text| - 6] == NatToString(n);
      ParseNatToString(n);
    }
  }

  /** The unit never gets smaller as the size grows. */
  function UnitRank(l: SizeLabel): nat
  {
    match l
    case Bytes(_) => 0
    case Kilobytes(_) => 1
    case Megabytes(_) => 2
  }

  lemma UnitMonotone(a: int, b: int)
    requires a <= b
    ensures UnitRank(FormatSize(a)) <= UnitRank(FormatSize(b))
  {
  }

  lemma FormatSizeExamples()
    ensures FormatSize(0) == Bytes("0 bytes")
    ensures FormatSize(42) == Bytes("42 bytes")
    ensures FormatSize(1536) == Kilobytes(1.5)
    ensures FormatSize(3145728) == Megabytes(3.0)
  {
    assert NatToString(42) == NatToString(4) + [DigitChar(2)];
  }

  // ---------------------------------------------------------------------------
  // getFileIcon

  /** The six icons, in the order they are tested. */
  datatype Icon = Picture | Pdf | Text | Sheet | Slides | Folder

  ghost predicate IsText(t: string) { Occurs(t, "word") || Occurs(t, "document") }
  ghost predicate IsSheet(t: string) { Occurs(t, "spreadsheet") || Occurs(t, "excel") }
  ghost predicate IsSlides(t: string) { Occurs(t, "presentation") || Occurs(t, "powerpoint") }

  /** `getFileIcon`: the first of image, pdf, word/document,
      spreadsheet/excel, presentation/powerpoint that the type mentions
      decides, and anything else gets the folder. */
  function FileIcon(fileType: string): (i: Icon)
    ensures i == Picture <==> Occurs(fileType, "image")
    ensures i == Pdf <==> !Occurs(fileType, "image") && Occurs(fileType, "pdf")
    ensures i == Text <==> !Occurs(fileType, "image") && !Occurs(fileType, "pdf") && IsText(fileType)
    ensures i == Sheet <==>
      !Occurs(fileType, "image") && !Occurs(fileType, "pdf") && !IsText(fileType) && IsSheet(fileType)
    ensures i == Slides <==>
      !Occurs(fileType, "image") && !Occurs(fileType, "pdf") && !IsText(fileType) && !IsSheet(fileType)
      && IsSlides(fileType)
    ensures i == Folder <==>
      !Occurs(fileType, "image") && !Occurs(fileType, "pdf") && !IsText(fileType) && !IsSheet(fileType)
      && !IsSlides(fileType)
  {
    if Includes(fileType, "image") then Picture
    else if Includes(fileType, "pdf") then Pdf
    else if Includes(fileType, "word") || Includes(fileType, "document") then Text
    else if Includes(fileType, "spreadsheet") || Includes(fileType, "excel") then Sheet
    else if Includes(fileType, "presentation") || Includes(fileType, "powerpoint") then Slides
    else Folder
  }

  /** The word/document test comes first, so any type that also says
      "document" never reaches the spreadsheet or presentation icons. The
      Office Open XML types (`application/vnd.openxmlformats-officedocument.
      spreadsheetml.sheet` and `...presentationml.presentation`) all contain
      "officedocument", so spreadsheets and slide decks get the text icon. */
  lemma DocumentShadowsLaterIcons(t: string)
    requires !Occurs(t, "image") && !Occurs(t, "pdf") && Occurs(t, "document")
    ensures FileIcon(t) == Text
  {
  }

  lemma FileIconExamples()
    ensures FileIcon("image/png") == Picture
  {
    assert OccursAt("image/png", "image", 0) by { assert "image/png"[0..5] == "image"; }
  }

  // ---------------------------------------------------------------------------
  // The file list and uploads

  /** The limit on the length of an encoded file (about 5 MB). */
  const MaxEncodedLength := 5000000

  /** The panel's state: the files in the room as it knows them, and whether an
      upload is in progress. */
  datatype Panel = Panel(files: seq<FileData>, uploading: bool)

  const Initial := Panel([], false)

  /** What the panel emits to the server. */
  datatype Request = GetFiles(roomId: RoomId) | ShareFile(file: FileData)

  datatype Step = Step(panel: Panel, out: seq<Request>)

  /** Mounting the panel asks the server for the room's files. */
  function Mount(p: Panel, roomId: RoomId, hasSocket: bool): (r: Step)
    ensures hasSocket ==> r == Step(p, [GetFiles(roomId)])
    ensures !hasSocket ==> r == Step(p, [])
  {
    if hasSocket then Step(p, [GetFiles(roomId)]) else Step(p, [])
  }

  /** `file-shared`: one file appended at the end. */
  function FileShared(p: Panel, f: FileData): (p': Panel)
    ensures p'.files == p.files + [f] && |p'.files| == |p.files| + 1
    ensures p'.uploading == p.uploading
  {
    p.(files := p.files + [f])
  }

  /** `all-files`: the whole list replaced by the server's. */
  function AllFiles(p: Panel, fs: seq<FileData>): (p': Panel)
    ensures p'.files == fs && p'.uploading == p.uploading
  {
    p.(files := fs)
  }

  /** A file picked for upload: its name, type and size. */
  datatype Picked = Picked(name: string, fileType: string, size: int)

  /** Picking a file marks an upload in progress, unless no file was chosen or
      there is no socket. */
  function StartUpload(p: Panel, picked: Option<Picked>, hasSocket: bool): (p': Panel)
    ensures picked.None? || !hasSocket ==> p' == p
    ensures picked.Some? && hasSocket ==> p' == p.(uploading := true)
  {
    if picked.None? || !hasSocket then p else p.(uploading := true)
  }

  /** The record an upload sends: the id is the clock reading in decimal. */
  function Describe(picked: Picked, encoded: string, username: string, roomId: RoomId, now: int, timestamp: string)
    : (f: FileData)
    ensures f.id == IntToString(now) && f.data == encoded && f.roomId == roomId
    ensures f.name == picked.name && f.fileType == picked.fileType && f.size == picked.size
    ensures f.uploadedBy == username && f.timestamp == timestamp
  {
    FileData(IntToString(now), picked.name, picked.fileType, picked.size, encoded, username, roomId, timestamp)
  }

  /** The file has been read and encoded: beyond the limit nothing is sent and
      the list is unchanged; otherwise the file is shared once and appended
      locally. Either way the upload is over. */
  function FinishUpload(p: Panel, picked: Picked, encoded: string, username: string, roomId: RoomId,
                        now: int, timestamp: string): (r: Step)
    ensures |encoded| > MaxEncodedLength ==> r == Step(p.(uploading := false), [])
    ensures |encoded| <= MaxEncodedLength ==>
      var f := Describe(picked, encoded, username, roomId, now, timestamp);
      r.out == [ShareFile(f)] && r.panel.files == p.files + [f]
    ensures !r.panel.uploading
  {
    if |encoded| > MaxEncodedLength then Step(p.(uploading := false), [])
    else
      var f := Describe(picked, encoded, username, roomId, now, timestamp);
      Step(Panel(p.files + [f], false), [ShareFile(f)])
  }

  /** Two uploads in the same millisecond carry the same id. */
  lemma SameMillisecondSameId(a: Picked, b: Picked, x: string, y: string, user: string, roomId: RoomId,
                              now: int, ts: string)
    ensures Describe(a, x, user, roomId, now, ts).id == Describe(b, y, user, roomId, now, ts).id
  {
  }

  /** Distinct clock readings give distinct ids. */
  lemma DistinctMillisecondsDistinctIds(m: nat, n: nat)
    requires m != n
    ensures IntToString(m) != IntToString(n)
  {
    if IntToString(m) == IntToString(n) {
      NatToStringInjective(m, n);
    }
  }

  /** End to end with the simple server: an accepted upload is appended to
      the room's stored list, every other panel in the room that receives the
      relayed `file-shared` ends its list with it as the uploader's does, and a
      later `get-files` returns the stored list ending with it. */
  lemma UploadReachesRoom(uploader: Panel, other: Panel, s: Relay.State, sid: SocketId,
                          picked: Picked, encoded: string, username: string, roomId: RoomId,
                          now: int, timestamp: string)
    requires |encoded| <= MaxEncodedLength
    ensures var r := FinishUpload(uploader, picked, encoded, username, roomId, now, timestamp);
      var f := r.out[0].file;
      var served := Relay.ShareFile(s, sid, f);
      && served.out == [Emit(ToRoomExcept(roomId, sid), Relay.FileShared(f))]
      && FileShared(other, served.out[0].event.file).files[|other.files|] == r.panel.files[|uploader.files|] == f
      && Relay.FilesOf(served.state, roomId) == Relay.FilesOf(s, roomId) + [f]
      && Relay.GetFiles(served.state, sid, roomId) == [Emit(ToSocket(sid), Relay.AllFiles(Relay.FilesOf(s, roomId) + [f]))]
  {
  }
}

=== FILE: media_stream.dfy ===
/** The camera/microphone hook (client/src/hooks/useVideoStream.js): which
    streams it holds, the enabled flags shown on the buttons, the per-device
    status, and the screen-share flag. What `getUserMedia` and
    `getDisplayMedia` answer is a parameter. */
module MediaStream {

  import opened Wrappers

  /** A media track: whether it is enabled (muted or not) and whether it is
      still live (`stop()` ends it). */
  datatype Track = Track(enabled: bool, live: bool)

  datatype Stream = Stream(video: seq<Track>, audio: seq<Track>)

  datatype Status = Pending | Available | Unavailable | Denied

  datatype Media = Media(
    local: Option<Stream>,
    videoOn: bool,
    audioOn: bool,
    sharing: bool,
    screen: Option<Stream>,
    error: Option<string>,
    videoStatus: Status,
    audioStatus: Status)

  const Initial := Media(None, true, true, false, None, None, Pending, Pending)

  const PermissionDenied := "Permission to access camera or microphone was denied"
  const DevicesNotFound := "Required media devices not found"
  const MediaFailedPrefix := "Failed to access media: "
  const ScreenShareFailedPrefix := "Screen sharing failed: "
  /** The message a JavaScript engine (V8) gives when `onended` is set on the
      missing first video track of a display stream. */
  const NoVideoTrackMessage := "Cannot set properties of undefined (setting 'onended')"

  /** What the browser answers to a media request: a stream, or an error with
      its `name` and `message`. */
  datatype Answer = Granted(stream: Stream) | Refused(name: string, message: string)

  datatype Step = Step(media: Media, result: Option<Stream>)

  /** Every track stopped. */
  function StopAll(s: Stream): (s': Stream)
    ensures |s'.video| == |s.video| && |s'.audio| == |s.audio|
    ensures forall i :: 0 <= i < |s'.video| ==> !s'.video[i].live && s'.video[i].enabled == s.video[i].enabled
    ensures forall i :: 0 <= i < |s'.audio| ==> !s'.audio[i].live && s'.audio[i].enabled == s.audio[i].enabled
  {
    Stream(StopTracks(s.video), StopTracks(s.audio))
  }

  function StopTracks(ts: seq<Track>): (ts': seq<Track>)
    ensures |ts'| == |ts|
    ensures forall i :: 0 <= i < |ts| ==> ts'[i] == ts[i].(live := false)
  {
    if |ts| == 0 then [] else [ts[0].(live := false)] + StopTracks(ts[1..])
  }

  /** The status of a requested kind after a refusal: the given status if that
      kind was asked for, `Pending` otherwise. */
  function IfRequested(requested: bool, st: Status): Status
  {
    if requested then st else Pending
  }

  /** `initializeStream`: any held stream is stopped first. On success the new
      stream is held, both flags are on, the error is cleared, and each kind is
      available exactly when the stream has a track of it. A permission refusal
      marks the requested kinds denied, a missing device marks them
      unavailable, and any other failure only records its message; a failure
      returns nothing and leaves the stopped stream in place. */
  function Initialize(m: Media, wantVideo: bool, wantAudio: bool, answer: Answer): (r: Step)
    ensures answer.Granted? ==>
      && r.result == Some(answer.stream) && r.media.local == Some(answer.stream)
      && r.media.videoOn && r.media.audioOn && r.media.error.None?
      && (r.media.videoStatus == Available <==> |answer.stream.video| > 0)
      && (r.media.videoStatus == Unavailable <==> |answer.stream.video| == 0)
      && (r.media.audioStatus == Available <==> |answer.stream.audio| > 0)
      && (r.media.audioStatus == Unavailable <==> |answer.stream.audio| == 0)
    ensures answer.Refused? ==> r.result.None?
    ensures answer.Refused? ==>
      && r.media.local == (if m.local.Some? then Some(StopAll(m.local.value)) else None)
      && r.media.videoOn == m.videoOn && r.media.audioOn == m.audioOn
    ensures answer.Refused? && answer.name == "NotAllowedError" ==>
      && r.media.videoStatus == IfRequested(wantVideo, Denied)
      && r.media.audioStatus == IfRequested(wantAudio, Denied)
      && r.media.error == Some(PermissionDenied)
    ensures answer.Refused? && answer.name == "NotFoundError" ==>
      && r.media.videoStatus == IfRequested(wantVideo, Unavailable)
      && r.media.audioStatus == IfRequested(wantAudio, Unavailable)
      && r.media.error == Some(DevicesNotFound)
    ensures answer.Refused? && answer.name != "NotAllowedError" && answer.name != "NotFoundError" ==>
      && r.media.videoStatus == m.videoStatus && r.media.audioStatus == m.audioStatus
      && r.media.error == Some(MediaFailedPrefix + answer.message)
    ensures r.media.sharing == m.sharing && r.media.screen == m.screen
  {
    var stopped := if m.local.Some? then Some(StopAll(m.local.value)) else None;
    match answer
    case Granted(s) =>
      Step(m.(local := Some(s), videoOn := true, audioOn := true, error := None,
              videoStatus := if |s.video| > 0 then Available else Unavailable,
              audioStatus := if |s.audio| > 0 then Available else Unavailable),
           Some(s))
    case Refused(name, message) =>
      var m' := m.(local := stopped);
      if name == "NotAllowedError" then
        Step(m'.(videoStatus := IfRequested(wantVideo, Denied), audioStatus := IfRequested(wantAudio, Denied),
                 error := Some(PermissionDenied)), None)
      else if name == "NotFoundError" then
        Step(m'.(videoStatus := IfRequested(wantVideo, Unavailable), audioStatus := IfRequested(wantAudio, Unavailable),
                 error := Some(DevicesNotFound)), None)
      else
        Step(m'.(error := Some(MediaFailedPrefix + message)), None)
  }

  /** Every track flipped between enabled and disabled. */
  function FlipTracks(ts: seq<Track>): (ts': seq<Track>)
    ensures |ts'| == |ts|
    ensures forall i :: 0 <= i < |ts| ==> ts'[i] == ts[i].(enabled := !ts[i].enabled)
  {
    if |ts| == 0 then [] else [ts[0].(enabled := !ts[0].enabled)] + FlipTracks(ts[1..])
  }

  /** The button flag after a toggle: the first track's new state, or off when
      there is no track of that kind. */
  function FlagAfter(ts: seq<Track>): bool
  {
    if |ts| > 0 then ts[0].enabled else false
  }

  /** `toggleVideo`: with a stream, every video track flips and the flag shows
      the first one; without a stream nothing happens. */
  function ToggleVideo(m: Media): (m': Media)
    ensures m.local.None? ==> m' == m
    ensures m.local.Some? ==>
      && m'.local == Some(m.local.value.(video := FlipTracks(m.local.value.video)))
      && m'.videoOn == (|m.local.value.video| > 0 && !m.local.value.video[0].enabled)
      && m' == m.(local := m'.local, videoOn := m'.videoOn)
  {
    if m.local.None? then m
    else
      var video := FlipTracks(m.local.value.video);
      m.(local := Some(m.local.value.(video := video)), videoOn := FlagAfter(video))
  }

  /** `toggleAudio`: the same for the audio tracks. */
  function ToggleAudio(m: Media): (m': Media)
    ensures m.local.None? ==> m' == m
    ensures m.local.Some? ==>
      && m'.local == Some(m.local.value.(audio := FlipTracks(m.local.value.audio)))
      && m'.audioOn == (|m.local.value.audio| > 0 && !m.local.value.audio[0].enabled)
      && m' == m.(local := m'.local, audioOn := m'.audioOn)
  {
    if m.local.None? then m
    else
      var audio := FlipTracks(m.local.value.audio);
      m.(local := Some(m.local.value.(audio := audio)), audioOn := FlagAfter(audio))
  }

  /** `startScreenSharing`: nothing while already sharing. A granted display
      stream with a video track is held and sharing starts; one without a
      video track fails where its first track is given an end handler; a
      refusal only records its message. */
  function StartScreenShare(m: Media, answer: Answer): (r: Step)
    ensures m.sharing ==> r == Step(m, None)
    ensures !m.sharing && answer.Granted? && |answer.stream.video| > 0 ==>
      r == Step(m.(screen := Some(answer.stream), sharing := true), Some(answer.stream))
    ensures !m.sharing && answer.Granted? && |answer.stream.video| == 0 ==>
      r == Step(m.(error := Some(ScreenShareFailedPrefix + NoVideoTrackMessage)), None)
    ensures !m.sharing && answer.Refused? ==>
      r == Step(m.(error := Some(ScreenShareFailedPrefix + answer.message)), None)
  {
    if m.sharing then Step(m, None)
    else match answer
      case Granted(s) =>
        if |s.video| == 0 then Step(m.(error := Some(ScreenShareFailedPrefix + NoVideoTrackMessage)), None)
        else Step(m.(screen := Some(s), sharing := true), Some(s))
      case Refused(_, message) => Step(m.(error := Some(ScreenShareFailedPrefix + message)), None)
  }

  /** `stopScreenSharing`: a held display stream is stopped and released, and
      sharing is off in every case. */
  function StopScreenShare(m: Media): (m': Media)
    ensures !m'.sharing && m'.screen.None?
    ensures m' == m.(sharing := false, screen := None)
  {
    m.(sharing := false, screen := None)
  }

  // ---------------------------------------------------------------------------
  // Properties

  /** Toggling twice puts every track back and the flag shows the first track's
      original state. */
  lemma ToggleVideoTwice(m: Media)
    requires m.local.Some?
    ensures ToggleVideo(ToggleVideo(m)).local == m.local
    ensures ToggleVideo(ToggleVideo(m)).videoOn == FlagAfter(m.local.value.video)
  {
    var v := m.local.value.video;
    assert FlipTracks(FlipTracks(v)) == v;
  }

  lemma ToggleAudioTwice(m: Media)
    requires m.local.Some?
    ensures ToggleAudio(ToggleAudio(m)).local == m.local
    ensures ToggleAudio(ToggleAudio(m)).audioOn == FlagAfter(m.local.value.audio)
  {
    var a := m.local.value.audio;
    assert FlipTracks(FlipTracks(a)) == a;
  }

  /** A fresh stream whose tracks all start enabled: the first toggle turns the
      flag off, unless there is no track of that kind, when it reads off too. */
  lemma ToggleAfterGrant(m: Media, s: Stream, wantVideo: bool, wantAudio: bool)
    requires forall i :: 0 <= i < |s.video| ==> s.video[i].enabled
    ensures var m' := Initialize(m, wantVideo, wantAudio, Granted(s)).media;
      m'.videoOn && !ToggleVideo(m').videoOn
  {
  }

  /** A failed re-initialisation keeps the old stream, now with every track
      ended, while the flags still claim it is on. */
  lemma FailedRetryKeepsEndedStream(m: Media, s: Stream, name: string, message: string)
    requires m.local == Some(s) && m.videoOn && |s.video| > 0
    ensures var m' := Initialize(m, true, true, Refused(name, message)).media;
      m'.local.Some? && m'.videoOn && !m'.local.value.video[0].live
  {
  }

  /** Starting twice holds only the first display stream; stopping always ends sharing. */
  lemma StartIsIdempotentWhileSharing(m: Media, a: Answer, b: Answer)
    requires !m.sharing && a.Granted? && |a.stream.video| > 0
    ensures var first := StartScreenShare(m, a).media;
      StartScreenShare(first, b).media == first && first.screen == Some(a.stream)
      && !StopScreenShare(first).sharing
  {
  }
}

=== FILE: ordered_map.dfy ===
/** A JavaScript `Map`: entries kept in insertion order, keys pairwise distinct.
    Setting an existing key changes its value but keeps its position; deleting a
    key keeps the order of the remaining entries. Both servers' room directories
    are built from these. */
module OrderedMap {

  import opened Wrappers

  /** The keys in insertion order (`[...m.keys()]`). */
  function Keys<K, V>(m: seq<(K, V)>): (ks: seq<K>)
    ensures |ks| == |m|
    ensures forall i :: 0 <= i < |m| ==> ks[i] == m[i].0
  {
    if |m| == 0 then [] else [m[0].0] + Keys(m[1..])
  }

  /** No key appears twice, as in every JavaScript `Map`. */
  ghost predicate Valid<K, V>(m: seq<(K, V)>)
  {
    forall i, j :: 0 <= i < j < |m| ==> m[i].0 != m[j].0
  }

  /** `m.has(k)`. */
  predicate Has<K(==), V>(m: seq<(K, V)>, k: K)
  {
    k in Keys(m)
  }

  /** `m.get(k)`: the value of the entry with key `k`, if there is one. */
  function Get<K(==), V>(m: seq<(K, V)>, k: K): (r: Option<V>)
    ensures r.Some? <==> Has(m, k)
  {
    if |m| == 0 then None
    else if m[0].0 == k then Some(m[0].1)
    else Get(m[1..], k)
  }

  /** `xs` with every occurrence of `x` removed, the rest in order. */
  function Without<T(==,!new)>(xs: seq<T>, x: T): (r: seq<T>)
    ensures x !in r
    ensures forall y :: y in r <==> y in xs && y != x
    ensures x !in xs ==> r == xs
    ensures |r| <= |xs|
  {
    if |xs| == 0 then []
    else if xs[0] == x then Without(xs[1..], x)
    else [xs[0]] + Without(xs[1..], x)
  }

  /** `m.set(k, v)`: an existing key keeps its position and takes the new value;
      a new key goes to the end. */
  function Set<K(==,!new), V>(m: seq<(K, V)>, k: K, v: V): (r: seq<(K, V)>)
    ensures Keys(r) == if Has(m, k) then Keys(m) else Keys(m) + [k]
    ensures Get(r, k) == Some(v)
    ensures forall k' :: k' != k ==> Get(r, k') == Get(m, k')
  {
    if |m| == 0 then [(k, v)]
    else if m[0].0 == k then
      SetHead(m[0], m[1..], k, v);
      assert [m[0]] + m[1..] == m;
      [(k, v)] + m[1..]
    else
      var t := Set(m[1..], k, v);
      SetStep(m[0], m[1..], t, k, v);
      assert [m[0]] + m[1..] == m;
      [m[0]] + t
  }

  /** The base case of `Set`: the key is in front and only its value changes. */
  lemma SetHead<K(!new), V>(e: (K, V), rest: seq<(K, V)>, k: K, v: V)
    requires e.0 == k
    ensures Keys([(k, v)] + rest) == if Has([e] + rest, k) then Keys([e] + rest) else Keys([e] + rest) + [k]
    ensures Get([(k, v)] + rest, k) == Some(v)
    ensures forall k' :: k' != k ==> Get([(k, v)] + rest, k') == Get([e] + rest, k')
  {
    assert ([(k, v)] + rest)[1..] == rest;
    assert ([e] + rest)[1..] == rest;
    assert Keys([(k, v)] + rest) == [k] + Keys(rest) == Keys([e] + rest);
  }

  /** The step case of `Set`: an entry with another key in front changes nothing. */
  lemma SetStep<K(!new), V>(e: (K, V), rest: seq<(K, V)>, t: seq<(K, V)>, k: K, v: V)
    requires e.0 != k
    requires Keys(t) == if Has(rest, k) then Keys(rest) else Keys(rest) + [k]
    requires Get(t, k) == Some(v)
    requires forall k' :: k' != k ==> Get(t, k') == Get(rest, k')
    ensures Keys([e] + t) == if Has([e] + rest, k) then Keys([e] + rest) else Keys([e] + rest) + [k]
    ensures Get([e] + t, k) == Some(v)
    ensures forall k' :: k' != k ==> Get([e] + t, k') == Get([e] + rest, k')
  {
    GetCons(e, t, k);
    forall k' | k' != k
      ensures Get([e] + t, k') == Get([e] + rest, k')
    {
      GetCons(e, t, k');
      GetCons(e, rest, k');
    }
    KeysCons(e, t);
    KeysCons(e, rest);
    if Has(rest, k) {
      assert Has([e] + rest, k);
    } else {
      assert !Has([e] + rest, k);
      assert [e.0] + (Keys(rest) + [k]) == ([e.0] + Keys(rest)) + [k];
    }
  }

  /** The keys of a map with one more entry in front. */
  lemma KeysCons<K, V>(e: (K, V), rest: seq<(K, V)>)
    ensures Keys([e] + rest) == [e.0] + Keys(rest)
  {
    assert ([e] + rest)[1..] == rest;
  }

  /** `m.delete(k)`: the entry for `k` goes, the others stay in order. */
  function Delete<K(==,!new), V>(m: seq<(K, V)>, k: K): (r: seq<(K, V)>)
    ensures Keys(r) == Without(Keys(m), k)
    ensures !Has(r, k)
    ensures forall k' :: k' != k ==> Get(r, k') == Get(m, k')
    ensures !Has(m, k) ==> r == m
  {
    if |m| == 0 then []
    else if m[0].0 == k then
      var r := Delete(m[1..], k);
      assert Keys(m)[1..] == Keys(m[1..]);
      r
    else
      var r := [m[0]] + Delete(m[1..], k);
      assert Keys(r) == [m[0].0] + Keys(Delete(m[1..], k));
      assert Keys(m) == [m[0].0] + Keys(m[1..]);
      assert r[1..] == Delete(m[1..], k);
      r
  }

  /** A key that is present is found at some position, paired with the value `Get` returns. */
  lemma {:induction false} GetFound<K, V>(m: seq<(K, V)>, k: K)
    requires Has(m, k)
    ensures exists i :: 0 <= i < |m| && m[i] == (k, Get(m, k).value)
    decreases |m|
  {
    if m[0].0 == k {
      assert m[0] == (k, Get(m, k).value);
    } else {
      assert Keys(m) == [m[0].0] + Keys(m[1..]);
      GetFound(m[1..], k);
      var i :| 0 <= i < |m[1..]| && m[1..][i] == (k, Get(m[1..], k).value);
      assert m[i + 1] == (k, Get(m, k).value);
    }
  }

  /** Looking a key up in a map with one more entry in front. */
  lemma GetCons<K, V>(e: (K, V), rest: seq<(K, V)>, k: K)
    ensures Get([e] + rest, k) == if e.0 == k then Some(e.1) else Get(rest, k)
  {
    assert ([e] + rest)[1..] == rest;
  }

  /** Setting a key never duplicates it. */
  lemma {:induction false} SetValid<K(!new), V>(m: seq<(K, V)>, k: K, v: V)
    requires Valid(m)
    ensures Valid(Set(m, k, v))
  {
    var r := Set(m, k, v);
    var ks := Keys(r);
    if Has(m, k) {
      assert ks == Keys(m);
    } else {
      assert ks == Keys(m) + [k];
      forall i | 0 <= i < |m|
        ensures r[i].0 != k
      {
        assert r[i].0 == Keys(m)[i];
      }
    }
  }

  /** Deleting keeps the keys distinct and, when the key was present, removes one entry. */
  lemma {:induction false} DeleteValid<K(!new), V>(m: seq<(K, V)>, k: K)
    requires Valid(m)
    ensures Valid(Delete(m, k))
    ensures Has(m, k) ==> |Delete(m, k)| == |m| - 1
    decreases |m|
  {
    if |m| > 0 {
      ValidTail(m);
      DeleteValid(m[1..], k);
      KeysCons(m[0], m[1..]);
      assert [m[0]] + m[1..] == m;
      if m[0].0 != k {
        var t := Delete(m[1..], k);
        assert Delete(m, k) == [m[0]] + t;
        assert m[0].0 !in Keys(t);
        ValidCons(m[0], t);
      }
    }
  }

  /** The tail of a valid map is valid and does not repeat the head's key. */
  lemma ValidTail<K, V>(m: seq<(K, V)>)
    requires Valid(m) && |m| > 0
    ensures Valid(m[1..])
    ensures m[0].0 !in Keys(m[1..])
  {
    forall j | 0 <= j < |m[1..]|
      ensures m[1..][j].0 != m[0].0
    {
      assert m[1..][j] == m[j + 1];
    }
  }

  /** A fresh key in front of a valid map keeps it valid. */
  lemma ValidCons<K, V>(e: (K, V), rest: seq<(K, V)>)
    requires Valid(rest) && e.0 !in Keys(rest)
    ensures Valid([e] + rest)
  {
    var m := [e] + rest;
    forall i, j | 0 <= i < j < |m|
      ensures m[i].0 != m[j].0
    {
      assert m[j] == rest[j - 1];
      if i > 0 {
        assert m[i] == rest[i - 1];
      }
    }
  }

  /** Adding a new key and deleting it again gives back the original map. */
  lemma {:induction false} DeleteSetFresh<K(!new), V>(m: seq<(K, V)>, k: K, v: V)
    requires !Has(m, k)
    ensures Delete(Set(m, k, v), k) == m
    decreases |m|
  {
    if |m| > 0 {
      assert Keys(m) == [m[0].0] + Keys(m[1..]);
      DeleteSetFresh(m[1..], k, v);
      assert Set(m, k, v) == [m[0]] + Set(m[1..], k, v);
    }
  }
}

=== FILE: participation.dfy ===
/** The server's in-memory participation tracker (server/services/socket.js): one
    record per (room, user), filed under the text key `roomId + ":" + userId`,
    updated on every tracked event and flushed to the store when the user leaves.
    Clock readings are passed in as `now` (milliseconds); durations are seconds,
    as exact reals. */
module Participation {

  import opened Wrappers

  /** What the tracker keeps for one user in one room. `speakingStart` is the
      instant the open speaking interval began (`null` when there is none). */
  datatype Record = Record(
    userId: string,
    username: string,
    roomId: string,
    joinTime: int,
    lastActivity: int,
    speaking: bool,
    speakingTime: real,
    speakingStart: Option<int>,
    messageCount: int,
    whiteboardInteractions: int,
    documentShares: int,
    handRaises: int,
    reactions: int)

  /** `participationRecords`: records by key. */
  type Tracker = map<string, Record>

  /** A tracked event kind, with the amount a counter grows by (the handlers all
      pass the default 1). `Unknown` is any other metric name: the switch has no
      case for it. */
  datatype Metric =
    | Speaking(on: bool)
    | Message(amount: int)
    | Whiteboard(amount: int)
    | Document(amount: int)
    | HandRaise(amount: int)
    | Reaction(amount: int)
    | Unknown(name: string)

  /** The summary handed to the store on flush (the metrics of the stored
      participation record, with its fixed placeholder attention score). */
  datatype Summary = Summary(
    roomId: string,
    userId: string,
    username: string,
    totalTimePresent: real,
    speechTime: real,
    messagesSent: int,
    whiteboardInteractions: int,
    documentsShared: int,
    handRaises: int,
    reactions: int,
    attentionScore: int,
    engagementScore: real)

  /** The placeholder attention score every summary carries. */
  const AttentionPlaceholder := 90

  /** The key a record is filed under. */
  function RecordKey(roomId: string, userId: string): string
  {
    roomId + ":" + userId
  }

  /** Milliseconds between two instants, in seconds. */
  function Seconds(fromMs: int, toMs: int): real
  {
    (toMs - fromMs) as real / 1000.0
  }

  /** A speaking interval is open exactly when the speaking flag is set, and it
      did not start after the record's last activity. */
  ghost predicate WellFormed(r: Record)
  {
    && (r.speaking <==> r.speakingStart.Some?)
    && (r.speakingStart.Some? ==> r.speakingStart.value <= r.lastActivity)
    && r.joinTime <= r.lastActivity
  }

  /** Every counter and the accumulated speaking time are non-negative. */
  ghost predicate NonNegative(r: Record)
  {
    && r.speakingTime >= 0.0
    && r.messageCount >= 0 && r.whiteboardInteractions >= 0 && r.documentShares >= 0
    && r.handRaises >= 0 && r.reactions >= 0
  }

  /** The record a first join creates. */
  function FreshRecord(userId: string, username: string, roomId: string, now: int): (r: Record)
    ensures WellFormed(r) && NonNegative(r)
    ensures r.joinTime == now && r.lastActivity == now
    ensures !r.speaking && r.speakingTime == 0.0
    ensures r.messageCount == 0 && r.whiteboardInteractions == 0 && r.documentShares == 0
    ensures r.handRaises == 0 && r.reactions == 0
  {
    Record(userId, username, roomId, now, now, false, 0.0, None, 0, 0, 0, 0, 0)
  }

  /** `initializeParticipation`: the record for (room, user), created if absent.
      An existing record comes back untouched, counters and join time included. */
  function Initialize(t: Tracker, userId: string, username: string, roomId: string, now: int)
    : (res: (Tracker, Record))
    ensures RecordKey(roomId, userId) in res.0
    ensures res.1 == res.0[RecordKey(roomId, userId)]
    ensures RecordKey(roomId, userId) in t ==> res.0 == t
    ensures RecordKey(roomId, userId) !in t ==>
      res.0 == t[RecordKey(roomId, userId) := FreshRecord(userId, username, roomId, now)]
  {
    var key := RecordKey(roomId, userId);
    if key in t then (t, t[key])
    else
      var r := FreshRecord(userId, username, roomId, now);
      (t[key := r], r)
  }

  /** The effect of one tracked event on a record: the activity time moves to
      `now`, and then the speaking machine or the named counter moves. */
  function Apply(r: Record, m: Metric, now: int): (r': Record)
    ensures r'.lastActivity == now
    ensures r'.userId == r.userId && r'.username == r.username && r'.roomId == r.roomId
    ensures r'.joinTime == r.joinTime
  {
    var r := r.(lastActivity := now);
    match m
    case Speaking(on) =>
      if on && !r.speaking then
        r.(speaking := true, speakingStart := Some(now))
      else if !on && r.speaking then
        // A missing start counts as 0, as `now - null` does.
        r.(speaking := false,
           speakingTime := r.speakingTime + Seconds(r.speakingStart.GetOr(0), now),
           speakingStart := None)
      else r
    case Message(n) => r.(messageCount := r.messageCount + n)
    case Whiteboard(n) => r.(whiteboardInteractions := r.whiteboardInteractions + n)
    case Document(n) => r.(documentShares := r.documentShares + n)
    case HandRaise(n) => r.(handRaises := r.handRaises + n)
    case Reaction(n) => r.(reactions := r.reactions + n)
    case Unknown(_) => r
  }

  /** `updateParticipation`: a missing record is left missing; otherwise only that
      record changes, by `Apply`. */
  function Update(t: Tracker, userId: string, roomId: string, m: Metric, now: int): (t': Tracker)
    ensures RecordKey(roomId, userId) !in t ==> t' == t
    ensures t'.Keys == t.Keys
    ensures forall k :: k in t && k != RecordKey(roomId, userId) ==> t'[k] == t[k]
    ensures RecordKey(roomId, userId) in t ==>
      t'[RecordKey(roomId, userId)] == Apply(t[RecordKey(roomId, userId)], m, now)
  {
    var key := RecordKey(roomId, userId);
    if key in t then t[key := Apply(t[key], m, now)] else t
  }

  /** Whether the amount a counter metric adds is non-negative (always so for the
      handlers, which pass 1). */
  predicate NonNegativeAmount(m: Metric)
  {
    match m
    case Message(n) => n >= 0
    case Whiteboard(n) => n >= 0
    case Document(n) => n >= 0
    case HandRaise(n) => n >= 0
    case Reaction(n) => n >= 0
    case _ => true
  }

  /** The engagement score of a record: weighted counters plus up to 50 points of
      speaking time (a point per ten seconds), capped at 100. */
  function EngagementScore(r: Record): (score: real)
    ensures score <= 100.0
    ensures NonNegative(r) ==> 0.0 <= score
    ensures score <= RawScore(r)
    ensures score == 100.0 || score == RawScore(r)
  {
    var raw := RawScore(r);
    if raw < 100.0 then raw else 100.0
  }

  /** The uncapped weighted sum behind `EngagementScore`. */
  function RawScore(r: Record): real
  {
    (r.messageCount * 5) as real
    + (r.whiteboardInteractions * 3) as real
    + (r.documentShares * 5) as real
    + (r.handRaises * 2) as real
    + (r.reactions * 1) as real
    + (if r.speakingTime > 0.0 then
         (if 50.0 < r.speakingTime / 10.0 then 50.0 else r.speakingTime / 10.0)
       else 0.0)
  }

  /** The record at flush time: an open interval is folded into the speaking
      time, but the flag and start are left as they are. A start of 0 counts as
      no start, as the truthiness test does. */
  function FoldOpenInterval(r: Record, now: int): (r': Record)
    ensures r' == r.(speakingTime := r'.speakingTime)
    ensures r.speaking && r.speakingStart.Some? && r.speakingStart.value != 0 ==>
      r'.speakingTime == r.speakingTime + Seconds(r.speakingStart.value, now)
    ensures !(r.speaking && r.speakingStart.Some? && r.speakingStart.value != 0) ==> r' == r
  {
    if r.speaking && r.speakingStart.Some? && r.speakingStart.value != 0 then
      r.(speakingTime := r.speakingTime + Seconds(r.speakingStart.value, now))
    else r
  }

  /** The summary a (folded) record is stored as. */
  function Summarize(roomId: string, r: Record, now: int): (s: Summary)
    ensures s.totalTimePresent == Seconds(r.joinTime, now)
    ensures s.speechTime == r.speakingTime && s.messagesSent == r.messageCount
    ensures s.whiteboardInteractions == r.whiteboardInteractions
    ensures s.documentsShared == r.documentShares
    ensures s.handRaises == r.handRaises && s.reactions == r.reactions
    ensures s.engagementScore <= 100.0
    ensures NonNegative(r) ==> 0.0 <= s.engagementScore
  {
    Summary(roomId, r.userId, r.username, Seconds(r.joinTime, now), r.speakingTime,
            r.messageCount, r.whiteboardInteractions, r.documentShares, r.handRaises,
            r.reactions, AttentionPlaceholder, EngagementScore(r))
  }

  /** What a flush leaves behind: the tracker, and the summary it tried to store
      (`None` when there was no record). */
  datatype FlushResult = FlushResult(tracker: Tracker, attempted: Option<Summary>)

  /** `saveParticipationData`: with no record, nothing happens. Otherwise an open
      interval is folded into the record in place, the summary is written, and
      the record is removed only if the write succeeded (`writeOk`). */
  function Flush(t: Tracker, roomId: string, userId: string, now: int, writeOk: bool)
    : (res: FlushResult)
    ensures RecordKey(roomId, userId) !in t ==> res == FlushResult(t, None)
    ensures RecordKey(roomId, userId) in t ==>
      var folded := FoldOpenInterval(t[RecordKey(roomId, userId)], now);
      && res.attempted == Some(Summarize(roomId, folded, now))
      && (writeOk ==> res.tracker == t - {RecordKey(roomId, userId)})
      && (!writeOk ==> res.tracker == t[RecordKey(roomId, userId) := folded])
  {
    var key := RecordKey(roomId, userId);
    if key !in t then FlushResult(t, None)
    else
      var folded := FoldOpenInterval(t[key], now);
      var summary := Summarize(roomId, folded, now);
      if writeOk then FlushResult(t - {key}, Some(summary))
      else FlushResult(t[key := folded], Some(summary))
  }

  // ---------------------------------------------------------------------------
  // Properties

  /** Keys of rooms without ':' determine their (room, user) pair. */
  lemma RecordKeyInjective(room1: string, user1: string, room2: string, user2: string)
    requires ':' !in room1 && ':' !in room2
    requires RecordKey(room1, user1) == RecordKey(room2, user2)
    ensures room1 == room2 && user1 == user2
  {
    var k := RecordKey(room1, user1);
    if |room1| < |room2| {
      KeyChars(room1, user1, room2, user2);
      assert false;
    } else if |room2| < |room1| {
      KeyChars(room2, user2, room1, user1);
      assert false;
    } else {
      assert room1 == k[..|room1|] == room2;
      assert user1 == k[|room1| + 1..] == user2;
    }
  }

  /** Two equal keys whose first room id is the shorter: the separator of the
      first sits inside the second room id. */
  lemma KeyChars(room1: string, user1: string, room2: string, user2: string)
    requires |room1| < |room2| && RecordKey(room1, user1) == RecordKey(room2, user2)
    ensures room2[|room1|] == ':'
  {
    assert RecordKey(room1, user1)[|room1|] == ':';
    assert RecordKey(room2, user2)[|room1|] == room2[|room1|];
  }

  /** A room id containing ':' lets two different (room, user) pairs share one
      record: "a:b" with user "c" and "a" with user "b:c". */
  lemma RecordKeyCollision()
    ensures RecordKey("a:b", "c") == RecordKey("a", "b:c")
  {
  }

  /** Initializing twice is initializing once. */
  lemma InitializeIdempotent(t: Tracker, userId: string, username: string, name2: string,
                             roomId: string, now: int, later: int)
    ensures var (t1, r1) := Initialize(t, userId, username, roomId, now);
      Initialize(t1, userId, name2, roomId, later) == (t1, r1)
  {
  }

  /** Each event keeps a record well formed and its counters non-negative,
      provided time does not run backwards. */
  lemma ApplyPreserves(r: Record, m: Metric, now: int)
    requires WellFormed(r) && now >= r.lastActivity
    ensures WellFormed(Apply(r, m, now))
    ensures NonNegative(r) && NonNegativeAmount(m) ==> NonNegative(Apply(r, m, now))
  {
  }

  /** Only the activity time and the named counter change; the speaking machine
      moves only on a speaking event, and an unknown metric changes nothing else. */
  lemma ApplyFrame(r: Record, m: Metric, now: int)
    ensures !m.Speaking? ==>
      && Apply(r, m, now).speaking == r.speaking
      && Apply(r, m, now).speakingTime == r.speakingTime
      && Apply(r, m, now).speakingStart == r.speakingStart
    ensures m.Message? ==> Apply(r, m, now) == r.(lastActivity := now, messageCount := r.messageCount + m.amount)
    ensures m.Whiteboard? ==>
      Apply(r, m, now) == r.(lastActivity := now, whiteboardInteractions := r.whiteboardInteractions + m.amount)
    ensures m.Document? ==> Apply(r, m, now) == r.(lastActivity := now, documentShares := r.documentShares + m.amount)
    ensures m.HandRaise? ==> Apply(r, m, now) == r.(lastActivity := now, handRaises := r.handRaises + m.amount)
    ensures m.Reaction? ==> Apply(r, m, now) == r.(lastActivity := now, reactions := r.reactions + m.amount)
    ensures m.Unknown? ==> Apply(r, m, now) == r.(lastActivity := now)
  {
  }

  /** The speaking machine: "on" while silent opens an interval at `now`; "off"
      while speaking closes it, adding its length; a repeated value changes only
      the activity time. */
  lemma SpeakingMachine(r: Record, on: bool, now: int)
    requires WellFormed(r)
    ensures on && !r.speaking ==>
      Apply(r, Speaking(on), now) == r.(lastActivity := now, speaking := true, speakingStart := Some(now))
    ensures !on && r.speaking ==>
      Apply(r, Speaking(on), now)
        == r.(lastActivity := now, speaking := false, speakingStart := None,
              speakingTime := r.speakingTime + Seconds(r.speakingStart.value, now))
    ensures on == r.speaking ==> Apply(r, Speaking(on), now) == r.(lastActivity := now)
  {
  }

  /** A stream of tracked events, each stamped with the time it was handled. */
  datatype Event = Event(metric: Metric, at: int)

  /** The record after handling `events` in order. */
  function ApplyAll(r: Record, events: seq<Event>): Record
    decreases |events|
  {
    if |events| == 0 then r
    else ApplyAll(Apply(r, events[0].metric, events[0].at), events[1..])
  }

  /** The events are stamped in non-decreasing order, none before `from`. */
  ghost predicate Chronological(events: seq<Event>, from: int)
  {
    && (forall i :: 0 <= i < |events| ==> from <= events[i].at)
    && (forall i, j :: 0 <= i <= j < |events| ==> events[i].at <= events[j].at)
  }

  /** Along any chronological run of events, a well-formed record stays well
      formed and its speaking time never decreases. */
  lemma {:induction false} SpeakingTimeMonotone(r: Record, events: seq<Event>)
    requires WellFormed(r) && Chronological(events, r.lastActivity)
    ensures WellFormed(ApplyAll(r, events))
    ensures ApplyAll(r, events).speakingTime >= r.speakingTime
    decreases |events|
  {
    if |events| > 0 {
      var r1 := Apply(r, events[0].metric, events[0].at);
      ApplyPreserves(r, events[0].metric, events[0].at);
      assert r1.speakingTime >= r.speakingTime;
      assert Chronological(events[1..], r1.lastActivity);
      SpeakingTimeMonotone(r1, events[1..]);
    }
  }

  /** The score stays within 0..100 for non-negative counters; with ten messages
      and nothing else it is 50, and the worked example with 116 raw points is
      capped to 100. */
  lemma EngagementScoreExamples(r: Record)
    ensures NonNegative(r) ==> 0.0 <= EngagementScore(r) <= 100.0
    ensures r.messageCount == 10 && r.whiteboardInteractions == 0 && r.documentShares == 0
      && r.handRaises == 0 && r.reactions == 0 && r.speakingTime == 0.0
      ==> EngagementScore(r) == 50.0
    ensures r.messageCount == 5 && r.whiteboardInteractions == 5 && r.documentShares == 2
      && r.handRaises == 3 && r.reactions == 10 && r.speakingTime == 600.0
      ==> RawScore(r) == 116.0 && EngagementScore(r) == 100.0
  {
  }

  /** Flushing a record that is gone (already flushed, or never created) is a
      no-op; after a successful flush a second flush does nothing. */
  lemma FlushTwice(t: Tracker, roomId: string, userId: string, now: int, later: int, ok2: bool)
    ensures var first := Flush(t, roomId, userId, now, true);
      Flush(first.tracker, roomId, userId, later, ok2) == FlushResult(first.tracker, None)
  {
  }

  /** A failed write leaves the interval open after folding it, so a retried
      flush of a record still speaking counts that interval a second time. */
  lemma FailedFlushRefolds(t: Tracker, roomId: string, userId: string, start: int, now: int)
    requires RecordKey(roomId, userId) in t
    requires t[RecordKey(roomId, userId)].speaking
    requires t[RecordKey(roomId, userId)].speakingStart == Some(start) && start != 0
    ensures var failed := Flush(t, roomId, userId, now, false);
      var retry := Flush(failed.tracker, roomId, userId, now, true);
      retry.attempted.Some?
      && retry.attempted.value.speechTime
         == t[RecordKey(roomId, userId)].speakingTime + Seconds(start, now) + Seconds(start, now)
  {
  }

  /** After a visit is flushed, joining again starts a fresh record: the join
      time is the new instant and the counters restart at zero. */
  lemma RejoinStartsFresh(t: Tracker, roomId: string, userId: string, username: string,
                          now: int, later: int)
    ensures var flushed := Flush(t, roomId, userId, now, true).tracker;
      Initialize(flushed, userId, username, roomId, later).1
        == FreshRecord(userId, username, roomId, later)
  {
  }
}

=== FILE: peer_roster.dfy ===
/** The video-conference component's peer bookkeeping
    (client/src/components/VideoConferencing/VideoConference.jsx): the roster it
    renders (`peers`), the list it looks peers up in (`peersRef.current`), and
    the camera/microphone toggles. Each peer connection object is a handle
    numbered in creation order; what the connection does is not modelled. */
module PeerRoster {

  import opened Wrappers
  import MS = MediaStream

  type PeerId = string

  /** A peer connection object, numbered in creation order. */
  type Handle = nat

  datatype Entry = Entry(peerId: PeerId, peer: Handle, username: string)

  /** `shown` is what the grid renders; `known` is the lookup list; `created`
      counts the peer objects made so far. `aliased` records that the lookup
      list and the rendered roster are one and the same array, as they are
      right after a disconnect: pushing onto the lookup list then also grows
      the rendered roster. */
  datatype Roster = Roster(shown: seq<Entry>, known: seq<Entry>, created: nat, aliased: bool)

  const Initial := Roster([], [], 0, false)

  /** A user as `all-users` lists them. */
  datatype User = User(socketId: PeerId, username: string)

  /** What a roster event does to peer objects. */
  datatype Effect = Signal(peer: Handle, signal: string) | Destroy(peer: Handle)

  datatype Step = Step(roster: Roster, effects: seq<Effect>)

  /** No peer object is listed twice. */
  ghost predicate PeersDistinct(es: seq<Entry>)
  {
    forall i, j :: 0 <= i < j < |es| ==> es[i].peer != es[j].peer
  }

  /** Every rendered entry is also in the lookup list, the lookup list's peer
      objects are distinct, every one of them has been created, and one shared
      array holds one list. */
  ghost predicate Inv(r: Roster)
  {
    && (r.aliased ==> r.shown == r.known)
    && (forall e :: e in r.shown ==> e in r.known)
    && PeersDistinct(r.known)
    && (forall i :: 0 <= i < |r.known| ==> r.known[i].peer < r.created)
  }

  /** One entry per user, in order, with new peer objects numbered from `from`. */
  function Fresh(users: seq<User>, from: nat): (es: seq<Entry>)
    ensures |es| == |users|
    ensures forall i :: 0 <= i < |users| ==> es[i] == Entry(users[i].socketId, from + i, users[i].username)
  {
    if |users| == 0 then []
    else [Entry(users[0].socketId, from, users[0].username)] + Fresh(users[1..], from + 1)
  }

  /** `all-users`: one new peer per listed user, in order. The rendered roster
      becomes exactly these, while the lookup list gains them at its end. */
  function AllUsers(r: Roster, users: seq<User>): (r': Roster)
    ensures |r'.shown| == |users|
    ensures forall i :: 0 <= i < |users| ==>
      r'.shown[i].peerId == users[i].socketId && r'.shown[i].username == users[i].username
    ensures r'.known == r.known + r'.shown
    ensures r'.created == r.created + |users|
    ensures !r'.aliased
  {
    var es := Fresh(users, r.created);
    Roster(es, r.known + es, r.created + |users|, false)
  }

  /** `user-joined`: one new peer for the caller, pushed onto the lookup list
      and appended to the rendered roster. When the two are one array, the
      push has already grown the rendered roster, so the caller is shown
      twice; afterwards the rendered roster is a copy of its own. */
  function UserJoined(r: Roster, callerId: PeerId, username: string): (r': Roster)
    ensures var e := Entry(callerId, r.created, username);
      && r'.known == r.known + [e]
      && r'.shown == (if r.aliased then r.known + [e, e] else r.shown + [e])
    ensures r'.created == r.created + 1
    ensures !r'.aliased
  {
    var e := Entry(callerId, r.created, username);
    var known := r.known + [e];
    Roster(if r.aliased then known + [e] else r.shown + [e], known, r.created + 1, false)
  }

  /** The position of the first entry for `id` (`Array.prototype.find`). */
  function FindFirst(es: seq<Entry>, id: PeerId): (i: Option<nat>)
    ensures i.Some? ==> i.value < |es| && es[i.value].peerId == id
    ensures i.Some? ==> forall j :: 0 <= j < i.value ==> es[j].peerId != id
    ensures i.None? ==> forall j :: 0 <= j < |es| ==> es[j].peerId != id
  {
    if |es| == 0 then None
    else if es[0].peerId == id then Some(0)
    else
      var rest := FindFirst(es[1..], id);
      if rest.Some? then Some(rest.value + 1) else None
  }

  /** Position `i` holds the first entry for `id`. */
  predicate IsFirst(es: seq<Entry>, i: int, id: PeerId)
  {
    0 <= i < |es| && es[i].peerId == id && forall j :: 0 <= j < i ==> es[j].peerId != id
  }

  /** `receiving-returned-signal`: the answer goes to the first peer looked up
      under the sender's id, and nowhere if there is none. */
  function ReturnedSignal(r: Roster, id: PeerId, signal: string): (effects: seq<Effect>)
    ensures |effects| <= 1
    ensures (forall j :: 0 <= j < |r.known| ==> r.known[j].peerId != id) <==> effects == []
    ensures forall i :: IsFirst(r.known, i, id) ==> effects == [Signal(r.known[i].peer, signal)]
  {
    var i := FindFirst(r.known, id);
    if i.Some? then [Signal(r.known[i.value].peer, signal)] else []
  }

  /** The entries not for `id`, in order (`filter`). */
  function Drop(es: seq<Entry>, id: PeerId): (es': seq<Entry>)
    ensures forall e :: e in es' <==> e in es && e.peerId != id
    ensures |es'| <= |es|
    ensures (forall j :: 0 <= j < |es| ==> es[j].peerId != id) ==> es' == es
  {
    if |es| == 0 then []
    else if es[0].peerId == id then Drop(es[1..], id)
    else [es[0]] + Drop(es[1..], id)
  }

  /** `user-disconnected`: the first peer for that id is destroyed, every entry
      for it leaves the lookup list, and the rendered roster becomes the lookup
      list. */
  function UserDisconnected(r: Roster, id: PeerId): (s: Step)
    ensures s.roster.known == Drop(r.known, id) && s.roster.shown == s.roster.known
    ensures forall e :: e in s.roster.shown ==> e.peerId != id
    ensures s.roster.created == r.created
    ensures |s.effects| <= 1
    ensures forall i :: IsFirst(r.known, i, id) ==> s.effects == [Destroy(r.known[i].peer)]
    ensures (forall j :: 0 <= j < |r.known| ==> r.known[j].peerId != id) ==> s.effects == []
    ensures s.roster.aliased
  {
    var i := FindFirst(r.known, id);
    var kept := Drop(r.known, id);
    Step(Roster(kept, kept, r.created, true), if i.Some? then [Destroy(r.known[i.value].peer)] else [])
  }

  /** The component's own toggles: `stream` once the camera is granted. */
  datatype Controls = Controls(stream: Option<MS.Stream>, audioOn: bool, videoOn: bool)

  function SetTracks(ts: seq<MS.Track>, on: bool): (ts': seq<MS.Track>)
    ensures |ts'| == |ts|
    ensures forall i :: 0 <= i < |ts| ==> ts'[i] == ts[i].(enabled := on)
  {
    if |ts| == 0 then [] else [ts[0].(enabled := on)] + SetTracks(ts[1..], on)
  }

  /** `toggleAudio`: with a stream, the flag is negated and every audio track
      takes the new value; without one nothing changes. */
  function ToggleAudio(c: Controls): (c': Controls)
    ensures c.stream.None? ==> c' == c
    ensures c.stream.Some? ==>
      && c'.audioOn == !c.audioOn && c'.videoOn == c.videoOn
      && c'.stream.Some? && c'.stream.value.video == c.stream.value.video
      && |c'.stream.value.audio| == |c.stream.value.audio|
      && forall i :: 0 <= i < |c'.stream.value.audio| ==>
           c'.stream.value.audio[i] == c.stream.value.audio[i].(enabled := c'.audioOn)
  {
    if c.stream.None? then c
    else c.(stream := Some(c.stream.value.(audio := SetTracks(c.stream.value.audio, !c.audioOn))),
            audioOn := !c.audioOn)
  }

  /** `toggleVideo`: the same for the video tracks. */
  function ToggleVideo(c: Controls): (c': Controls)
    ensures c.stream.None? ==> c' == c
    ensures c.stream.Some? ==>
      && c'.videoOn == !c.videoOn && c'.audioOn == c.audioOn
      && c'.stream.Some? && c'.stream.value.audio == c.stream.value.audio
      && |c'.stream.value.video| == |c.stream.value.video|
      && forall i :: 0 <= i < |c'.stream.value.video| ==>
           c'.stream.value.video[i] == c.stream.value.video[i].(enabled := c'.videoOn)
  {
    if c.stream.None? then c
    else c.(stream := Some(c.stream.value.(video := SetTracks(c.stream.value.video, !c.videoOn))),
            videoOn := !c.videoOn)
  }

  // ---------------------------------------------------------------------------
  // Properties

  /** Filtering keeps the order: it works entry by entry, and over a
      concatenation it filters each part in turn. */
  lemma {:induction false} DropInOrder(a: seq<Entry>, b: seq<Entry>, e: Entry, id: PeerId)
    ensures Drop(a + b, id) == Drop(a, id) + Drop(b, id)
    ensures Drop([e], id) == if e.peerId == id then [] else [e]
    decreases |a|
  {
    assert [e][1..] == [];
    if |a| > 0 {
      assert (a + b)[1..] == a[1..] + b;
      DropInOrder(a[1..], b, e, id);
    } else {
      assert a + b == b;
    }
  }

  /** Filtering never lists a peer object twice. */
  lemma {:induction false} DropPeersDistinct(es: seq<Entry>, id: PeerId)
    requires PeersDistinct(es)
    ensures PeersDistinct(Drop(es, id))
    decreases |es|
  {
    if |es| > 0 {
      DropPeersDistinct(es[1..], id);
      if es[0].peerId != id {
        var d := Drop(es, id);
        assert d == [es[0]] + Drop(es[1..], id);
        forall j | 1 <= j < |d| ensures d[0].peer != d[j].peer {
          assert d[j] in Drop(es[1..], id);
          assert d[j] in es[1..];
        }
      }
    }
  }

  lemma AllUsersKeepsInv(r: Roster, users: seq<User>)
    requires Inv(r)
    ensures Inv(AllUsers(r, users))
  {
    var r' := AllUsers(r, users);
    forall i, j | 0 <= i < j < |r'.known| ensures r'.known[i].peer != r'.known[j].peer {
      if j >= |r.known| {
        assert r'.known[j].peer == r.created + (j - |r.known|);
      }
    }
  }

  lemma UserJoinedKeepsInv(r: Roster, callerId: PeerId, username: string)
    requires Inv(r)
    ensures Inv(UserJoined(r, callerId, username))
  {
  }

  lemma UserDisconnectedKeepsInv(r: Roster, id: PeerId)
    requires Inv(r)
    ensures Inv(UserDisconnected(r, id).roster)
  {
    DropPeersDistinct(r.known, id);
  }

  /** The roster events, as the component receives them. */
  datatype Event =
    | AllUsersEvent(users: seq<User>)
    | UserJoinedEvent(callerId: PeerId, username: string)
    | SignalEvent(id: PeerId, signal: string)
    | DisconnectedEvent(id: PeerId)

  function Apply(r: Roster, e: Event): Roster
  {
    match e
    case AllUsersEvent(users) => AllUsers(r, users)
    case UserJoinedEvent(callerId, username) => UserJoined(r, callerId, username)
    case SignalEvent(_, _) => r
    case DisconnectedEvent(id) => UserDisconnected(r, id).roster
  }

  function Run(r: Roster, es: seq<Event>): Roster
    decreases |es|
  {
    if |es| == 0 then r else Run(Apply(r, es[0]), es[1..])
  }

  /** From an empty roster, whatever events arrive, every rendered peer can be
      looked up and no peer object is listed twice. */
  lemma {:induction false} RunKeepsInv(r: Roster, es: seq<Event>)
    requires Inv(r)
    ensures Inv(Run(r, es))
    decreases |es|
  {
    if |es| > 0 {
      match es[0] {
        case AllUsersEvent(users) => AllUsersKeepsInv(r, users);
        case UserJoinedEvent(callerId, username) => UserJoinedKeepsInv(r, callerId, username);
        case SignalEvent(_, _) =>
        case DisconnectedEvent(id) => UserDisconnectedKeepsInv(r, id);
      }
      RunKeepsInv(Apply(r, es[0]), es[1..]);
    }
  }

  /** A second `all-users` for the same user leaves two lookup entries for it:
      the rendered peer is the new one, but its returned signal goes to the
      older one, and a disconnect destroys only the older one. */
  lemma RepeatedAllUsersSignalsStalePeer(u: User, signal: string)
    ensures var r := AllUsers(AllUsers(Initial, [u]), [u]);
      r.shown == [Entry(u.socketId, 1, u.username)]
      && r.known == [Entry(u.socketId, 0, u.username), Entry(u.socketId, 1, u.username)]
      && ReturnedSignal(r, u.socketId, signal) == [Signal(0, signal)]
      && UserDisconnected(r, u.socketId).effects == [Destroy(0)]
  {
    var r := AllUsers(AllUsers(Initial, [u]), [u]);
    assert r.known[0].peerId == u.socketId;
  }

  /** After a disconnect the rendered roster and the lookup list are one array,
      so the next caller is shown twice, with one peer object, while it is
      looked up once. */
  lemma DisconnectThenJoinShowsCallerTwice(u: User, callerId: PeerId, username: string)
    ensures var r := UserJoined(UserDisconnected(AllUsers(Initial, [u]), u.socketId).roster, callerId, username);
      && r.shown == [Entry(callerId, 1, username), Entry(callerId, 1, username)]
      && r.known == [Entry(callerId, 1, username)]
  {
    var r1 := AllUsers(Initial, [u]);
    assert r1.known == [Entry(u.socketId, 0, u.username)];
    assert Drop(r1.known, u.socketId) == [];
  }

  /** Toggling twice restores the flag, and after any toggle every track of
      that kind agrees with the flag. */
  lemma ToggleAudioTwice(c: Controls)
    requires c.stream.Some?
    ensures ToggleAudio(ToggleAudio(c)).audioOn == c.audioOn
    ensures var t := ToggleAudio(ToggleAudio(c)).stream.value.audio;
      forall i :: 0 <= i < |t| ==> t[i].enabled == c.audioOn
  {
  }
}

=== FILE: relay_server.dfy ===
/** The simpler coordinator of server/index.js: a directory of rooms (each an
    insertion-ordered map from socket id to user name, the rooms themselves in
    creation order), per-room file lists, and pure relays. */
module RelayServer {

  import opened Wrappers
  import opened Transport
  import OM = OrderedMap

  /** A room's members: socket id to user name, in join order. */
  type Members = seq<(SocketId, string)>

  type Rooms = seq<(RoomId, Members)>

  datatype State = State(rooms: Rooms, files: map<RoomId, seq<FileData>>)

  const Initial := State([], map[])

  datatype Event =
    | UserJoinedRoom(socketId: SocketId, username: string)
    | AllUsers(users: Members)
    | UserJoined(signal: string, callerId: string, username: string)
    | ReceivingReturnedSignal(signal: string, id: SocketId)
    | IsTeacher(isTeacher: bool)
    | WhiteboardUpdate(drawData: string)
    | ReceiveMessage(messageData: string)
    | FileShared(file: FileData)
    | AllFiles(files: seq<FileData>)
    | UserDisconnected(socketId: SocketId)

  type Out = seq<Outbound<Event>>

  datatype Step = Step(state: State, out: Out)

  /** The members of a room, none for an unknown room. */
  function MembersOf(rooms: Rooms, roomId: RoomId): Members
  {
    OM.Get(rooms, roomId).GetOr([])
  }

  /** Room ids are distinct, every room has at least one member, and no member
      is listed twice in a room. */
  ghost predicate Inv(s: State)
  {
    && OM.Valid(s.rooms)
    && forall q :: OM.Has(s.rooms, q) ==> |MembersOf(s.rooms, q)| > 0 && OM.Valid(MembersOf(s.rooms, q))
  }

  // ---------------------------------------------------------------------------
  // join-room, leave-room, disconnect

  /** `join-room`: the room is created on first use (at the end of the room
      order) and the socket is filed under its name; joining again only renames
      it in place. The others in the room are told. */
  function Join(s: State, sid: SocketId, roomId: RoomId, username: string): (r: Step)
    ensures OM.Keys(r.state.rooms) ==
      if OM.Has(s.rooms, roomId) then OM.Keys(s.rooms) else OM.Keys(s.rooms) + [roomId]
    ensures OM.Get(MembersOf(r.state.rooms, roomId), sid) == Some(username)
    ensures OM.Keys(MembersOf(r.state.rooms, roomId)) ==
      if OM.Has(MembersOf(s.rooms, roomId), sid) then OM.Keys(MembersOf(s.rooms, roomId))
      else OM.Keys(MembersOf(s.rooms, roomId)) + [sid]
    ensures forall q :: q != roomId ==> OM.Get(r.state.rooms, q) == OM.Get(s.rooms, q)
    ensures r.state.files == s.files
    ensures r.out == [Emit(ToRoomExcept(roomId, sid), UserJoinedRoom(sid, username))]
  {
    var members := OM.Set(MembersOf(s.rooms, roomId), sid, username);
    Step(s.(rooms := OM.Set(s.rooms, roomId, members)),
         [Emit(ToRoomExcept(roomId, sid), UserJoinedRoom(sid, username))])
  }

  /** The room list with `sid` taken out of `roomId`, dropping the room if that
      empties it. */
  function RemoveMember(rooms: Rooms, roomId: RoomId, sid: SocketId): (r: Rooms)
    requires OM.Has(rooms, roomId)
    ensures var left := OM.Delete(MembersOf(rooms, roomId), sid);
      OM.Get(r, roomId) == if |left| == 0 then None else Some(left)
    ensures forall q :: q != roomId ==> OM.Get(r, q) == OM.Get(rooms, q)
    ensures OM.Keys(r) == if |OM.Delete(MembersOf(rooms, roomId), sid)| == 0
                          then OM.Without(OM.Keys(rooms), roomId) else OM.Keys(rooms)
  {
    var left := OM.Delete(MembersOf(rooms, roomId), sid);
    if |left| == 0 then OM.Delete(rooms, roomId) else OM.Set(rooms, roomId, left)
  }

  /** `leave-room`: the socket leaves the room, which goes when it empties.
      Leaving an unknown room changes nothing. Files are never touched. */
  function Leave(s: State, sid: SocketId, roomId: RoomId): (r: State)
    ensures !OM.Has(s.rooms, roomId) ==> r == s
    ensures OM.Has(s.rooms, roomId) ==> r.rooms == RemoveMember(s.rooms, roomId, sid)
    ensures r.files == s.files
  {
    if OM.Has(s.rooms, roomId) then s.(rooms := RemoveMember(s.rooms, roomId, sid)) else s
  }

  /** What a disconnect does to one room's members: `None` when the room goes. */
  function Cleaned(m: Option<Members>, sid: SocketId): Option<Members>
  {
    match m
    case None => None
    case Some(members) =>
      if !OM.Has(members, sid) then m
      else if |OM.Delete(members, sid)| == 0 then None
      else Some(OM.Delete(members, sid))
  }

  /** What the walk `disconnect` makes does to one room: the socket leaves it
      if present, and the room goes if that empties it. */
  function DropFromRoom(e: (RoomId, Members), sid: SocketId): (r: Rooms)
    ensures |r| <= 1
    ensures forall i :: 0 <= i < |r| ==> r[i].0 == e.0 && !OM.Has(r[i].1, sid)
  {
    if !OM.Has(e.1, sid) then [e]
    else if |OM.Delete(e.1, sid)| == 0 then []
    else [(e.0, OM.Delete(e.1, sid))]
  }

  /** The rooms after the walk `disconnect` makes over them in order. */
  function DropEverywhere(rooms: Rooms, sid: SocketId): (r: Rooms)
    ensures forall i :: 0 <= i < |r| ==> OM.Has(rooms, r[i].0) && !OM.Has(r[i].1, sid)
  {
    if |rooms| == 0 then []
    else
      assert OM.Keys(rooms) == [rooms[0].0] + OM.Keys(rooms[1..]);
      DropFromRoom(rooms[0], sid) + DropEverywhere(rooms[1..], sid)
  }

  /** The rooms, in order, that the walk finds the socket in. */
  function RoomsWith(rooms: Rooms, sid: SocketId): (ids: seq<RoomId>)
    ensures forall q :: q in ids ==> OM.Has(rooms, q)
  {
    if |rooms| == 0 then []
    else
      assert OM.Keys(rooms) == [rooms[0].0] + OM.Keys(rooms[1..]);
      (if OM.Has(rooms[0].1, sid) then [rooms[0].0] else []) + RoomsWith(rooms[1..], sid)
  }

  lemma {:induction false} DropEverywhereValid(rooms: Rooms, sid: SocketId)
    requires OM.Valid(rooms)
    ensures OM.Valid(DropEverywhere(rooms, sid))
    decreases |rooms|
  {
    if |rooms| > 0 {
      var rest := DropEverywhere(rooms[1..], sid);
      DropEverywhereValid(rooms[1..], sid);
      var head := DropFromRoom(rooms[0], sid);
      var r := head + rest;
      assert OM.Keys(rooms) == [rooms[0].0] + OM.Keys(rooms[1..]);
      forall i, j | 0 <= i < j < |r|
        ensures r[i].0 != r[j].0
      {
        if i < |head| {
          assert r[i].0 == rooms[0].0;
          assert r[j] == rest[j - |head|];
          assert OM.Has(rooms[1..], r[j].0);
        } else {
          assert r[i] == rest[i - |head|] && r[j] == rest[j - |head|];
        }
      }
    }
  }

  lemma {:induction false} DropEverywhereGet(rooms: Rooms, sid: SocketId, q: RoomId)
    requires OM.Valid(rooms)
    ensures OM.Get(DropEverywhere(rooms, sid), q) == Cleaned(OM.Get(rooms, q), sid)
    decreases |rooms|
  {
    if |rooms| > 0 {
      var rest := DropEverywhere(rooms[1..], sid);
      DropEverywhereGet(rooms[1..], sid, q);
      var e := rooms[0];
      assert rooms == [e] + rooms[1..];
      OM.GetCons(e, rooms[1..], q);
      assert OM.Keys(rooms) == [e.0] + OM.Keys(rooms[1..]);
      if e.0 == q {
        assert !OM.Has(rooms[1..], q);
      }
      if OM.Has(e.1, sid) && |OM.Delete(e.1, sid)| == 0 {
        assert DropEverywhere(rooms, sid) == rest;
      } else {
        var e' := if OM.Has(e.1, sid) then (e.0, OM.Delete(e.1, sid)) else e;
        assert DropEverywhere(rooms, sid) == [e'] + rest;
        OM.GetCons(e', rest, q);
      }
    }
  }

  lemma {:induction false} RoomsWithSpec(rooms: Rooms, sid: SocketId, q: RoomId)
    requires OM.Valid(rooms)
    ensures q in RoomsWith(rooms, sid) <==> OM.Has(rooms, q) && OM.Has(MembersOf(rooms, q), sid)
    decreases |rooms|
  {
    if |rooms| > 0 {
      RoomsWithSpec(rooms[1..], sid, q);
      assert OM.Keys(rooms) == [rooms[0].0] + OM.Keys(rooms[1..]);
      if rooms[0].0 == q {
        assert !OM.Has(rooms[1..], q);
      }
    }
  }

  /** No room id is listed twice. */
  ghost predicate Distinct(ids: seq<RoomId>)
  {
    forall i, j :: 0 <= i < j < |ids| ==> ids[i] != ids[j]
  }

  /** With distinct room ids, the walk finds each room at most once. */
  lemma {:induction false} RoomsWithDistinct(rooms: Rooms, sid: SocketId)
    requires OM.Valid(rooms)
    ensures Distinct(RoomsWith(rooms, sid))
    decreases |rooms|
  {
    if |rooms| > 0 {
      OM.ValidTail(rooms);
      RoomsWithDistinct(rooms[1..], sid);
      var rest := RoomsWith(rooms[1..], sid);
      var ids := RoomsWith(rooms, sid);
      if OM.Has(rooms[0].1, sid) {
        assert ids == [rooms[0].0] + rest;
        forall i, j | 0 <= i < j < |ids|
          ensures ids[i] != ids[j]
        {
          assert ids[j] == rest[j - 1];
          if i == 0 {
            assert OM.Has(rooms[1..], rest[j - 1]);
          } else {
            assert ids[i] == rest[i - 1];
          }
        }
      } else {
        assert ids == rest;
      }
    }
  }

  /** `disconnect`: the socket leaves every room that has it, each emptied room
      is deleted, the others in each room it left are told (in room order, each
      room once), and rooms without it and the file lists are untouched. */
  function Disconnect(s: State, sid: SocketId): (r: Step)
    ensures r.state.files == s.files
    ensures OM.Valid(s.rooms) ==> OM.Valid(r.state.rooms)
    ensures OM.Valid(s.rooms) ==>
      forall q :: OM.Get(r.state.rooms, q) == Cleaned(OM.Get(s.rooms, q), sid)
    ensures forall q :: !OM.Has(MembersOf(r.state.rooms, q), sid)
    ensures forall i :: 0 <= i < |r.out| ==>
      r.out[i].event == UserDisconnected(sid) && r.out[i].target.ToRoomExcept?
      && OM.Has(s.rooms, r.out[i].target.room)
    ensures OM.Valid(s.rooms) ==> forall q ::
      (Emit(ToRoomExcept(q, sid), UserDisconnected(sid)) in r.out)
        <==> OM.Has(s.rooms, q) && OM.Has(MembersOf(s.rooms, q), sid)
    ensures OM.Valid(s.rooms) ==> forall i, j :: 0 <= i < j < |r.out| ==> r.out[i] != r.out[j]
  {
    var rooms := DropEverywhere(s.rooms, sid);
    var out := Notices(RoomsWith(s.rooms, sid), sid);
    DisconnectFacts(s.rooms, sid);
    Step(s.(rooms := rooms), out)
  }

  /** The three walk lemmas, for every room at once. */
  lemma DisconnectFacts(rooms: Rooms, sid: SocketId)
    ensures forall q :: !OM.Has(MembersOf(DropEverywhere(rooms, sid), q), sid)
    ensures OM.Valid(rooms) ==> OM.Valid(DropEverywhere(rooms, sid))
    ensures OM.Valid(rooms) ==>
      forall q :: OM.Get(DropEverywhere(rooms, sid), q) == Cleaned(OM.Get(rooms, q), sid)
    ensures OM.Valid(rooms) ==>
      forall q :: q in RoomsWith(rooms, sid) <==> OM.Has(rooms, q) && OM.Has(MembersOf(rooms, q), sid)
    ensures OM.Valid(rooms) ==> Distinct(RoomsWith(rooms, sid))
  {
    forall q ensures !OM.Has(MembersOf(DropEverywhere(rooms, sid), q), sid) {
      var r := DropEverywhere(rooms, sid);
      var g := OM.Get(r, q);
      if g.Some? {
        OM.GetFound(r, q);
        var i :| 0 <= i < |r| && r[i] == (q, g.value);
      }
    }
    if OM.Valid(rooms) {
      DropEverywhereValid(rooms, sid);
      forall q ensures OM.Get(DropEverywhere(rooms, sid), q) == Cleaned(OM.Get(rooms, q), sid) {
        DropEverywhereGet(rooms, sid, q);
      }
      forall q ensures q in RoomsWith(rooms, sid) <==> OM.Has(rooms, q) && OM.Has(MembersOf(rooms, q), sid) {
        RoomsWithSpec(rooms, sid, q);
      }
      RoomsWithDistinct(rooms, sid);
    }
  }

  /** One `user-disconnected` notice per room, in order. */
  function Notices(roomIds: seq<RoomId>, sid: SocketId): (out: Out)
    ensures |out| == |roomIds|
    ensures forall i :: 0 <= i < |out| ==> out[i] == Emit(ToRoomExcept(roomIds[i], sid), UserDisconnected(sid))
  {
    if |roomIds| == 0 then [] else [Emit(ToRoomExcept(roomIds[0], sid), UserDisconnected(sid))] + Notices(roomIds[1..], sid)
  }

  /** `whiteboard-draw`: the stroke is relayed, unchanged, to the others in the room. */
  function RelayDrawing(sid: SocketId, roomId: RoomId, drawData: string): (out: Out)
    ensures forall x :: DirectTo(out, x) == []
    ensures |out| == 1 && out[0].target == ToRoomExcept(roomId, sid)
    ensures out[0].event == WhiteboardUpdate(drawData)
  {
    [Emit(ToRoomExcept(roomId, sid), WhiteboardUpdate(drawData))]
  }

  /** `send-message`: the message is relayed, unchanged, to the others in the
      room it names; this server stores nothing. */
  function RelayMessage(sid: SocketId, roomId: RoomId, messageData: string): (out: Out)
    ensures forall x :: DirectTo(out, x) == []
    ensures |out| == 1 && out[0].target == ToRoomExcept(roomId, sid)
    ensures out[0].event == ReceiveMessage(messageData)
  {
    [Emit(ToRoomExcept(roomId, sid), ReceiveMessage(messageData))]
  }

  // ---------------------------------------------------------------------------
  // user-with-media, check-teacher, signals

  /** `user-with-media`: the requester receives the other members with their
      names, in join order, never itself; nothing for an unknown room. */
  function PeerSnapshot(s: State, sid: SocketId, roomId: RoomId): (out: Out)
    ensures |out| == 1 && out[0].target == ToSocket(sid) && out[0].event.AllUsers?
    ensures OM.Keys(out[0].event.users) == OM.Without(OM.Keys(MembersOf(s.rooms, roomId)), sid)
    ensures !OM.Has(s.rooms, roomId) ==> out[0].event.users == []
    ensures forall q :: q != sid ==> OM.Get(out[0].event.users, q) == OM.Get(MembersOf(s.rooms, roomId), q)
  {
    [Emit(ToSocket(sid), AllUsers(OM.Delete(MembersOf(s.rooms, roomId), sid)))]
  }

  /** The host rule of this server: true for a room that does not exist yet;
      otherwise true when the room has one member or the requester joined it
      first. */
  predicate IsHost(s: State, sid: SocketId, roomId: RoomId)
  {
    var m := MembersOf(s.rooms, roomId);
    !OM.Has(s.rooms, roomId) || |m| == 1 || (|m| > 0 && m[0].0 == sid)
  }

  /** `check-teacher`: the requester alone learns whether it is host. */
  function CheckTeacher(s: State, sid: SocketId, roomId: RoomId): (out: Out)
    ensures DirectTo(out, sid) == [IsTeacher(IsHost(s, sid, roomId))]
    ensures !Broadcasts(out)
  {
    [Emit(ToSocket(sid), IsTeacher(IsHost(s, sid, roomId)))]
  }

  /** `sending-signal`: the offer goes, unchanged, to `userToSignal` alone. */
  function SendingSignal(userToSignal: SocketId, callerId: string, signal: string, username: string)
    : (out: Out)
    ensures DirectTo(out, userToSignal) == [UserJoined(signal, callerId, username)]
    ensures forall x :: x != userToSignal ==> DirectTo(out, x) == []
    ensures !Broadcasts(out)
  {
    [Emit(ToSocket(userToSignal), UserJoined(signal, callerId, username))]
  }

  /** `returning-signal`: the answer goes, unchanged, to `callerId` alone, tagged
      with the responder's own socket id. */
  function ReturningSignal(sid: SocketId, signal: string, callerId: SocketId): (out: Out)
    ensures DirectTo(out, callerId) == [ReceivingReturnedSignal(signal, sid)]
    ensures forall x :: x != callerId ==> DirectTo(out, x) == []
    ensures !Broadcasts(out)
  {
    [Emit(ToSocket(callerId), ReceivingReturnedSignal(signal, sid))]
  }

  // ---------------------------------------------------------------------------
  // Files

  /** The files shared in a room, in upload order; none for an unknown room. */
  function FilesOf(s: State, roomId: RoomId): seq<FileData>
  {
    if roomId in s.files then s.files[roomId] else []
  }

  /** `share-file`: the file joins the end of its room's list and is relayed to
      the others unchanged; no other list changes, nor the rooms. */
  function ShareFile(s: State, sid: SocketId, f: FileData): (r: Step)
    ensures FilesOf(r.state, f.roomId) == FilesOf(s, f.roomId) + [f]
    ensures forall q :: q != f.roomId ==> FilesOf(r.state, q) == FilesOf(s, q)
    ensures r.state.rooms == s.rooms
    ensures r.out == [Emit(ToRoomExcept(f.roomId, sid), FileShared(f))]
  {
    Step(s.(files := s.files[f.roomId := FilesOf(s, f.roomId) + [f]]),
         [Emit(ToRoomExcept(f.roomId, sid), FileShared(f))])
  }

  /** `get-files`: the requester alone receives the room's files in upload order. */
  function GetFiles(s: State, sid: SocketId, roomId: RoomId): (out: Out)
    ensures DirectTo(out, sid) == [AllFiles(FilesOf(s, roomId))]
    ensures !Broadcasts(out)
  {
    [Emit(ToSocket(sid), AllFiles(FilesOf(s, roomId)))]
  }

  // ---------------------------------------------------------------------------
  // Event sequences

  /** The inbound events that change or read the directory and file lists. */
  datatype Op =
    | JoinOp(sid: SocketId, roomId: RoomId, username: string)
    | LeaveOp(sid: SocketId, roomId: RoomId)
    | DisconnectOp(sid: SocketId)
    | ShareOp(sid: SocketId, file: FileData)

  function Apply(s: State, op: Op): State
  {
    match op
    case JoinOp(sid, roomId, username) => Join(s, sid, roomId, username).state
    case LeaveOp(sid, roomId) => Leave(s, sid, roomId)
    case DisconnectOp(sid) => Disconnect(s, sid).state
    case ShareOp(sid, f) => ShareFile(s, sid, f).state
  }

  function Run(s: State, ops: seq<Op>): State
    decreases |ops|
  {
    if |ops| == 0 then s else Run(Apply(s, ops[0]), ops[1..])
  }

  // ---------------------------------------------------------------------------
  // Properties

  lemma InitialInv()
    ensures Inv(Initial)
  {
  }

  /** A joined room has its new member and keeps distinct members; the others
      are unchanged. */
  lemma JoinKeepsInv(s: State, sid: SocketId, roomId: RoomId, username: string)
    requires Inv(s)
    ensures Inv(Join(s, sid, roomId, username).state)
  {
    var s' := Join(s, sid, roomId, username).state;
    var before := MembersOf(s.rooms, roomId);
    OM.SetValid(before, sid, username);
    OM.SetValid(s.rooms, roomId, OM.Set(before, sid, username));
    assert OM.Has(MembersOf(s'.rooms, roomId), sid);
    forall q | OM.Has(s'.rooms, q)
      ensures |MembersOf(s'.rooms, q)| > 0 && OM.Valid(MembersOf(s'.rooms, q))
    {
      if q != roomId {
        assert OM.Get(s'.rooms, q) == OM.Get(s.rooms, q);
      }
    }
  }

  /** Leaving keeps every remaining room non-empty: the room the socket empties
      is deleted. */
  lemma LeaveKeepsInv(s: State, sid: SocketId, roomId: RoomId)
    requires Inv(s)
    ensures Inv(Leave(s, sid, roomId))
  {
    if OM.Has(s.rooms, roomId) {
      var s' := Leave(s, sid, roomId);
      var left := OM.Delete(MembersOf(s.rooms, roomId), sid);
      OM.DeleteValid(MembersOf(s.rooms, roomId), sid);
      if |left| == 0 {
        OM.DeleteValid(s.rooms, roomId);
      } else {
        OM.SetValid(s.rooms, roomId, left);
      }
      forall q | OM.Has(s'.rooms, q)
        ensures |MembersOf(s'.rooms, q)| > 0 && OM.Valid(MembersOf(s'.rooms, q))
      {
        if q != roomId {
          assert OM.Get(s'.rooms, q) == OM.Get(s.rooms, q);
        }
      }
    }
  }

  lemma DisconnectKeepsInv(s: State, sid: SocketId)
    requires Inv(s)
    ensures Inv(Disconnect(s, sid).state)
  {
    var s' := Disconnect(s, sid).state;
    forall q | OM.Has(s'.rooms, q)
      ensures |MembersOf(s'.rooms, q)| > 0 && OM.Valid(MembersOf(s'.rooms, q))
    {
      assert OM.Get(s'.rooms, q) == Cleaned(OM.Get(s.rooms, q), sid);
      OM.DeleteValid(MembersOf(s.rooms, q), sid);
    }
  }

  /** Whatever sequence of joins, leaves, disconnects and shares the server
      handles from a fresh start, no room is ever left empty and no socket is
      listed twice in a room. */
  lemma {:induction false} RunKeepsInv(s: State, ops: seq<Op>)
    requires Inv(s)
    ensures Inv(Run(s, ops))
    decreases |ops|
  {
    if |ops| > 0 {
      match ops[0] {
        case JoinOp(sid, roomId, username) => JoinKeepsInv(s, sid, roomId, username);
        case LeaveOp(sid, roomId) => LeaveKeepsInv(s, sid, roomId);
        case DisconnectOp(sid) => DisconnectKeepsInv(s, sid);
        case ShareOp(sid, f) =>
      }
      RunKeepsInv(Apply(s, ops[0]), ops[1..]);
    }
  }

  /** Leaving or disconnecting never removes a shared file, even when the room
      itself goes. */
  lemma FilesOutliveRooms(s: State, ops: seq<Op>, roomId: RoomId)
    requires forall i :: 0 <= i < |ops| ==> !ops[i].ShareOp?
    ensures FilesOf(Run(s, ops), roomId) == FilesOf(s, roomId)
    decreases |ops|
  {
    if |ops| > 0 {
      FilesOutliveRooms(Apply(s, ops[0]), ops[1..], roomId);
    }
  }

  /** The first socket into a fresh room is its host, and so is anyone asking
      before the room exists. */
  lemma FirstJoinerIsHost(s: State, a: SocketId, roomId: RoomId, username: string, b: SocketId)
    requires !OM.Has(s.rooms, roomId)
    ensures IsHost(s, b, roomId)
    ensures IsHost(Join(s, a, roomId, username).state, a, roomId)
  {
  }

  /** A second socket joining an occupied room is not its host. */
  lemma LaterJoinerIsNotHost(s: State, b: SocketId, roomId: RoomId, username: string)
    requires Inv(s) && OM.Has(s.rooms, roomId)
    requires !OM.Has(MembersOf(s.rooms, roomId), b)
    ensures !IsHost(Join(s, b, roomId, username).state, b, roomId)
  {
    var m := MembersOf(s.rooms, roomId);
    var m' := MembersOf(Join(s, b, roomId, username).state.rooms, roomId);
    assert OM.Keys(m') == OM.Keys(m) + [b];
    assert m'[0].0 == OM.Keys(m')[0] == OM.Keys(m)[0];
    assert OM.Keys(m)[0] in OM.Keys(m);
  }

  /** In a room of two or more, exactly the earliest member is host; when it
      leaves, exactly the earliest of the remaining members becomes host. */
  lemma HostPassesOn(s: State, roomId: RoomId)
    requires Inv(s) && OM.Has(s.rooms, roomId) && |MembersOf(s.rooms, roomId)| >= 2
    ensures var m := MembersOf(s.rooms, roomId);
      forall x :: OM.Has(m, x) ==> (IsHost(s, x, roomId) <==> x == m[0].0)
    ensures var m := MembersOf(s.rooms, roomId);
      var s' := Leave(s, m[0].0, roomId);
      && MembersOf(s'.rooms, roomId) == m[1..]
      && forall x :: OM.Has(m[1..], x) ==> (IsHost(s', x, roomId) <==> x == m[1].0)
  {
    var m := MembersOf(s.rooms, roomId);
    assert OM.Keys(m) == [m[0].0] + OM.Keys(m[1..]);
    assert !OM.Has(m[1..], m[0].0);
    assert OM.Delete(m, m[0].0) == OM.Delete(m[1..], m[0].0) == m[1..];
    var s' := Leave(s, m[0].0, roomId);
    assert MembersOf(s'.rooms, roomId) == m[1..];
    forall x | OM.Has(m[1..], x)
      ensures IsHost(s', x, roomId) <==> x == m[1].0
    {
      if |m| == 2 {
        assert OM.Keys(m[1..]) == [m[1].0];
      }
    }
  }

  /** The size-one rule holds whoever asks: a socket not in a one-member room is
      also told it is host, so two sockets can both be told they are. */
  lemma OutsiderToldHost(s: State, a: SocketId, b: SocketId, roomId: RoomId)
    requires OM.Has(s.rooms, roomId) && OM.Keys(MembersOf(s.rooms, roomId)) == [a] && a != b
    ensures IsHost(s, a, roomId) && IsHost(s, b, roomId)
    ensures !OM.Has(MembersOf(s.rooms, roomId), b)
  {
  }
}

=== FILE: session_guard.dfy ===
/** The client's connection hook (client/src/hooks/useSocket.js): whether the
    socket exists and is connected, the room it believes it is in, the
    participant list and the last error, and the guards in front of every emit.
    Acknowledgements from the server arrive as separate transitions. */
module SessionGuard {

  import opened Wrappers
  import opened Strings

  /** A participant entry as the server sends it, kept opaque. */
  type Participant = string

  datatype Conn = Conn(
    hasSocket: bool,
    connected: bool,
    roomId: Option<string>,
    participants: seq<Participant>,
    error: Option<string>)

  /** The state right after the hook creates its socket. */
  const Initial := Conn(true, false, None, [], None)

  const JoinBlocked := "Socket not connected. Cannot join room."
  const SendBlocked := "Socket not connected or not in a room. Cannot send message."
  const EmitBlocked := "Socket not connected. Cannot emit event."
  const ConnectionFailed := "Socket connection error"
  const JoinFailed := "Failed to join room"
  const LeaveFailed := "Failed to leave room"

  /** What the hook emits (event names `join_room`, `leave_room`, `message`, or
      any name through `emit`). */
  datatype Request =
    | JoinRequest(roomId: string, user: string)
    | LeaveRequest(roomId: string)
    | Message(roomId: string, messageType: string, payload: string)
    | Custom(event: string, data: string)

  /** A server acknowledgement: `success`, and optionally `participants` and `error`. */
  datatype Ack = Ack(success: bool, participants: Option<seq<Participant>>, error: Option<string>)

  datatype Step = Step(conn: Conn, out: seq<Request>)

  /** `socketRef.current && isConnected`. */
  predicate Online(c: Conn) { c.hasSocket && c.connected }

  /** `roomId` is set and, being a string, non-empty (JavaScript truthiness). */
  predicate InRoom(c: Conn) { c.roomId.Some? && c.roomId.value != "" }

  // ---------------------------------------------------------------------------
  // Socket events

  /** `connect`: connected, and any earlier error is cleared. */
  function OnConnect(c: Conn): (c': Conn)
    ensures c'.connected && c'.error.None?
    ensures c'.roomId == c.roomId && c'.participants == c.participants && c'.hasSocket == c.hasSocket
  {
    c.(connected := true, error := None)
  }

  /** `disconnect`: no longer connected; the room and participants are kept. */
  function OnDisconnect(c: Conn): (c': Conn)
    ensures !c'.connected && !Online(c')
    ensures c'.roomId == c.roomId && c'.participants == c.participants && c'.error == c.error
  {
    c.(connected := false)
  }

  /** `error`: the error's message, or a generic one when it has none. */
  function OnError(c: Conn, message: Option<string>): (c': Conn)
    ensures message.Some? && message.value != "" ==> c'.error == message
    ensures message.None? || message.value == "" ==> c'.error == Some(ConnectionFailed)
    ensures c' == c.(error := c'.error)
  {
    c.(error := Some(OrElse(message, ConnectionFailed)))
  }

  /** `room_update`: the participant list is replaced (empty when absent). */
  function OnRoomUpdate(c: Conn, participants: Option<seq<Participant>>): (c': Conn)
    ensures c'.participants == (if participants.Some? then participants.value else [])
    ensures c' == c.(participants := c'.participants)
  {
    c.(participants := participants.GetOr([]))
  }

  // ---------------------------------------------------------------------------
  // Guarded actions

  /** `joinRoom`: while offline only an error is recorded; online, the join
      request goes out and the state waits for the acknowledgement. */
  function JoinRoom(c: Conn, roomId: string, user: string): (r: Step)
    ensures !Online(c) ==> r.out == [] && r.conn == c.(error := Some(JoinBlocked))
    ensures Online(c) ==> r.out == [JoinRequest(roomId, user)] && r.conn == c
  {
    if !Online(c) then Step(c.(error := Some(JoinBlocked)), [])
    else Step(c, [JoinRequest(roomId, user)])
  }

  /** The acknowledgement of a join: success enters the room and takes the
      participant list (empty when absent); failure records the error and
      leaves the room as it was. */
  function JoinAck(c: Conn, roomId: string, ack: Ack): (c': Conn)
    ensures ack.success ==>
      && c'.roomId == Some(roomId) && c'.error == c.error
      && c'.participants == (if ack.participants.Some? then ack.participants.value else [])
    ensures !ack.success ==>
      && c'.roomId == c.roomId && c'.participants == c.participants
      && c'.error == Some(if ack.error.Some? && ack.error.value != "" then ack.error.value else JoinFailed)
    ensures c'.connected == c.connected && c'.hasSocket == c.hasSocket
  {
    if ack.success then c.(roomId := Some(roomId), participants := ack.participants.GetOr([]))
    else c.(error := Some(OrElse(ack.error, JoinFailed)))
  }

  /** `leaveRoom`: silently nothing while offline or outside a room; otherwise
      the leave request for the current room goes out. */
  function LeaveRoom(c: Conn): (r: Step)
    ensures !(Online(c) && InRoom(c)) ==> r == Step(c, [])
    ensures Online(c) && InRoom(c) ==> r == Step(c, [LeaveRequest(c.roomId.value)])
  {
    if !Online(c) || !InRoom(c) then Step(c, [])
    else Step(c, [LeaveRequest(c.roomId.value)])
  }

  /** The acknowledgement of a leave: success leaves the room and empties the
      participant list; failure only records the error. */
  function LeaveAck(c: Conn, ack: Ack): (c': Conn)
    ensures ack.success ==> c' == c.(roomId := None, participants := [])
    ensures !ack.success ==> c' == c.(error := c'.error) && c'.error.Some?
    ensures !ack.success && ack.error.Some? && ack.error.value != "" ==> c'.error == ack.error
    ensures !ack.success && (ack.error.None? || ack.error.value == "") ==> c'.error == Some(LeaveFailed)
  {
    if ack.success then c.(roomId := None, participants := [])
    else c.(error := Some(OrElse(ack.error, LeaveFailed)))
  }

  datatype Sent = Sent(ok: bool, step: Step)

  /** `sendMessage`: succeeds, emitting one message tagged with the current
      room, exactly when online and in a room; otherwise records an error. */
  function SendMessage(c: Conn, messageType: string, payload: string): (r: Sent)
    ensures r.ok <==> Online(c) && InRoom(c)
    ensures r.ok <==> |r.step.out| > 0
    ensures r.ok ==> r.step == Step(c, [Message(c.roomId.value, messageType, payload)])
    ensures !r.ok ==> r.step.conn == c.(error := Some(SendBlocked))
  {
    if !Online(c) || !InRoom(c) then Sent(false, Step(c.(error := Some(SendBlocked)), []))
    else Sent(true, Step(c, [Message(c.roomId.value, messageType, payload)]))
  }

  /** `emit`: passes any event through while online; otherwise records an error. */
  function Emit(c: Conn, event: string, data: string): (r: Step)
    ensures Online(c) ==> r == Step(c, [Custom(event, data)])
    ensures !Online(c) ==> r == Step(c.(error := Some(EmitBlocked)), [])
  {
    if !Online(c) then Step(c.(error := Some(EmitBlocked)), []) else Step(c, [Custom(event, data)])
  }

  // ---------------------------------------------------------------------------
  // Properties

  /** Joining and then leaving, both acknowledged, returns to the state before
      the join, except for the participant list, which ends empty. */
  lemma JoinLeaveRoundTrip(c: Conn, roomId: string, user: string, joined: Ack, left: Ack)
    requires Online(c) && c.roomId.None? && roomId != ""
    requires joined.success && left.success
    ensures JoinRoom(c, roomId, user).out == [JoinRequest(roomId, user)]
    ensures var inRoom := JoinAck(JoinRoom(c, roomId, user).conn, roomId, joined);
      LeaveRoom(inRoom).out == [LeaveRequest(roomId)]
      && LeaveAck(LeaveRoom(inRoom).conn, left) == c.(participants := [])
  {
  }

  /** Losing the connection keeps the room but blocks sending; reconnecting
      unblocks it without a new join. */
  lemma DisconnectBlocksUntilReconnect(c: Conn, messageType: string, payload: string)
    requires c.hasSocket && InRoom(c)
    ensures !SendMessage(OnDisconnect(c), messageType, payload).ok
    ensures OnDisconnect(c).roomId == c.roomId
    ensures SendMessage(OnConnect(OnDisconnect(c)), messageType, payload).ok
  {
  }

  /** A room id that is the empty string counts as no room: the join is
      acknowledged, yet messages are refused and leaving does nothing. */
  lemma EmptyRoomIdIsNoRoom(c: Conn, user: string, ack: Ack, messageType: string, payload: string)
    requires Online(c) && ack.success
    ensures var c' := JoinAck(c, "", ack);
      c'.roomId == Some("") && !SendMessage(c', messageType, payload).ok && LeaveRoom(c').out == []
  {
  }
}

=== FILE: session_server.dfy ===
/** The session coordinator of server/services/socket.js: the room directory
    (`activeRooms`, `userRooms`), the participation tracker, and the event
    handlers that read and change them. Every handler is a function from the
    current state and one inbound event to the next state and the events it
    emits. The outcome of each store or disk call is a parameter. */
module SessionServer {

  import opened Wrappers
  import opened Strings
  import opened Transport
  import OM = OrderedMap
  import P = Participation

  /** What authentication attached to the socket. A guest has no user id and no
      role, and the name it gave at connection time (or "Guest"). */
  datatype Identity = Identity(socketId: SocketId, userId: Option<string>, username: string, role: Option<string>)

  /** `socket.user._id || socket.id`: guests are tracked under their socket id. */
  function UserIdOf(who: Identity): (id: string)
    ensures who.userId.Some? ==> id == who.userId.value
    ensures who.userId.None? ==> id == who.socketId
  {
    who.userId.GetOr(who.socketId)
  }

  /** An entry of a room's member map. */
  datatype Member = Member(userId: string, username: string, role: string)

  /** A room's members by socket id, in join order. */
  type Members = seq<(SocketId, Member)>

  datatype State = State(
    activeRooms: map<RoomId, Members>,
    userRooms: map<SocketId, RoomId>,
    records: P.Tracker)

  const Initial := State(map[], map[], map[])

  datatype ParticipantInfo = ParticipantInfo(socketId: SocketId, userId: string, username: string, role: string)
  datatype PeerInfo = PeerInfo(socketId: SocketId, userId: string, username: string)

  /** A chat message as broadcast; `id` and `timestamp` come from the store. */
  datatype ChatMessage = ChatMessage(
    id: string, roomId: RoomId, sender: string, senderName: string,
    text: string, kind: string, timestamp: int)

  /** A shared document reference as broadcast; `id` and `uploadedAt` come from the store. */
  datatype SharedDocument = SharedDocument(
    id: string, name: string, roomId: RoomId, uploadedBy: string, uploadedByName: string,
    fileType: string, fileSize: int, filePath: string, uploadedAt: int)

  datatype Event =
    | UserJoinedRoom(socketId: SocketId, userId: string, username: string)
    | RoomParticipants(participants: seq<ParticipantInfo>)
    | ChatHistory(messages: seq<ChatMessage>)
    | AllUsers(users: seq<PeerInfo>)
    | UserJoined(signal: string, callerId: string, username: string)
    | ReceivingReturnedSignal(signal: string, id: SocketId)
    | IsTeacher(isTeacher: bool)
    | WhiteboardUpdate(drawData: string)
    | ReceiveMessage(chat: ChatMessage)
    | FileShared(document: SharedDocument)
    | AllFiles(documents: seq<SharedDocument>)
    | UserHandRaise(userId: string, username: string, isRaised: bool)
    | UserReaction(userId: string, username: string, reaction: string)
    | ParticipationInsights  // the empty insight list, the only one the handler can send
    | UserLeftRoom(socketId: SocketId)
    | Error(message: string)

  type Out = seq<Outbound<Event>>

  datatype Step = Step(state: State, out: Out)

  const JoinFailed := "Failed to join room"
  const SendFailed := "Failed to send message"
  const ShareFailed := "Failed to share file"
  const FilesFailed := "Failed to retrieve files"
  const InsightsDenied := "Permission denied: Only teachers/admins can view participation insights"
  const InsightsFailed := "Failed to retrieve participation insights"

  /** The member lists of the state are all free of duplicate sockets. */
  ghost predicate Valid(s: State)
  {
    forall r :: r in s.activeRooms ==> OM.Valid(s.activeRooms[r])
  }

  // ---------------------------------------------------------------------------
  // join-room

  /** The store's answers during a join: whether finding or creating the room
      record worked (asked only for a room not yet active), whether adding the
      user to the stored participants worked (asked only for a signed-in user),
      and the recent chat history, if it could be read. */
  datatype JoinStore = JoinStore(roomRecordOk: bool, participantsOk: bool, history: Option<seq<ChatMessage>>)

  /** The participant list a joiner receives: every member, in join order. */
  function Participants(m: Members): (ps: seq<ParticipantInfo>)
    ensures |ps| == |m|
    ensures forall i :: 0 <= i < |m| ==>
      ps[i] == ParticipantInfo(m[i].0, m[i].1.userId, m[i].1.username, m[i].1.role)
  {
    if |m| == 0 then []
    else [ParticipantInfo(m[0].0, m[0].1.userId, m[0].1.username, m[0].1.role)] + Participants(m[1..])
  }

  /** The member entry a join files for `who`. */
  function MemberFor(who: Identity, name: string): Member
  {
    Member(UserIdOf(who), OrElse(Some(who.username), name), OrElse(who.role, "participant"))
  }

  /** Whether the join gets past creating the room: it fails there only for a
      room that was not yet active and whose store record could not be made. */
  predicate RoomReady(s: State, roomId: RoomId, db: JoinStore)
  {
    roomId in s.activeRooms || db.roomRecordOk
  }

  /** The members of `roomId`, or none for a room that is not active. */
  function MembersOf(s: State, roomId: RoomId): Members
  {
    if roomId in s.activeRooms then s.activeRooms[roomId] else []
  }

  /** The in-memory part of a join past room creation: the socket is filed in the
      room (a new socket at the end, a known one in place with its entry
      replaced, the others untouched) and its participation record exists. */
  function Admit(s: State, who: Identity, roomId: RoomId, name: string, now: int): (s': State)
    ensures s'.userRooms == s.userRooms
    ensures s'.activeRooms.Keys == s.activeRooms.Keys + {roomId}
    ensures forall q :: q in s.activeRooms && q != roomId ==> s'.activeRooms[q] == s.activeRooms[q]
    ensures OM.Get(s'.activeRooms[roomId], who.socketId) == Some(MemberFor(who, name))
    ensures OM.Keys(s'.activeRooms[roomId]) ==
      if OM.Has(MembersOf(s, roomId), who.socketId) then OM.Keys(MembersOf(s, roomId))
      else OM.Keys(MembersOf(s, roomId)) + [who.socketId]
    ensures forall q :: q != who.socketId ==> OM.Get(s'.activeRooms[roomId], q) == OM.Get(MembersOf(s, roomId), q)
    ensures P.RecordKey(roomId, UserIdOf(who)) in s'.records
  {
    var member := MemberFor(who, name);
    var after := OM.Set(MembersOf(s, roomId), who.socketId, member);
    var (records, _) := P.Initialize(s.records, member.userId, member.username, roomId, now);
    State(s.activeRooms[roomId := after], s.userRooms, records)
  }

  /** `join-room`. The socket is recorded as being in the room and the room is
      made active before anything can fail; a store failure while creating the
      room leaves it active but without this member. Otherwise the socket is
      admitted, the others are told, and the joiner receives the full
      participant list, itself included, then the chat history. A failure to
      update the stored participants of a signed-in user skips the messages. */
  function Join(s: State, who: Identity, roomId: RoomId, name: string, now: int, db: JoinStore)
    : (r: Step)
    ensures r.state.userRooms == s.userRooms[who.socketId := roomId]
    ensures !RoomReady(s, roomId, db) ==>
      && r.state.activeRooms == s.activeRooms[roomId := []]
      && r.state.records == s.records
      && r.out == [Emit(ToSocket(who.socketId), Error(JoinFailed))]
    ensures RoomReady(s, roomId, db) ==>
      r.state == Admit(s, who, roomId, name, now).(userRooms := s.userRooms[who.socketId := roomId])
    ensures RoomReady(s, roomId, db) && (who.userId.None? || db.participantsOk) ==>
      && |r.out| == 3
      && r.out[0] == Emit(ToRoomExcept(roomId, who.socketId),
                          UserJoinedRoom(who.socketId, UserIdOf(who), MemberFor(who, name).username))
      && r.out[1] == Emit(ToSocket(who.socketId), RoomParticipants(Participants(r.state.activeRooms[roomId])))
      && r.out[2] == Emit(ToSocket(who.socketId),
                          if db.history.Some? then ChatHistory(db.history.value) else Error(JoinFailed))
    ensures RoomReady(s, roomId, db) && who.userId.Some? && !db.participantsOk ==>
      r.out == [Emit(ToSocket(who.socketId), Error(JoinFailed))]
  {
    var sid := who.socketId;
    var userRooms := s.userRooms[sid := roomId];
    if !RoomReady(s, roomId, db) then
      Step(State(s.activeRooms[roomId := []], userRooms, s.records), [Emit(ToSocket(sid), Error(JoinFailed))])
    else
      var s2 := Admit(s, who, roomId, name, now).(userRooms := userRooms);
      var member := MemberFor(who, name);
      if who.userId.Some? && !db.participantsOk then
        Step(s2, [Emit(ToSocket(sid), Error(JoinFailed))])
      else
        Step(s2, [Emit(ToRoomExcept(roomId, sid), UserJoinedRoom(sid, member.userId, member.username)),
                  Emit(ToSocket(sid), RoomParticipants(Participants(s2.activeRooms[roomId]))),
                  Emit(ToSocket(sid), if db.history.Some? then ChatHistory(db.history.value)
                                      else Error(JoinFailed))])
  }

  // ---------------------------------------------------------------------------
  // user-with-media

  /** The socket ids of a peer list, in order. */
  function PeerIds(ps: seq<PeerInfo>): (ids: seq<SocketId>)
    ensures |ids| == |ps|
    ensures forall i :: 0 <= i < |ps| ==> ids[i] == ps[i].socketId
  {
    if |ps| == 0 then [] else [ps[0].socketId] + PeerIds(ps[1..])
  }

  /** Whether `p` carries the user id and name filed for its socket in `m`. */
  predicate Describes(m: Members, p: PeerInfo)
  {
    var e := OM.Get(m, p.socketId);
    e.Some? && e.value.userId == p.userId && e.value.username == p.username
  }

  /** An entry that describes a peer still does with another member in front. */
  lemma DescribesCons(m: Members, p: PeerInfo)
    requires |m| > 0 && m[0].0 !in OM.Keys(m[1..]) && Describes(m[1..], p)
    ensures Describes(m, p)
  {
    assert OM.Has(m[1..], p.socketId);
  }

  /** A peer list that describes the members behind the first still does with
      the first in front. */
  lemma DescribesAll(m: Members, tail: seq<PeerInfo>)
    requires |m| > 0
    requires OM.Valid(m[1..]) ==> forall i :: 0 <= i < |tail| ==> Describes(m[1..], tail[i])
    ensures OM.Valid(m) ==> forall i :: 0 <= i < |tail| ==> Describes(m, tail[i])
  {
    if OM.Valid(m) {
      OM.ValidTail(m);
      forall i | 0 <= i < |tail| ensures Describes(m, tail[i]) {
        DescribesCons(m, tail[i]);
      }
    }
  }

  /** The members other than `self`, in join order, each with its filed user id
      and name. */
  function Others(m: Members, self: SocketId): (ps: seq<PeerInfo>)
    ensures PeerIds(ps) == OM.Without(OM.Keys(m), self)
    ensures OM.Valid(m) ==> forall i :: 0 <= i < |ps| ==> Describes(m, ps[i])
  {
    if |m| == 0 then []
    else
      assert OM.Keys(m) == [m[0].0] + OM.Keys(m[1..]);
      var tail := Others(m[1..], self);
      DescribesAll(m, tail);
      if m[0].0 == self then tail
      else
        var ps := [PeerInfo(m[0].0, m[0].1.userId, m[0].1.username)] + tail;
        assert ps[1..] == tail;
        assert PeerIds(ps) == [m[0].0] + PeerIds(tail);
        ps
  }

  /** `user-with-media`: the requester receives the other members of the room in
      join order, never itself, and nothing for an unknown room. Nothing changes. */
  function PeerSnapshot(s: State, who: Identity, roomId: RoomId): (out: Out)
    ensures |out| == 1 && out[0].target == ToSocket(who.socketId) && out[0].event.AllUsers?
    ensures who.socketId !in PeerIds(out[0].event.users)
    ensures roomId !in s.activeRooms ==> out[0].event.users == []
    ensures roomId in s.activeRooms ==>
      PeerIds(out[0].event.users) == OM.Without(OM.Keys(s.activeRooms[roomId]), who.socketId)
    ensures Valid(s) && roomId in s.activeRooms ==>
      forall i :: 0 <= i < |out[0].event.users| ==> Describes(s.activeRooms[roomId], out[0].event.users[i])
  {
    var users := if roomId in s.activeRooms then Others(s.activeRooms[roomId], who.socketId) else [];
    [Emit(ToSocket(who.socketId), AllUsers(users))]
  }

  // ---------------------------------------------------------------------------
  // Signal relay

  /** `sending-signal`: the offer goes, unchanged, to `userToSignal` alone. */
  function SendingSignal(userToSignal: SocketId, callerId: string, signal: string, username: string)
    : (out: Out)
    ensures DirectTo(out, userToSignal) == [UserJoined(signal, callerId, username)]
    ensures forall x :: x != userToSignal ==> DirectTo(out, x) == []
    ensures !Broadcasts(out)
  {
    [Emit(ToSocket(userToSignal), UserJoined(signal, callerId, username))]
  }

  /** `returning-signal`: the answer goes, unchanged, to `callerId` alone, tagged
      with the responder's own socket id. */
  function ReturningSignal(who: Identity, signal: string, callerId: SocketId): (out: Out)
    ensures DirectTo(out, callerId) == [ReceivingReturnedSignal(signal, who.socketId)]
    ensures forall x :: x != callerId ==> DirectTo(out, x) == []
    ensures !Broadcasts(out)
  {
    [Emit(ToSocket(callerId), ReceivingReturnedSignal(signal, who.socketId))]
  }

  // ---------------------------------------------------------------------------
  // check-teacher

  /** The host rule of this server: a teacher, or anyone asking about an active
      room that has exactly one member. */
  predicate IsHost(s: State, who: Identity, roomId: RoomId)
  {
    who.role == Some("teacher") || (roomId in s.activeRooms && |s.activeRooms[roomId]| == 1)
  }

  /** `check-teacher`: the requester alone learns whether it is host. */
  function CheckTeacher(s: State, who: Identity, roomId: RoomId): (out: Out)
    ensures DirectTo(out, who.socketId) == [IsTeacher(IsHost(s, who, roomId))]
    ensures !Broadcasts(out)
  {
    [Emit(ToSocket(who.socketId), IsTeacher(IsHost(s, who, roomId)))]
  }

  // ---------------------------------------------------------------------------
  // Broadcast handlers

  /** The key the sender's participation record is filed under for `roomId`. */
  function KeyOf(who: Identity, roomId: RoomId): string
  {
    P.RecordKey(roomId, UserIdOf(who))
  }

  /** `s'` is `s` with at most the record under `key` changed: the room
      directory, the socket-to-room entries and every other record are as they
      were, no record appears or goes, and nothing changes at all when there is
      no record under `key`. */
  ghost predicate OnlyRecordChanges(s: State, s': State, key: string)
  {
    && s'.activeRooms == s.activeRooms
    && s'.userRooms == s.userRooms
    && s'.records.Keys == s.records.Keys
    && (forall k :: k in s.records && k != key ==> s'.records[k] == s.records[k])
    && (key !in s.records ==> s' == s)
  }

  /** `out` is one event into `roomId` for everyone but `sid`, and nothing
      addressed to a single socket. */
  ghost predicate ToOthersOnly(out: Out, roomId: RoomId, sid: SocketId)
  {
    && |out| == 1 && out[0].target == ToRoomExcept(roomId, sid)
    && forall x :: DirectTo(out, x) == []
  }

  /** `whiteboard-draw`: relayed to the others unchanged, and the sender's
      drawing count goes up by one. */
  function WhiteboardDraw(s: State, who: Identity, roomId: RoomId, drawData: string, now: int): (r: Step)
    ensures ToOthersOnly(r.out, roomId, who.socketId) && r.out[0].event == WhiteboardUpdate(drawData)
    ensures OnlyRecordChanges(s, r.state, KeyOf(who, roomId))
    ensures var key := KeyOf(who, roomId);
      key in s.records ==>
        r.state.records[key] == s.records[key].(lastActivity := now,
          whiteboardInteractions := s.records[key].whiteboardInteractions + 1)
  {
    Step(s.(records := P.Update(s.records, UserIdOf(who), roomId, P.Whiteboard(1), now)),
         [Emit(ToRoomExcept(roomId, who.socketId), WhiteboardUpdate(drawData))])
  }

  /** What the store hands back for a created record: its id and timestamp. */
  datatype Saved = Saved(id: string, timestamp: int)

  /** `send-message`: the message is stored first; only if that succeeds is it
      broadcast to the others and counted. A failed store answers the sender with
      an error and changes nothing. */
  function SendMessage(s: State, who: Identity, roomId: RoomId, text: string, kind: Option<string>,
                       sender: string, saved: Option<Saved>, now: int): (r: Step)
    ensures saved.None? ==> r == Step(s, [Emit(ToSocket(who.socketId), Error(SendFailed))])
    ensures saved.None? ==> !Broadcasts(r.out)
    ensures saved.Some? ==>
      && OnlyRecordChanges(s, r.state, KeyOf(who, roomId))
      && ToOthersOnly(r.out, roomId, who.socketId)
      && r.out[0].event.ReceiveMessage?
      && r.out[0].event.chat.id == saved.value.id
      && r.out[0].event.chat.timestamp == saved.value.timestamp
      && r.out[0].event.chat.roomId == roomId
      && r.out[0].event.chat.text == text
      && r.out[0].event.chat.kind == OrElse(kind, "text")
      && r.out[0].event.chat.sender == UserIdOf(who)
      && r.out[0].event.chat.senderName == OrElse(Some(who.username), sender)
    ensures var key := KeyOf(who, roomId);
      saved.Some? && key in s.records ==>
        r.state.records[key] == s.records[key].(lastActivity := now,
          messageCount := s.records[key].messageCount + 1)
  {
    match saved
    case None => Step(s, [Emit(ToSocket(who.socketId), Error(SendFailed))])
    case Some(sv) =>
      var userId := UserIdOf(who);
      var msg := ChatMessage(sv.id, roomId, userId, OrElse(Some(who.username), sender), text,
                             OrElse(kind, "text"), sv.timestamp);
      Step(s.(records := P.Update(s.records, userId, roomId, P.Message(1), now)),
           [Emit(ToRoomExcept(roomId, who.socketId), ReceiveMessage(msg))])
  }

  /** The base64 payload of a data URL (section 3 of RFC 2397): what follows the
      last ";base64," marker, or the whole text when there is none. */
  function UploadPayload(data: string): (payload: string)
    ensures |payload| <= |data| && payload == data[|data| - |payload|..]
    ensures !Occurs(payload, ";base64,")
    ensures !Occurs(data, ";base64,") ==> payload == data
    ensures Occurs(data, ";base64,") ==>
      |payload| + 8 <= |data| && data[|data| - |payload| - 8..|data| - |payload|] == ";base64,"
  {
    LastSegmentSpec(data, ";base64,");
    LastSegment(data, ";base64,")
  }

  /** The extension of a file name: what follows its last '.', or the whole name
      when it has none. */
  function Extension(name: string): (ext: string)
    ensures |ext| <= |name| && ext == name[|name| - |ext|..]
    ensures '.' !in ext
    ensures '.' !in name ==> ext == name
    ensures '.' in name ==> |ext| < |name| && name[|name| - |ext| - 1] == '.'
  {
    LastSegmentSpec(name, ".");
    var ext := LastSegment(name, ".");
    DotOccurs(ext);
    DotOccurs(name);
    assert '.' in name ==> name[|name| - |ext| - 1] == name[|name| - |ext| - 1..|name| - |ext|][0];
    ext
  }

  /** A one-character separator occurs exactly when the character is present. */
  lemma DotOccurs(s: string)
    ensures Occurs(s, ".") <==> '.' in s
  {
    if '.' in s {
      var i :| 0 <= i < |s| && s[i] == '.';
      assert OccursAt(s, ".", i);
    }
    if Occurs(s, ".") {
      var i: nat :| OccursAt(s, ".", i);
      assert s[i] == s[i..i + 1][0];
    }
  }

  /** The stored name of an upload: the generated id, a '.', and the extension. */
  function StoredFileName(fileId: string, name: string): (fileName: string)
    ensures fileName == fileId + "." + Extension(name)
    ensures '.' !in name ==> fileName == fileId + "." + name
  {
    fileId + "." + Extension(name)
  }

  /** The path a stored upload is served from. */
  function StoredPath(fileId: string, name: string): (path: string)
    ensures path == "/uploads/" + fileId + "." + Extension(name)
  {
    "/uploads/" + StoredFileName(fileId, name)
  }

  /** A `share-file` request. */
  datatype FileUpload = FileUpload(
    roomId: RoomId, name: string, fileType: string, size: int, data: string, uploadedBy: string)

  /** The outcomes of the three writes a share makes, in order: the file on disk,
      the document record (its id and upload time), the chat message about it. */
  datatype ShareStore = ShareStore(fileId: string, diskOk: bool, document: Option<Saved>, messageOk: bool)

  /** Whether all three writes of a share succeeded. */
  predicate Stored(db: ShareStore)
  {
    db.diskOk && db.document.Some? && db.messageOk
  }

  /** `share-file`: the file is written under its generated name, then the
      document record and a file message are stored; only when all three succeed
      is the document broadcast to the others and counted. Any failure answers
      the sender with an error and changes nothing. */
  function ShareFile(s: State, who: Identity, f: FileUpload, db: ShareStore, now: int): (r: Step)
    ensures !Stored(db) ==> r == Step(s, [Emit(ToSocket(who.socketId), Error(ShareFailed))])
    ensures !Stored(db) ==> !Broadcasts(r.out)
    ensures Stored(db) ==>
      && OnlyRecordChanges(s, r.state, KeyOf(who, f.roomId))
      && ToOthersOnly(r.out, f.roomId, who.socketId)
      && r.out[0].event.FileShared?
      && r.out[0].event.document.filePath == "/uploads/" + db.fileId + "." + Extension(f.name)
      && r.out[0].event.document.id == db.document.value.id
      && r.out[0].event.document.uploadedAt == db.document.value.timestamp
      && r.out[0].event.document.name == f.name
      && r.out[0].event.document.roomId == f.roomId
      && r.out[0].event.document.uploadedBy == UserIdOf(who)
      && r.out[0].event.document.uploadedByName == OrElse(Some(who.username), f.uploadedBy)
      && r.out[0].event.document.fileType == f.fileType
      && r.out[0].event.document.fileSize == f.size
    ensures var key := KeyOf(who, f.roomId);
      Stored(db) && key in s.records ==>
        r.state.records[key] == s.records[key].(lastActivity := now,
          documentShares := s.records[key].documentShares + 1)
  {
    if !Stored(db) then Step(s, [Emit(ToSocket(who.socketId), Error(ShareFailed))])
    else
      var userId := UserIdOf(who);
      var doc := SharedDocument(db.document.value.id, f.name, f.roomId, userId,
                                OrElse(Some(who.username), f.uploadedBy), f.fileType, f.size,
                                StoredPath(db.fileId, f.name), db.document.value.timestamp);
      Step(s.(records := P.Update(s.records, userId, f.roomId, P.Document(1), now)),
           [Emit(ToRoomExcept(f.roomId, who.socketId), FileShared(doc))])
  }

  /** A share reaches the engagement summary the sender's record is later
      flushed with: one more document after a share whose writes all
      succeeded, none more after one that failed. */
  lemma ShareCountsInSummary(s: State, who: Identity, f: FileUpload, db: ShareStore, now: int,
                             later: int, writeOk: bool)
    requires KeyOf(who, f.roomId) in s.records
    ensures var flushed := P.Flush(ShareFile(s, who, f, db, now).state.records, f.roomId, UserIdOf(who), later, writeOk);
      && flushed.attempted.Some?
      && flushed.attempted.value.documentsShared
           == s.records[KeyOf(who, f.roomId)].documentShares + (if Stored(db) then 1 else 0)
  {
    var key := KeyOf(who, f.roomId);
    var after := ShareFile(s, who, f, db, now).state.records;
    assert key in after;
    var folded := P.FoldOpenInterval(after[key], later);
    assert folded.documentShares == after[key].documentShares;
  }

  /** `get-files`: the sender receives the room's stored documents, or an error
      when they cannot be read. Nothing changes. */
  function GetFiles(who: Identity, documents: Option<seq<SharedDocument>>): (out: Out)
    ensures DirectTo(out, who.socketId) ==
      [if documents.Some? then AllFiles(documents.value) else Error(FilesFailed)]
    ensures !Broadcasts(out)
  {
    [Emit(ToSocket(who.socketId), if documents.Some? then AllFiles(documents.value) else Error(FilesFailed))]
  }

  /** The status a `speaking-status` event reports. A missing `isSpeaking`
      falls back to the tracker's default value 1, which counts as speaking. */
  function SpeakingOn(isSpeaking: Option<bool>): (on: bool)
    ensures isSpeaking.Some? ==> on == isSpeaking.value
    ensures isSpeaking.None? ==> on
  {
    isSpeaking.GetOr(true)
  }

  /** `speaking-status`: feeds the sender's speaking machine; nothing is
      emitted. Starting to speak opens an interval at `now`, stopping closes it
      and adds its length, and a repeated status only marks activity. */
  function SpeakingStatus(s: State, who: Identity, roomId: RoomId, isSpeaking: Option<bool>, now: int): (r: Step)
    ensures r.out == []
    ensures OnlyRecordChanges(s, r.state, KeyOf(who, roomId))
    ensures var key := KeyOf(who, roomId);
      key in s.records ==>
        var on := SpeakingOn(isSpeaking);
        var old_ := s.records[key];
        var new_ := r.state.records[key];
        && (on && !old_.speaking ==>
              new_ == old_.(lastActivity := now, speaking := true, speakingStart := Some(now)))
        && (!on && old_.speaking ==>
              new_ == old_.(lastActivity := now, speaking := false, speakingStart := None,
                            speakingTime := old_.speakingTime + P.Seconds(old_.speakingStart.GetOr(0), now)))
        && (on == old_.speaking ==> new_ == old_.(lastActivity := now))
  {
    Step(s.(records := P.Update(s.records, UserIdOf(who), roomId, P.Speaking(SpeakingOn(isSpeaking)), now)), [])
  }

  /** `hand-raise`: always broadcast; counted only when the hand goes up. */
  function HandRaise(s: State, who: Identity, roomId: RoomId, isRaised: bool, now: int): (r: Step)
    ensures ToOthersOnly(r.out, roomId, who.socketId)
    ensures r.out[0].event == UserHandRaise(UserIdOf(who), who.username, isRaised)
    ensures !isRaised ==> r.state == s
    ensures OnlyRecordChanges(s, r.state, KeyOf(who, roomId))
    ensures var key := KeyOf(who, roomId);
      isRaised && key in s.records ==>
        r.state.records[key] == s.records[key].(lastActivity := now, handRaises := s.records[key].handRaises + 1)
  {
    var userId := UserIdOf(who);
    var records := if isRaised then P.Update(s.records, userId, roomId, P.HandRaise(1), now) else s.records;
    Step(s.(records := records), [Emit(ToRoomExcept(roomId, who.socketId), UserHandRaise(userId, who.username, isRaised))])
  }

  /** `send-reaction`: broadcast to the others, then counted. */
  function SendReaction(s: State, who: Identity, roomId: RoomId, reaction: string, now: int): (r: Step)
    ensures ToOthersOnly(r.out, roomId, who.socketId)
    ensures r.out[0].event == UserReaction(UserIdOf(who), who.username, reaction)
    ensures OnlyRecordChanges(s, r.state, KeyOf(who, roomId))
    ensures var key := KeyOf(who, roomId);
      key in s.records ==>
        r.state.records[key] == s.records[key].(lastActivity := now, reactions := s.records[key].reactions + 1)
  {
    Step(s.(records := P.Update(s.records, UserIdOf(who), roomId, P.Reaction(1), now)),
         [Emit(ToRoomExcept(roomId, who.socketId), UserReaction(UserIdOf(who), who.username, reaction))])
  }

  /** Who may read the live participation records. */
  predicate MayReadInsights(who: Identity)
  {
    who.role == Some("teacher") || who.role == Some("admin")
  }

  /** `key.startsWith(prefix)`. */
  predicate StartsWith(key: string, prefix: string)
  {
    |prefix| <= |key| && key[..|prefix|] == prefix
  }

  /** Whether some live record is filed under `roomId` by its key. */
  predicate TracksRoom(t: P.Tracker, roomId: RoomId)
  {
    exists k :: k in t && StartsWith(k, roomId + ":")
  }

  /** `get-participation-insights`. Anyone but a teacher or admin gets a
      permission error. For a teacher or admin the handler reads a `metrics`
      field that no live record has, so any record of the room makes it fail
      with the generic error; only a room with no live record yields an
      (empty) insight list. Nothing changes. */
  function Insights(s: State, who: Identity, roomId: RoomId): (out: Out)
    ensures !MayReadInsights(who) ==> DirectTo(out, who.socketId) == [Error(InsightsDenied)]
    ensures MayReadInsights(who) && TracksRoom(s.records, roomId) ==>
      DirectTo(out, who.socketId) == [Error(InsightsFailed)]
    ensures MayReadInsights(who) && !TracksRoom(s.records, roomId) ==>
      DirectTo(out, who.socketId) == [ParticipationInsights]
    ensures !Broadcasts(out)
  {
    var answer :=
      if !MayReadInsights(who) then Error(InsightsDenied)
      else if TracksRoom(s.records, roomId) then Error(InsightsFailed)
      else ParticipationInsights;
    [Emit(ToSocket(who.socketId), answer)]
  }

  // ---------------------------------------------------------------------------
  // disconnect

  /** Whether a disconnect finds a room to clean up: the socket's recorded room
      is a non-empty id of an active room. */
  predicate HasRoomToLeave(s: State, sid: SocketId)
  {
    sid in s.userRooms && s.userRooms[sid] != "" && s.userRooms[sid] in s.activeRooms
  }

  /** `disconnect`: the socket leaves the room it is recorded in, the room goes
      when it empties, its participation record is flushed (`writeOk` is the
      store's answer) and the others are told. The socket's room entry is dropped
      in every case, including when its recorded room is no longer active (the
      handler fails there and changes nothing else). */
  function Disconnect(s: State, who: Identity, now: int, writeOk: bool): (r: Step)
    ensures r.state.userRooms == s.userRooms - {who.socketId}
    ensures !HasRoomToLeave(s, who.socketId) ==>
      r.out == [] && r.state.activeRooms == s.activeRooms && r.state.records == s.records
    ensures HasRoomToLeave(s, who.socketId) ==>
      var roomId := s.userRooms[who.socketId];
      var left := OM.Delete(s.activeRooms[roomId], who.socketId);
      && (roomId in r.state.activeRooms <==> |left| > 0)
      && (roomId in r.state.activeRooms ==> r.state.activeRooms[roomId] == left)
      && r.state.activeRooms.Keys <= s.activeRooms.Keys
      && (forall q :: q in s.activeRooms && q != roomId ==> q in r.state.activeRooms && r.state.activeRooms[q] == s.activeRooms[q])
      && r.state.records == P.Flush(s.records, roomId, UserIdOf(who), now, writeOk).tracker
      && r.out == [Emit(ToRoomExcept(roomId, who.socketId), UserLeftRoom(who.socketId))]
  {
    var sid := who.socketId;
    var dropped := s.userRooms - {sid};
    if !HasRoomToLeave(s, sid) then Step(s.(userRooms := dropped), [])
    else
      var roomId := s.userRooms[sid];
      var left := OM.Delete(s.activeRooms[roomId], sid);
      var rooms := if |left| == 0 then s.activeRooms - {roomId} else s.activeRooms[roomId := left];
      var flushed := P.Flush(s.records, roomId, UserIdOf(who), now, writeOk);
      Step(State(rooms, dropped, flushed.tracker), [Emit(ToRoomExcept(roomId, sid), UserLeftRoom(sid))])
  }

  // ---------------------------------------------------------------------------
  // Properties

  /** Joining keeps every member list free of duplicates: joining twice leaves
      one entry for the socket. */
  lemma JoinKeepsValid(s: State, who: Identity, roomId: RoomId, name: string, now: int, db: JoinStore)
    requires Valid(s)
    ensures Valid(Join(s, who, roomId, name, now, db).state)
  {
    if RoomReady(s, roomId, db) {
      OM.SetValid(MembersOf(s, roomId), who.socketId, MemberFor(who, name));
    }
  }

  /** Disconnecting keeps every member list free of duplicates. */
  lemma DisconnectKeepsValid(s: State, who: Identity, now: int, writeOk: bool)
    requires Valid(s)
    ensures Valid(Disconnect(s, who, now, writeOk).state)
  {
    if HasRoomToLeave(s, who.socketId) {
      OM.DeleteValid(s.activeRooms[s.userRooms[who.socketId]], who.socketId);
    }
  }

  /** A socket that was in no room, joining a room it is not in and then
      disconnecting with every write succeeding, leaves the directory and the
      tracker as they were. */
  lemma JoinThenDisconnect(s: State, who: Identity, roomId: RoomId, name: string,
                           now: int, later: int, db: JoinStore)
    requires who.socketId !in s.userRooms && roomId != ""
    requires !OM.Has(MembersOf(s, roomId), who.socketId)
    requires roomId in s.activeRooms ==> |s.activeRooms[roomId]| > 0
    requires RoomReady(s, roomId, db)
    requires P.RecordKey(roomId, UserIdOf(who)) !in s.records
    ensures Disconnect(Join(s, who, roomId, name, now, db).state, who, later, true).state == s
  {
    JoinThenDisconnectUsers(s, who, roomId, name, now, later, db);
    JoinThenDisconnectRecords(s, who, roomId, name, now, later, db);
    JoinThenDisconnectRooms(s, who, roomId, name, now, later, db);
  }

  /** The socket-to-room half of `JoinThenDisconnect`. */
  lemma JoinThenDisconnectUsers(s: State, who: Identity, roomId: RoomId, name: string,
                                now: int, later: int, db: JoinStore)
    requires who.socketId !in s.userRooms
    ensures Disconnect(Join(s, who, roomId, name, now, db).state, who, later, true).state.userRooms
      == s.userRooms
  {
    assert s.userRooms[who.socketId := roomId] - {who.socketId} == s.userRooms;
  }

  /** The tracker half of `JoinThenDisconnect`. */
  lemma JoinThenDisconnectRecords(s: State, who: Identity, roomId: RoomId, name: string,
                                  now: int, later: int, db: JoinStore)
    requires roomId != "" && RoomReady(s, roomId, db)
    requires P.RecordKey(roomId, UserIdOf(who)) !in s.records
    ensures Disconnect(Join(s, who, roomId, name, now, db).state, who, later, true).state.records
      == s.records
  {
    var joined := Join(s, who, roomId, name, now, db).state;
    JoinedShape(s, who, roomId, name, now, db);
    var key := P.RecordKey(roomId, UserIdOf(who));
    assert HasRoomToLeave(joined, who.socketId);
    assert joined.records - {key} == s.records;
  }

  /** The room directory half of `JoinThenDisconnect`. */
  lemma JoinThenDisconnectRooms(s: State, who: Identity, roomId: RoomId, name: string,
                                now: int, later: int, db: JoinStore)
    requires who.socketId !in s.userRooms && roomId != ""
    requires !OM.Has(MembersOf(s, roomId), who.socketId)
    requires roomId in s.activeRooms ==> |s.activeRooms[roomId]| > 0
    requires RoomReady(s, roomId, db)
    requires P.RecordKey(roomId, UserIdOf(who)) !in s.records
    ensures Disconnect(Join(s, who, roomId, name, now, db).state, who, later, true).state.activeRooms
      == s.activeRooms
  {
    var joined := Join(s, who, roomId, name, now, db).state;
    JoinedShape(s, who, roomId, name, now, db);
    DisconnectedRooms(joined, who, later, true);
    AddRemoveMember(s.activeRooms, roomId, who.socketId, MemberFor(who, name));
  }

  /** Filing a socket that is new to a room and then removing it again gives
      back the same directory, provided the room was absent or non-empty. */
  lemma AddRemoveMember(rooms: map<RoomId, Members>, roomId: RoomId, sid: SocketId, m: Member)
    requires roomId in rooms ==> |rooms[roomId]| > 0 && !OM.Has(rooms[roomId], sid)
    ensures var before := if roomId in rooms then rooms[roomId] else [];
      var joined := rooms[roomId := OM.Set(before, sid, m)];
      var left := OM.Delete(joined[roomId], sid);
      (if |left| == 0 then joined - {roomId} else joined[roomId := left]) == rooms
  {
    var before := if roomId in rooms then rooms[roomId] else [];
    var filed := OM.Set(before, sid, m);
    OM.DeleteSetFresh(before, sid, m);
    RoomRestored(rooms, roomId, filed, OM.Delete(filed, sid));
  }

  /** Putting a room back to its old member list (or dropping it again when it
      was absent) restores the directory. */
  lemma RoomRestored(rooms: map<RoomId, Members>, roomId: RoomId, filed: Members, left: Members)
    requires left == (if roomId in rooms then rooms[roomId] else [])
    requires roomId in rooms ==> |rooms[roomId]| > 0
    ensures var joined := rooms[roomId := filed];
      (if |left| == 0 then joined - {roomId} else joined[roomId := left]) == rooms
  {
  }

  /** The rooms a disconnect leaves, spelled out. */
  lemma DisconnectedRooms(s: State, who: Identity, now: int, writeOk: bool)
    requires HasRoomToLeave(s, who.socketId)
    ensures var roomId := s.userRooms[who.socketId];
      var left := OM.Delete(s.activeRooms[roomId], who.socketId);
      Disconnect(s, who, now, writeOk).state.activeRooms
        == if |left| == 0 then s.activeRooms - {roomId} else s.activeRooms[roomId := left]
  {
  }

  /** The state a successful join leaves, spelled out field by field. */
  lemma JoinedShape(s: State, who: Identity, roomId: RoomId, name: string, now: int, db: JoinStore)
    requires RoomReady(s, roomId, db)
    requires P.RecordKey(roomId, UserIdOf(who)) !in s.records
    ensures var joined := Join(s, who, roomId, name, now, db).state;
      && joined.activeRooms == s.activeRooms[roomId := OM.Set(MembersOf(s, roomId), who.socketId, MemberFor(who, name))]
      && joined.userRooms == s.userRooms[who.socketId := roomId]
      && joined.records == s.records[P.RecordKey(roomId, UserIdOf(who)) :=
           P.FreshRecord(UserIdOf(who), MemberFor(who, name).username, roomId, now)]
  {
  }

  /** A socket that joins a second room without leaving the first stays listed
      in the first: disconnecting cleans up only the room recorded last. */
  lemma SwitchingRoomsLeavesStaleMember(s: State, who: Identity, roomA: RoomId, roomB: RoomId,
                                        name: string, now: int, db: JoinStore, writeOk: bool)
    requires roomA != roomB && roomB != ""
    requires RoomReady(s, roomA, db) && RoomReady(s, roomB, db)
    ensures var s1 := Join(s, who, roomA, name, now, db).state;
      var s2 := Join(s1, who, roomB, name, now, db).state;
      var s3 := Disconnect(s2, who, now, writeOk).state;
      roomA in s3.activeRooms && OM.Has(s3.activeRooms[roomA], who.socketId)
  {
    var s1 := Join(s, who, roomA, name, now, db).state;
    assert OM.Get(s1.activeRooms[roomA], who.socketId).Some?;
    var s2 := Join(s1, who, roomB, name, now, db).state;
    assert s2.activeRooms[roomA] == s1.activeRooms[roomA];
  }

  /** The two-socket example: A joins, then B; each one's peer snapshot is
      exactly the other. */
  lemma PeerSnapshotExample(a: Identity, b: Identity, roomId: RoomId, now: int, db: JoinStore)
    requires a.socketId != b.socketId && db.roomRecordOk
    ensures var s1 := Join(Initial, a, roomId, "", now, db).state;
      var s2 := Join(s1, b, roomId, "", now, db).state;
      && PeerIds(PeerSnapshot(s2, b, roomId)[0].event.users) == [a.socketId]
      && PeerIds(PeerSnapshot(s2, a, roomId)[0].event.users) == [b.socketId]
  {
    TwoJoinsKeys(a, b, roomId, now, db);
    WithoutOfPair(a.socketId, b.socketId);
  }

  /** After A and then B join an empty directory, the room holds A then B. */
  lemma TwoJoinsKeys(a: Identity, b: Identity, roomId: RoomId, now: int, db: JoinStore)
    requires a.socketId != b.socketId && db.roomRecordOk
    ensures var s1 := Join(Initial, a, roomId, "", now, db).state;
      var s2 := Join(s1, b, roomId, "", now, db).state;
      roomId in s2.activeRooms && OM.Keys(s2.activeRooms[roomId]) == [a.socketId, b.socketId]
  {
    var s1 := Join(Initial, a, roomId, "", now, db).state;
    assert OM.Keys(s1.activeRooms[roomId]) == [a.socketId];
  }

  /** Removing either of two distinct ids from their pair leaves the other. */
  lemma WithoutOfPair(x: SocketId, y: SocketId)
    requires x != y
    ensures OM.Without([x, y], y) == [x] && OM.Without([x, y], x) == [y]
  {
    assert [x, y][1..] == [y];
    assert OM.Without([y], y) == [];
    assert [y][1..] == [];
  }

  /** The host rule depends on membership size only: anyone asking about an
      active room with one member is host, whether or not they are that member,
      and a non-teacher in a room of two or more is not, even its first member. */
  lemma HostRuleBySize(s: State, who: Identity, roomId: RoomId)
    requires roomId in s.activeRooms
    ensures |s.activeRooms[roomId]| == 1 ==> IsHost(s, who, roomId)
    ensures |s.activeRooms[roomId]| >= 2 && who.role != Some("teacher") ==> !IsHost(s, who, roomId)
  {
  }

  /** Starting and then stopping to speak adds exactly the time between the two
      statuses to the speaker's record and closes the interval; nothing else in
      the state changes. */
  lemma SpeakThenSilence(s: State, who: Identity, roomId: RoomId, t1: int, t2: int)
    requires KeyOf(who, roomId) in s.records && !s.records[KeyOf(who, roomId)].speaking
    ensures var s2 := SpeakingStatus(SpeakingStatus(s, who, roomId, Some(true), t1).state,
                                     who, roomId, Some(false), t2).state;
      var r := s.records[KeyOf(who, roomId)];
      && s2.records[KeyOf(who, roomId)]
           == r.(lastActivity := t2, speakingStart := None, speakingTime := r.speakingTime + P.Seconds(t1, t2))
      && s2.activeRooms == s.activeRooms && s2.userRooms == s.userRooms
      && forall k :: k in s.records && k != KeyOf(who, roomId) ==> s2.records[k] == s.records[k]
  {
    var key := KeyOf(who, roomId);
    var s1 := SpeakingStatus(s, who, roomId, Some(true), t1).state;
    assert s1.records[key] == s.records[key].(lastActivity := t1, speaking := true, speakingStart := Some(t1));
  }

  /** Raising and then lowering a hand tells the others twice but counts once. */
  lemma HandUpThenDown(s: State, who: Identity, roomId: RoomId, t1: int, t2: int)
    requires KeyOf(who, roomId) in s.records
    ensures var up := HandRaise(s, who, roomId, true, t1);
      var down := HandRaise(up.state, who, roomId, false, t2);
      var r := s.records[KeyOf(who, roomId)];
      && down.state.records[KeyOf(who, roomId)] == r.(lastActivity := t1, handRaises := r.handRaises + 1)
      && up.out[0].event.isRaised && !down.out[0].event.isRaised
  {
  }

  /** Every admitted join files a record under the room, so from then on a
      teacher's or admin's request for that room's insights fails. */
  lemma InsightsFailAfterJoin(s: State, who: Identity, roomId: RoomId, name: string, now: int,
                              db: JoinStore, teacher: Identity)
    requires RoomReady(s, roomId, db) && MayReadInsights(teacher)
    ensures DirectTo(Insights(Join(s, who, roomId, name, now, db).state, teacher, roomId), teacher.socketId)
      == [Error(InsightsFailed)]
  {
    var key := KeyOf(who, roomId);
    assert key[..|roomId + ":"|] == roomId + ":";
    assert key in Join(s, who, roomId, name, now, db).state.records;
  }

  /** Before anyone has joined, a teacher's or admin's request gets the empty
      insight list. */
  lemma InsightsBeforeAnyJoin(teacher: Identity, roomId: RoomId)
    requires MayReadInsights(teacher)
    ensures DirectTo(Insights(Initial, teacher, roomId), teacher.socketId) == [ParticipationInsights]
  {
  }
}

=== FILE: strings.dfy ===
/** String helpers that the JavaScript sources use implicitly:
    `String.prototype.includes`, `split(sep).pop()` and decimal rendering of integers. */
module Strings {

  import opened Wrappers

  /** JavaScript's `x || fallback` for an optional string: the empty string and a
      missing value both give way to the fallback. */
  function OrElse(x: Option<string>, fallback: string): (r: string)
    ensures r == fallback || (x.Some? && r == x.value && r != "")
    ensures x.Some? && x.value != "" ==> r == x.value
  {
    if x.Some? && x.value != "" then x.value else fallback
  }

  /** `sub` occurs in `s` starting at index `i`. */
  predicate OccursAt(s: string, sub: string, i: nat)
  {
    i + |sub| <= |s| && s[i..i + |sub|] == sub
  }

  /** `sub` occurs somewhere in `s` (the meaning of `s.includes(sub)`). */
  ghost predicate Occurs(s: string, sub: string)
  {
    exists i: nat :: OccursAt(s, sub, i)
  }

  /** The first index at or after `from` where `sub` occurs, if any. */
  function IndexOfFrom(s: string, sub: string, from: nat): (r: Option<nat>)
    ensures r.Some? ==> from <= r.value && OccursAt(s, sub, r.value)
    ensures r.Some? ==> forall j: nat :: from <= j < r.value ==> !OccursAt(s, sub, j)
    ensures r.None? ==> forall j: nat :: from <= j ==> !OccursAt(s, sub, j)
    decreases |s| + 1 - from
  {
    if from + |sub| > |s| then None
    else if s[from..from + |sub|] == sub then Some(from)
    else IndexOfFrom(s, sub, from + 1)
  }

  /** The first index where `sub` occurs (`s.indexOf(sub)`), if any. */
  function IndexOf(s: string, sub: string): (r: Option<nat>)
    ensures r.Some? ==> OccursAt(s, sub, r.value)
    ensures r.Some? ==> forall j: nat :: j < r.value ==> !OccursAt(s, sub, j)
    ensures r.None? ==> !Occurs(s, sub)
  {
    IndexOfFrom(s, sub, 0)
  }

  /** `s.includes(sub)`. */
  function Includes(s: string, sub: string): (b: bool)
    ensures b <==> Occurs(s, sub)
  {
    IndexOf(s, sub).Some?
  }

  /** The last element of `s.split(sep)` for a non-empty separator: the split scans
      left to right, cutting at each non-overlapping occurrence, and `pop()` keeps
      what follows the final cut (the whole string when there is none).
      `LastSegmentSpec` states what the result is. */
  function LastSegment(s: string, sep: string): (r: string)
    requires |sep| > 0
    ensures |r| <= |s|
    decreases |s|
  {
    match IndexOf(s, sep)
    case None => s
    case Some(i) => LastSegment(s[i + |sep|..], sep)
  }

  /** The last segment is a suffix of `s`. */
  lemma {:induction false} LastSegmentIsSuffix(s: string, sep: string)
    requires |sep| > 0
    ensures LastSegment(s, sep) == s[|s| - |LastSegment(s, sep)|..]
    decreases |s|
  {
    var x := IndexOf(s, sep);
    if x.Some? {
      var rest := s[x.value + |sep|..];
      LastSegmentIsSuffix(rest, sep);
      assert LastSegment(s, sep) == LastSegment(rest, sep);
      assert rest[|rest| - |LastSegment(rest, sep)|..] == s[|s| - |LastSegment(rest, sep)|..];
    }
  }

  /** The last segment never contains the separator. */
  lemma {:induction false} LastSegmentFree(s: string, sep: string)
    requires |sep| > 0
    ensures !Occurs(LastSegment(s, sep), sep)
    decreases |s|
  {
    var x := IndexOf(s, sep);
    if x.Some? {
      var rest := s[x.value + |sep|..];
      LastSegmentFree(rest, sep);
      assert LastSegment(s, sep) == LastSegment(rest, sep);
    } else {
      assert LastSegment(s, sep) == s;
    }
  }

  /** `sep` ends exactly where the tail `r` of `s` begins. */
  predicate SepBefore(s: string, sep: string, r: string)
  {
    |r| + |sep| <= |s| && s[|s| - |r| - |sep|..|s| - |r|] == sep
  }

  /** When `sep` occurs in `s`, the last segment is preceded by `sep`, so `s` is
      some prefix, then `sep`, then the last segment. */
  lemma {:induction false} LastSegmentAfterCut(s: string, sep: string)
    requires |sep| > 0 && Occurs(s, sep)
    ensures SepBefore(s, sep, LastSegment(s, sep))
    decreases |s|
  {
    var i := IndexOf(s, sep).value;
    var k := i + |sep|;
    var rest := s[k..];
    var r := LastSegment(rest, sep);
    assert LastSegment(s, sep) == r;
    if IndexOf(rest, sep).Some? {
      assert OccursAt(rest, sep, IndexOf(rest, sep).value);
      LastSegmentAfterCut(rest, sep);
      SepBeforeTail(s, sep, k, r);
    } else {
      assert r == rest;
      SepBeforeRest(s, sep, i);
    }
  }

  /** An occurrence of `sep` at `i` ends right before `s[i + |sep|..]`. */
  lemma SepBeforeRest(s: string, sep: string, i: nat)
    requires OccursAt(s, sep, i)
    ensures SepBefore(s, sep, s[i + |sep|..])
  {
  }

  /** If `sep` ends right before a tail `r` of `s[k..]`, it ends right before
      the same tail of `s`. */
  lemma SepBeforeTail(s: string, sep: string, k: nat, r: string)
    requires k <= |s| && SepBefore(s[k..], sep, r)
    ensures SepBefore(s, sep, r)
  {
    assert s[k..][|s| - k - |r| - |sep|..|s| - k - |r|] == s[|s| - |r| - |sep|..|s| - |r|];
  }

  /** Everything the three lemmas above say, in one place. */
  lemma LastSegmentSpec(s: string, sep: string)
    requires |sep| > 0
    ensures LastSegment(s, sep) == s[|s| - |LastSegment(s, sep)|..]
    ensures !Occurs(LastSegment(s, sep), sep)
    ensures !Occurs(s, sep) ==> LastSegment(s, sep) == s
    ensures Occurs(s, sep) ==>
      && |LastSegment(s, sep)| + |sep| <= |s|
      && s[|s| - |LastSegment(s, sep)| - |sep|..|s| - |LastSegment(s, sep)|] == sep
  {
    LastSegmentIsSuffix(s, sep);
    LastSegmentFree(s, sep);
    if Occurs(s, sep) {
      LastSegmentAfterCut(s, sep);
    } else {
      assert IndexOf(s, sep).None?;
    }
  }

  /** The decimal digit for `d` in 0..9. */
  function DigitChar(d: nat): (c: char)
    requires d < 10
    ensures '0' <= c <= '9'
    ensures (c as int) - ('0' as int) == d
  {
    (('0' as int) + d) as char
  }

  /** Decimal rendering of a natural number, without leading zeros (`String(n)`). */
  function NatToString(n: nat): (s: string)
    ensures |s| >= 1
    ensures forall i :: 0 <= i < |s| ==> '0' <= s[i] <= '9'
    ensures |s| > 1 ==> s[0] != '0'
    decreases n
  {
    if n < 10 then [DigitChar(n)] else NatToString(n / 10) + [DigitChar(n % 10)]
  }

  /** Decimal rendering of an integer, with a leading '-' when negative (`String(n)`). */
  function IntToString(n: int): (s: string)
    ensures |s| >= 1
    ensures n >= 0 ==> s == NatToString(n)
    ensures n < 0 ==> s == "-" + NatToString(-n)
  {
    if n < 0 then "-" + NatToString(-n) else NatToString(n)
  }

  /** The value of a string of decimal digits; the partner of `NatToString`. */
  function ParseDigits(s: string): nat
    requires forall i :: 0 <= i < |s| ==> '0' <= s[i] <= '9'
    decreases |s|
  {
    if |s| == 0 then 0
    else 10 * ParseDigits(s[..|s| - 1]) + ((s[|s| - 1] as int) - ('0' as int))
  }

  lemma {:induction false} ParseNatToString(n: nat)
    ensures ParseDigits(NatToString(n)) == n
    decreases n
  {
    var s := NatToString(n);
    if n < 10 {
      assert s[..|s| - 1] == [];
    } else {
      ParseNatToString(n / 10);
      assert s[..|s| - 1] == NatToString(n / 10);
      assert s[|s| - 1] == DigitChar(n % 10);
    }
  }

  /** Distinct numbers render to distinct texts. */
  lemma NatToStringInjective(m: nat, n: nat)
    requires NatToString(m) == NatToString(n)
    ensures m == n
  {
    ParseNatToString(m);
    ParseNatToString(n);
  }
}

=== FILE: transport.dfy ===
/** Socket.io addressing, as both servers use it: an outbound event goes to one
    socket, or to every socket in a room except the sender. Emitting is modelled
    as producing values in an outbox; delivery itself is not modelled. */
module Transport {

  type SocketId = string
  type RoomId = string

  /** `io.to(id)` or `socket.emit` reach one socket; `socket.to(room)` reaches the
      room's other sockets. */
  datatype Target = ToSocket(socket: SocketId) | ToRoomExcept(room: RoomId, except: SocketId)

  datatype Outbound<E> = Emit(target: Target, event: E)

  /** The events of `out` addressed to socket `id` by name, in order. */
  function DirectTo<E>(out: seq<Outbound<E>>, id: SocketId): (es: seq<E>)
    ensures |es| <= |out|
    ensures (forall i :: 0 <= i < |out| ==> out[i].target != ToSocket(id)) ==> es == []
  {
    if |out| == 0 then []
    else (if out[0].target == ToSocket(id) then [out[0].event] else []) + DirectTo(out[1..], id)
  }

  /** Whether `out` broadcasts anything into a room. */
  predicate Broadcasts<E>(out: seq<Outbound<E>>)
  {
    exists i :: 0 <= i < |out| && out[i].target.ToRoomExcept?
  }

  /** A shared file exactly as the client builds it (`fileData`); the simple
      server stores and relays it unchanged. */
  datatype FileData = FileData(
    id: string, name: string, fileType: string, size: int, data: string,
    uploadedBy: string, roomId: RoomId, timestamp: string)
}

=== FILE: video_grid.dfy ===
/** The video grid's column count (client/src/components/VideoConferencing/VideoGrid.jsx):
    one tile per peer plus the user's own. */
module VideoGrid {

  import Strings

  /** The number of columns for `peers` remote tiles and the user's own. */
  function Columns(peers: nat): (c: nat)
    ensures 1 <= c <= 4
    ensures c == 1 <==> peers + 1 == 1
    ensures c == 2 <==> 2 <= peers + 1 <= 4
    ensures c == 3 <==> 5 <= peers + 1 <= 9
    ensures c == 4 <==> peers + 1 >= 10
  {
    var count := peers + 1;
    if count == 1 then 1
    else if count == 2 then 2
    else if count <= 4 then 2
    else if count <= 9 then 3
    else 4
  }

  /** `gridColsClass`: the Tailwind class naming that column count. */
  function GridColsClass(peers: nat): (cls: string)
    ensures cls == "grid-cols-" + Strings.NatToString(Columns(peers))
    ensures |cls| == 11
  {
    "grid-cols-" + Strings.NatToString(Columns(peers))
  }

  /** More peers never mean fewer columns. */
  lemma ColumnsMonotone(a: nat, b: nat)
    requires a <= b
    ensures Columns(a) <= Columns(b)
  {
  }

  /** Up to sixteen tiles, a square of that many columns holds them all, and it
      is the smallest such square. */
  lemma ColumnsFit(peers: nat)
    requires peers + 1 <= 16
    ensures Columns(peers) * Columns(peers) >= peers + 1
    ensures Columns(peers) == 1 || (Columns(peers) - 1) * (Columns(peers) - 1) < peers + 1
  {
  }
}

=== FILE: whiteboard_history.dfy ===
/** The whiteboard hook's bounded undo/redo history (client/src/hooks/useWhiteboard.js):
    a list of canvas snapshots and the index of the one on screen. Snapshots are
    opaque image tokens; drawing on the canvas itself is not modelled. */
module WhiteboardHistory {

  import opened Wrappers

  /** A canvas snapshot (`canvas.toDataURL()`), compared only for equality. */
  type Image = string

  /** The hook's default `historyLimit`. */
  const DefaultLimit := 20

  function Min(a: int, b: int): int { if a <= b then a else b }
  function Max(a: int, b: int): int { if a <= b then b else a }

  /** JavaScript `xs.slice(0, end)`: a negative `end` counts from the back. */
  function SliceTo<T>(xs: seq<T>, end: int): (r: seq<T>)
    ensures |r| <= |xs| && r == xs[..|r|]
    ensures 0 <= end <= |xs| ==> |r| == end
    ensures end > |xs| ==> r == xs
  {
    if end >= 0 then xs[..Min(end, |xs|)] else xs[..Max(0, |xs| + end)]
  }

  /** JavaScript `xs.slice(start)`: a negative `start` counts from the back. */
  function SliceFrom<T>(xs: seq<T>, start: int): (r: seq<T>)
    ensures |r| <= |xs| && r == xs[|xs| - |r|..]
    ensures 0 <= start <= |xs| ==> |r| == |xs| - start
    ensures -|xs| <= start < 0 ==> |r| == -start
    ensures start < -|xs| ==> r == xs
  {
    if start >= 0 then xs[Min(start, |xs|)..] else xs[Max(0, |xs| + start)..]
  }

  /** `xs.slice(-limit)`: the last `limit` entries for a positive limit; since
      `-0` is `0`, a zero limit keeps everything, and a negative one drops a
      prefix instead. */
  function KeepLast<T>(xs: seq<T>, limit: int): (r: seq<T>)
    ensures |r| <= |xs| && r == xs[|xs| - |r|..]
    ensures limit >= 1 ==> |r| == Min(limit, |xs|)
    ensures limit == 0 ==> r == xs
  {
    SliceFrom(xs, -limit)
  }

  /** The hook's state: the snapshots, the index of the one on screen (-1 for
      none), whether a stroke is in progress, and whether the canvas and its
      context have been set up. */
  datatype Board = Board(history: seq<Image>, index: int, drawing: bool, ready: bool)

  const Initial := Board([], -1, false, false)

  /** What the hook emits through the socket hook (event names `whiteboard_*`). */
  datatype Emitted =
    | UndoTo(historyIndex: int)
    | RedoTo(historyIndex: int)
    | Cleared
    | DrawStart
    | DrawEnd

  /** A transition: the new state, what was emitted, and the snapshot painted on
      the canvas, if any. */
  datatype Step = Step(board: Board, out: seq<Emitted>, shown: Option<Image>)

  /** `applyCanvasState`: a snapshot is painted only once the canvas is set up. */
  function Paint(b: Board, img: Image): (shown: Option<Image>)
    ensures shown.Some? <==> b.ready
    ensures shown.Some? ==> shown.value == img
  {
    if b.ready then Some(img) else None
  }

  /** The index is -1 or points at a snapshot. */
  ghost predicate Inv(b: Board)
  {
    -1 <= b.index < |b.history|
  }

  /** `canUndoRedo.canUndo`. */
  predicate CanUndo(b: Board) { b.index > 0 }

  /** `canUndoRedo.canRedo`. */
  predicate CanRedo(b: Board) { b.index < |b.history| - 1 }

  // ---------------------------------------------------------------------------
  // Local operations

  /** `saveCanvasState`: the redo branch past the index is dropped, the snapshot
      is appended, only the last `limit` entries are kept, and the index moves
      to the newest. Nothing happens before the canvas is set up. */
  function Save(b: Board, img: Image, limit: int): (b': Board)
    ensures !b.ready ==> b' == b
    ensures b.ready ==> b'.index == |b'.history| - 1 && b'.drawing == b.drawing && b'.ready
    ensures b.ready && limit >= 1 ==> 0 < |b'.history| <= limit
    ensures b.ready && limit >= 0 ==> |b'.history| > 0
    ensures b.ready && |b'.history| > 0 ==> b'.history[|b'.history| - 1] == img
    ensures b.ready && Inv(b) && limit >= 1 ==> |b'.history| == Min(limit, b.index + 2)
    ensures b.ready && Inv(b) && limit == 0 ==> |b'.history| == b.index + 2
    ensures b.ready && Inv(b) ==> forall j :: 0 <= j < |b'.history| - 1 ==>
      b.index + 1 - (|b'.history| - 1) + j >= 0 &&
      b'.history[j] == b.history[b.index + 1 - (|b'.history| - 1) + j]
  {
    if !b.ready then b
    else
      var kept := SliceTo(b.history, b.index + 1) + [img];
      var h := KeepLast(kept, limit);
      b.(history := h, index := |h| - 1)
  }

  /** `undo`: steps back one snapshot and paints it, unless already at the first
      (or there is none); the new index is emitted when online. */
  function Undo(b: Board, online: bool): (r: Step)
    ensures b.index <= 0 || |b.history| == 0 ==> r == Step(b, [], None)
    ensures b.index > 0 && |b.history| > 0 ==>
      r.board == b.(index := b.index - 1)
      && r.out == (if online then [UndoTo(b.index - 1)] else [])
    ensures Inv(b) && b.index > 0 ==> r.shown == Paint(b, b.history[b.index - 1])
  {
    if b.index <= 0 || |b.history| == 0 then Step(b, [], None)
    else
      var i := b.index - 1;
      Step(b.(index := i), if online then [UndoTo(i)] else [],
           if i < |b.history| then Paint(b, b.history[i]) else None)
  }

  /** `redo`: steps forward one snapshot and paints it, unless already at the
      last; the new index is emitted when online. */
  function Redo(b: Board, online: bool): (r: Step)
    ensures b.index >= |b.history| - 1 ==> r == Step(b, [], None)
    ensures b.index < |b.history| - 1 ==>
      r.board == b.(index := b.index + 1)
      && r.out == (if online then [RedoTo(b.index + 1)] else [])
    ensures Inv(b) && b.index < |b.history| - 1 ==> r.shown == Paint(b, b.history[b.index + 1])
  {
    if b.index >= |b.history| - 1 then Step(b, [], None)
    else
      var i := b.index + 1;
      Step(b.(index := i), if online then [RedoTo(i)] else [],
           if 0 <= i then Paint(b, b.history[i]) else None)
  }

  /** `clearWhiteboard`: the blank canvas is saved as a new snapshot and the
      clear is emitted when online; nothing happens before set-up. */
  function Clear(b: Board, blank: Image, online: bool, limit: int): (r: Step)
    ensures !b.ready ==> r == Step(b, [], None)
    ensures b.ready ==> r.board == Save(b, blank, limit)
    ensures b.ready ==> (Cleared in r.out <==> online) && |r.out| <= 1
  {
    if !b.ready then Step(b, [], None)
    else Step(Save(b, blank, limit), if online then [Cleared] else [], None)
  }

  /** `initializeCanvas`: the canvas is set up and its first snapshot saved. */
  function Initialize(b: Board, img: Image, limit: int): (b': Board)
    ensures b'.ready && b'.index == |b'.history| - 1
    ensures limit >= 0 ==> |b'.history| > 0 && b'.history[b'.index] == img
  {
    Save(b.(ready := true), img, limit)
  }

  /** `startDrawing`: with a context, a stroke begins and is announced when online. */
  function StartDrawing(b: Board, online: bool): (r: Step)
    ensures !b.ready ==> r == Step(b, [], None)
    ensures b.ready ==> r.board == b.(drawing := true) && (r.out == [DrawStart] <==> online)
  {
    if !b.ready then Step(b, [], None)
    else Step(b.(drawing := true), if online then [DrawStart] else [], None)
  }

  /** `endDrawing`: a stroke in progress ends, the canvas is saved, and the end
      is announced when online; without a stroke nothing happens. */
  function EndDrawing(b: Board, img: Image, online: bool, limit: int): (r: Step)
    ensures !b.drawing ==> r == Step(b, [], None)
    ensures b.drawing ==> !r.board.drawing && r.board == Save(b.(drawing := false), img, limit)
    ensures b.drawing ==> (r.out == [DrawEnd] <==> online)
  {
    if !b.drawing then Step(b, [], None)
    else Step(Save(b.(drawing := false), img, limit), if online then [DrawEnd] else [], None)
  }

  // ---------------------------------------------------------------------------
  // Remote events (subscribed only while connected)

  /** A remote `whiteboard_undo` or `whiteboard_redo`: the index is taken, and its
      snapshot painted, only if it points into the history. */
  function RemoteIndex(b: Board, i: int): (r: Step)
    ensures 0 <= i < |b.history| ==> r.board == b.(index := i) && r.shown == Paint(b, b.history[i])
    ensures !(0 <= i < |b.history|) ==> r == Step(b, [], None)
    ensures r.out == []
  {
    if 0 <= i < |b.history| then Step(b.(index := i), [], Paint(b, b.history[i]))
    else Step(b, [], None)
  }

  /** A remote `whiteboard_state`: a non-empty image replaces the whole history
      and is painted; a missing or empty one is ignored. */
  function RemoteState(b: Board, imageData: Option<Image>): (r: Step)
    ensures imageData.Some? && imageData.value != "" ==>
      r.board.history == [imageData.value] && r.board.index == 0 && r.shown == Paint(b, imageData.value)
    ensures imageData.Some? && imageData.value != "" ==> r.board.drawing == b.drawing && r.board.ready == b.ready
    ensures imageData.None? || imageData.value == "" ==> r == Step(b, [], None)
    ensures r.out == []
  {
    if imageData.Some? && imageData.value != "" then
      Step(b.(history := [imageData.value], index := 0), [], Paint(b, imageData.value))
    else Step(b, [], None)
  }

  /** A remote `whiteboard_clear` runs the local clear, which emits a clear of its own. */
  function RemoteClear(b: Board, blank: Image, limit: int): (r: Step)
    ensures b.ready ==> r.out == [Cleared]
    ensures b.ready ==> r.board == Save(b, blank, limit)
  {
    Clear(b, blank, true, limit)
  }

  // ---------------------------------------------------------------------------
  // Properties

  /** The undo button is enabled exactly when undo would do something. */
  lemma UndoEnabledIffCanUndo(b: Board, online: bool)
    requires Inv(b)
    ensures Undo(b, online).board != b <==> CanUndo(b)
  {
  }

  /** The redo button is enabled exactly when redo would do something. */
  lemma RedoEnabledIffCanRedo(b: Board, online: bool)
    requires Inv(b)
    ensures Redo(b, online).board != b <==> CanRedo(b)
  {
  }

  /** Undo then redo comes back to the same state and paints the snapshot that
      was on screen; redo then undo likewise. */
  lemma UndoRedoRoundTrip(b: Board, online: bool)
    requires Inv(b)
    ensures CanUndo(b) ==>
      var u := Undo(b, online).board;
      Redo(u, online).board == b && Redo(u, online).shown == Paint(b, b.history[b.index])
    ensures CanRedo(b) && b.index >= 1 ==>
      var r := Redo(b, online).board;
      Undo(r, online).board == b && Undo(r, online).shown == Paint(b, b.history[b.index])
  {
  }

  /** A save leaves nothing to redo, and an undo right after it paints what was
      on screen before the save (given room for two snapshots). */
  lemma SaveThenUndo(b: Board, img: Image, limit: int, online: bool)
    requires Inv(b) && b.ready && b.index >= 0 && limit >= 2
    ensures !CanRedo(Save(b, img, limit))
    ensures CanUndo(Save(b, img, limit))
    ensures Undo(Save(b, img, limit), online).shown == Some(b.history[b.index])
  {
    var s := Save(b, img, limit);
    var n := |s.history|;
    assert n >= 2;
    assert s.history[n - 2] == b.history[b.index + 1 - (n - 1) + (n - 2)];
  }

  /** Saving "b" over a ready board holding "a" keeps both, in order. */
  lemma SaveExample()
    ensures Save(Board(["a"], 0, false, true), "b", DefaultLimit).history == ["a", "b"]
    ensures Save(Board(["a", "b", "c"], 0, false, true), "d", 2).history == ["a", "d"]
  {
    var kept := SliceTo(["a"], 1) + ["b"];
    assert kept == ["a", "b"];
    var kept2 := SliceTo(["a", "b", "c"], 1) + ["d"];
    assert kept2 == ["a", "d"];
  }

  /** The operations a board goes through. */
  datatype Op =
    | SaveOp(img: Image, limit: int)
    | UndoOp(online: bool)
    | RedoOp(online: bool)
    | ClearOp(blank: Image, online: bool, limit: int)
    | InitializeOp(img: Image, limit: int)
    | StartOp(online: bool)
    | EndOp(img: Image, online: bool, limit: int)
    | RemoteIndexOp(i: int)
    | RemoteStateOp(imageData: Option<Image>)

  function Apply(b: Board, op: Op): Board
  {
    match op
    case SaveOp(img, limit) => Save(b, img, limit)
    case UndoOp(online) => Undo(b, online).board
    case RedoOp(online) => Redo(b, online).board
    case ClearOp(blank, online, limit) => Clear(b, blank, online, limit).board
    case InitializeOp(img, limit) => Initialize(b, img, limit)
    case StartOp(online) => StartDrawing(b, online).board
    case EndOp(img, online, limit) => EndDrawing(b, img, online, limit).board
    case RemoteIndexOp(i) => RemoteIndex(b, i).board
    case RemoteStateOp(imageData) => RemoteState(b, imageData).board
  }

  function Run(b: Board, ops: seq<Op>): Board
    decreases |ops|
  {
    if |ops| == 0 then b else Run(Apply(b, ops[0]), ops[1..])
  }

  lemma ApplyKeepsInv(b: Board, op: Op)
    requires Inv(b)
    ensures Inv(Apply(b, op))
  {
  }

  /** From the empty history, every sequence of operations keeps the index at
      -1 or on a snapshot, whatever the history limit. */
  lemma {:induction false} RunKeepsInv(b: Board, ops: seq<Op>)
    requires Inv(b)
    ensures Inv(Run(b, ops))
    decreases |ops|
  {
    if |ops| > 0 {
      ApplyKeepsInv(b, ops[0]);
      RunKeepsInv(Apply(b, ops[0]), ops[1..]);
    }
  }

  lemma InitialInv()
    ensures Inv(Initial) && !CanUndo(Initial) && !CanRedo(Initial)
  {
  }
}

=== FILE: wrappers.dfy ===
/** Optional values, standing in for JavaScript's `null`/`undefined`. */
module Wrappers {

  datatype Option<+T> = None | Some(value: T) {

    /** The value if present, otherwise the given default (the `x || d` idiom). */
    function GetOr(default: T): T
    {
      match this
      case Some(v) => v
      case None => default
    }
  }
}
